=== FILE: README.md ===
# OpenSCAP 0.8.4 core: CPE names, CPE language nodes and OVAL test results

This project models in Dafny the logic behind three pieces of the OpenSCAP 0.8.4 library, each written as pure functions over strings, enumerations and small records.

- **CPE 2.2 URI names** (`CPE/cpeuri.c`, `CPE/public/cpeuri.h`, `CPE/cpedict.c`):
  - a name is a part (hardware, operating system, application or none) plus six optional fields;
  - names are parsed from and rendered to `cpe:/…` URIs;
  - fields are percent-encoded, keeping the unreserved characters of section 2.3 of RFC 3986 and writing `%XX` as in section 2.1;
  - a candidate name matches another field by field, an absent field acting as a wildcard;
  - a name is matched against a list or a dictionary.
- **CPE language test expressions** (`CPE/cpelang_priv.c`):
  - a node is MATCH, carrying a name, or AND/OR, with an optional NOT bit, carrying a child list;
  - the setters guard which payload a node may hold;
  - the platform and language model adders;
  - the mapping between the `operator`/`negate` XML attributes and the operator codes.
- **OVAL result engine** (`OVAL/oval_resultTest.c`, `OVAL/oval_resultDefinition.c`):
  - the RPM version comparison `rpmvercmp`;
  - the typed comparator `evaluate`;
  - the six-counter tally and its check and operator tables, which follow the CheckEnumeration and OperatorEnumeration of the OVAL 5 common schema;
  - the existence table (ExistenceEnumeration);
  - the dispatch on the collection flag of the collected object;
  - item de-duplication;
  - the memoised NOT_EVALUATED → result state of tests and definitions.
- **Element helpers** (`common/elements.c`): the key/value lookup `oscap_strlist_find_value` and the `OSCAP_BOOL_MAP` table.

Files and their modules:

| file | module | models |
|---|---|---|
| wrappers.dfy | Wrappers | `Option` (a C NULL pointer is `None`) |
| ascii.dfy | Ascii | the ASCII `ctype.h` classes, `tolower`, hex digits, caseless equality |
| bits.dfy | BitOps | bitwise AND/OR on non-negative integers, stated bit by bit |
| cpe_uri.dfy | CpeUri | `cpeuri.c` |
| cpe_dict.dfy | CpeDict | `cpedict.c` |
| cpe_lang.dfy | CpeLang | `cpelang_priv.c` |
| elements.dfy | Elements | `elements.c` |
| oval_types.dfy | OvalTypes | the OVAL enumerations, results, tests, states and collected items |
| rpm_vercmp.dfy | RpmVerCmp | `rpmvercmp` |
| comparator.dfy | Comparator | `istrcmp`, `atoi`, `evaluate` |
| ores.dfy | Ores | `struct oresults` and its functions |
| result_test.dfy | ResultTest | `eval_item` … `oval_result_test_eval` |
| result_definition.dfy | ResultDefinition | `oval_result_definition_*` |

Conventions:
- Strings are `seq<char>`.
- A C string (`CString`) is a sequence of non-NUL bytes (characters below 256).
- The `ctype.h` functions and `atoi` are the ASCII "C" locale versions.
- `atoi` wraps to 32 bits explicitly (`Comparator.Wrap32`).
- A function that mutates a C record returns a pair: the C return value and the record afterwards.
- Calls the model cannot see are parameters of type `Externals`: the float comparison, the regular expression match and the IPv6 comparison.

## Model

| member | source | states |
|---|---|---|
| CpeUri.PartText | packages/openscap/openscap-0.8.4/src/CPE/cpeuri.c:78-83 | CPE_PART_MAP: NONE has no text; HW, OS and APP are "h", "o" and "a" |
| CpeUri.PartOf | packages/openscap/openscap-0.8.4/src/CPE/cpeuri.c:158-160 | only exactly "h", "o" or "a" name a part, anything else (NULL included) is NONE; it inverts PartText |
| CpeUri.GetField | packages/openscap/openscap-0.8.4/src/CPE/cpeuri.c:119-145 | field 0 is the part's text, NULL only for no part, and reading it back with PartOf gives the part; fields 1 to 6 are the text fields in order (NameExtensional: the seven fields determine the name) |
| CpeUri.AsStr | packages/openscap/openscap-0.8.4/src/CPE/cpeuri.c:351-356 | NULL reads as "", a present string as itself; the result is empty iff the field is NULL or empty |
| CpeUri.SetField | packages/openscap/openscap-0.8.4/src/CPE/cpeuri.c:147-193 | setting a field leaves the other six unchanged; the part succeeds iff the text is h/o/a; a text field always succeeds, and an empty string is stored as NULL |
| CpeUri.Clone | packages/openscap/openscap-0.8.4/src/CPE/cpeuri.c:221-236 | the clone has every field of the original |
| CpeUri.CloneIsCopy | packages/openscap/openscap-0.8.4/src/CPE/cpeuri.c:227-233 | the clone is the same name as the original |
| CpeUri.FieldsNum | packages/openscap/openscap-0.8.4/src/CPE/cpeuri.c:105-117 | one more than the index of the last present field, 0 when none is present: every field from it on is NULL, the one before it is not |
| CpeUri.AssignValues | packages/openscap/openscap-0.8.4/src/CPE/cpeuri.c:439-453 | the i-th piece lands in field i; empty pieces and missing trailing pieces are NULL, so the name has no empty component |
| CpeUri.EncodeByte | packages/openscap/openscap-0.8.4/src/CPE/cpeuri.c:368-376 | the intended byte encoder (the program's, with a signed `char`, is EncodeByteAsWritten): an alphanumeric or `-._~` byte is kept; any other byte becomes `%` and two uppercase hex digits |
| CpeUri.UrlEncode | packages/openscap/openscap-0.8.4/src/CPE/cpeuri.c:358-381 | the intended encoder (the program's is UrlEncodeAsWritten): the encoding only uses URI field characters, is empty iff the input is, and leaves a string of unreserved bytes unchanged |
| CpeUri.EncodeByteAsWritten | packages/openscap/openscap-0.8.4/src/CPE/cpeuri.c:373 | with a signed `char`, a byte of 0x80 or more is written as "%FF"; lower bytes are encoded correctly |
| CpeUri.UrlEncodeAsWritten | packages/openscap/openscap-0.8.4/src/CPE/cpeuri.c:366-378 | on pure ASCII input the as-written encoder agrees with UrlEncode |
| CpeUri.EncodeAsWrittenLosesHighBytes | packages/openscap/openscap-0.8.4/src/CPE/cpeuri.c:373 | "é" (0xE9) encodes as "%FF" and decodes as 0xFF, not back to "é" |
| CpeUri.SquashByte | packages/openscap/openscap-0.8.4/src/CPE/cpeuri.c:373 | the byte whose correct encoding is what the program writes: a byte below 0x80 is itself, any byte from 0x80 up is 0xFF |
| CpeUri.Squash | packages/openscap/openscap-0.8.4/src/CPE/cpeuri.c:366-378 | every byte squashed, the length kept |
| CpeUri.SquashKeeps | packages/openscap/openscap-0.8.4/src/CPE/cpeuri.c:373 | squashing leaves a string unchanged iff each of its bytes is below 0x80 or is 0xFF |
| CpeUri.EncodeByteAsWrittenSquashes | packages/openscap/openscap-0.8.4/src/CPE/cpeuri.c:370-376 | each byte is written as the correct encoding of its squashed byte |
| CpeUri.UrlEncodeAsWrittenSquashes | packages/openscap/openscap-0.8.4/src/CPE/cpeuri.c:358-381 | cpe_urlencode as written is the correct encoder applied to the squashed string |
| CpeUri.DecodeRaw | packages/openscap/openscap-0.8.4/src/CPE/cpeuri.c:246-263 | decoding never lengthens a field, yields bytes, and leaves a field without `%` unchanged with status true; a malformed escape stops it with false (DecodeRawMalformed) |
| CpeUri.UrlDecode | packages/openscap/openscap-0.8.4/src/CPE/cpeuri.c:239-264 | the field read back as a C string (up to a decoded NUL); a field without `%` is unchanged; a field with a malformed escape is cut there with false (UrlDecodeMalformed) |
| CpeUri.DecodeRawMalformed | packages/openscap/openscap-0.8.4/src/CPE/cpeuri.c:250-256 | a `%` not followed by two hex digits ends decoding: the plain bytes before it are kept, a NUL goes in its place, and the status is false |
| CpeUri.UrlDecodeMalformed | packages/openscap/openscap-0.8.4/src/CPE/cpeuri.c:239-264 | the field cpe_urldecode leaves is the text before the malformed escape, with status false |
| CpeUri.DecodeEncode | packages/openscap/openscap-0.8.4/src/CPE/cpeuri.c:239-264 | decoding the encoding of any byte string gives it back, with status true |
| CpeUri.GrammarOk | packages/openscap/openscap-0.8.4/src/CPE/cpeuri.c:330-349 | cpe_name_check's pattern `^cpe:/[aho]?(:[a-z0-9._~%-]*){0,6}$` without regard to case, `$` also before a final newline; a predicate without its own contract, characterised by GrammarColons (at most six colons after `cpe:/`), UriGrammar (every rendered URI passes) and NameNew (parsing fails iff it rejects) |
| CpeUri.GrammarColons | packages/openscap/openscap-0.8.4/src/CPE/cpeuri.c:340 | a string the grammar accepts has at most six colons after `cpe:/`, so it never has more than seven fields |
| CpeUri.Split | packages/openscap/openscap-0.8.4/src/CPE/cpeuri.c:211 | splitting at `:` yields one piece more than there are colons, and no piece holds a colon |
| CpeUri.SplitJoin | packages/openscap/openscap-0.8.4/src/CPE/cpeuri.c:211 | splitting pieces joined with `:` gives the pieces back |
| CpeUri.TrimColons | packages/openscap/openscap-0.8.4/src/CPE/cpeuri.c:414-416 | the result is a prefix of the input that does not end in `:`, and only colons were removed |
| CpeUri.TrimColonRun | packages/openscap/openscap-0.8.4/src/CPE/cpeuri.c:414-416 | trimming removes exactly a trailing run of colons after a non-colon |
| CpeUri.GetUri | packages/openscap/openscap-0.8.4/src/CPE/cpeuri.c:383-419 | cpe_name_get_uri with the corrected encoder; a function without its own contract, characterised by UriShape, UriGrammar and UriRoundTrip |
| CpeUri.EncodedFields | packages/openscap/openscap-0.8.4/src/CPE/cpeuri.c:396-408 | with the corrected encoder, the seven rendered fields are the encoded fields, a NULL field rendered as "" |
| CpeUri.UriShape | packages/openscap/openscap-0.8.4/src/CPE/cpeuri.c:383-419 | with the corrected encoder, the URI is `cpe:/` then the encoded fields up to the last present one, joined by `:` |
| CpeUri.NameNew | packages/openscap/openscap-0.8.4/src/CPE/cpeuri.c:195-219 | NULL gives the empty name; a string fails iff it breaks the URI grammar; a parsed name has no empty component |
| CpeUri.NameNewParses | packages/openscap/openscap-0.8.4/src/CPE/cpeuri.c:209-216 | what parsing builds, as in NameNew; the new fact is that a grammatical string never splits into more than the seven fields |
| CpeUri.NameNewMalformedEscape | packages/openscap/openscap-0.8.4/src/CPE/cpeuri.c:209-216 | the status of cpe_urldecode is ignored: "cpe:/a:%zz:x" passes the grammar and parses, with no vendor and the product "x" |
| CpeUri.DecodeEach | packages/openscap/openscap-0.8.4/src/CPE/cpeuri.c:212-213 | every piece is decoded in place, ignoring the status |
| CpeUri.UriGrammar | packages/openscap/openscap-0.8.4/src/CPE/cpeuri.c:330-349 | every URI the renderer produces is accepted by the grammar check |
| CpeUri.UriRoundTrip | packages/openscap/openscap-0.8.4/src/CPE/cpeuri.c:383-419 | with the corrected encoder, parsing the URI of a name without empty components gives the same name back |
| CpeUri.EncodedFieldsAsWritten | packages/openscap/openscap-0.8.4/src/CPE/cpeuri.c:396-399 | the seven fields as the program writes them: each through cpe_urlencode as written, a NULL field as "" |
| CpeUri.GetUriAsWritten | packages/openscap/openscap-0.8.4/src/CPE/cpeuri.c:383-419 | cpe_name_get_uri as written; a function without its own contract, characterised by GetUriAsWrittenSquashes (it is GetUri of the squashed name) and UriRoundTripAsWritten |
| CpeUri.SquashField | packages/openscap/openscap-0.8.4/src/CPE/cpeuri.c:396-399 | a field squashed: NULL stays NULL, a string is squashed |
| CpeUri.SquashName | packages/openscap/openscap-0.8.4/src/CPE/cpeuri.c:396-399 | field i of the squashed name is field i squashed; a name without empty components keeps that property |
| CpeUri.GetUriAsWrittenSquashes | packages/openscap/openscap-0.8.4/src/CPE/cpeuri.c:383-419 | the URI cpe_name_get_uri writes for a name is the correct URI of its squashed name |
| CpeUri.SquashNameKeeps | packages/openscap/openscap-0.8.4/src/CPE/cpeuri.c:373 | squashing leaves a name unchanged iff none of its field bytes lies from 0x80 to 0xFE |
| CpeUri.UriRoundTripAsWritten | packages/openscap/openscap-0.8.4/src/CPE/cpeuri.c:383-419 | the program's own round trip: parsing what cpe_name_get_uri writes gives back the squashed name, and the name itself exactly when no field byte lies from 0x80 to 0xFE |
| CpeUri.UriAsWrittenLosesHighBytes | packages/openscap/openscap-0.8.4/src/CPE/cpeuri.c:373 | as written, a vendor "é" comes back from the URI as "ÿ" |
| CpeUri.AssignKeptTexts | packages/openscap/openscap-0.8.4/src/CPE/cpeuri.c:439-453 | assigning the texts of a name's fields up to its last present one rebuilds the name |
| CpeUri.MatchOne | packages/openscap/openscap-0.8.4/src/CPE/cpeuri.c:266-284 | cpe_name_match_one; a predicate without its own contract, characterised by MatchOneFieldwise (the field-by-field rule, both directions), MatchOneReflexive, MatchOneTransitive and MatchOneAsymmetric |
| CpeUri.MatchOneFieldwise | packages/openscap/openscap-0.8.4/src/CPE/cpeuri.c:266-284 | matching is field by field: every field the candidate has, the other name has too, equal ignoring case; an absent field is a wildcard |
| CpeUri.MatchOneReflexive | packages/openscap/openscap-0.8.4/src/CPE/cpeuri.c:277-281 | a name without empty components matches itself |
| CpeUri.MatchOneTransitive | packages/openscap/openscap-0.8.4/src/CPE/cpeuri.c:266-284 | matching is transitive |
| CpeUri.MatchOneAsymmetric | packages/openscap/openscap-0.8.4/src/CPE/cpeuri.c:266-284 | a candidate with a field that the other name lacks does not match it |
| CpeUri.MatchOneAsymmetricExample | packages/openscap/openscap-0.8.4/src/CPE/cpeuri.c:273-275 | an example: `cpe:/a` matches `cpe:/a:vendor` but not the other way round |
| CpeUri.FirstMatch | packages/openscap/openscap-0.8.4/src/CPE/cpeuri.c:295-298 | the index of the first name matched, or -1 when none is |
| CpeUri.MatchCpes | packages/openscap/openscap-0.8.4/src/CPE/public/cpeuri.h:214-222 | true iff the name and the list are present and the name matches some entry |
| CpeUri.ParseEach | packages/openscap/openscap-0.8.4/src/CPE/cpeuri.c:313-314 | each target is parsed with cpe_name_new |
| CpeUri.MatchStrs | packages/openscap/openscap-0.8.4/src/CPE/public/cpeuri.h:241-251 | -2 iff the candidate does not parse; otherwise the first matching target's index, or -1 if none matches; a target that does not parse matches nothing |
| CpeDict.ItemNames | packages/openscap/openscap-0.8.4/src/CPE/cpedict.c:80-86 | the item names are collected in document order |
| CpeDict.MatchDict | packages/openscap/openscap-0.8.4/src/CPE/cpedict.c:71-93 | false for a NULL name or dictionary; otherwise true iff some item's name is matched |
| CpeDict.MatchDictStr | packages/openscap/openscap-0.8.4/src/CPE/cpedict.c:95-109 | false for NULL or an unparseable string; otherwise the dictionary match of the parsed name |
| CpeDict.Supported | packages/openscap/openscap-0.8.4/src/CPE/cpedict.c:111-114 | the supported dictionary version is "2.2" |
| CpeDict.ListedNameMatches | packages/openscap/openscap-0.8.4/src/CPE/cpedict.c:80-88 | a dictionary matches every name without empty components that it lists |
| CpeDict.MatchSurvivesAdding | packages/openscap/openscap-0.8.4/src/CPE/cpedict.c:80-88 | adding items never loses a match |
| CpeLang.NegatedOperators | packages/openscap/openscap-0.8.4/src/CPE/cpelang_priv.c:410-412 | NAND is AND with the NOT bit and NOR is OR with it; masking recovers AND and OR |
| CpeLang.Masked | packages/openscap/openscap-0.8.4/src/CPE/cpelang_priv.c:713 | masking with 0xFF keeps the low byte of the operator |
| CpeLang.AndOrBits | packages/openscap/openscap-0.8.4/src/CPE/cpelang_priv.c:674 | the `oper & (AND \| OR)` test keeps the two low bits of the operator |
| CpeLang.MetaFree | packages/openscap/openscap-0.8.4/src/CPE/cpelang_priv.c:634-651 | releasing a well-formed node's payload leaves it empty |
| CpeLang.SetOper | packages/openscap/openscap-0.8.4/src/CPE/cpelang_priv.c:687-694 | always succeeds and stores the operator; the child list of AND/OR and the name of MATCH are released first; other payloads are left alone |
| CpeLang.SetOperTwice | packages/openscap/openscap-0.8.4/src/CPE/cpelang_priv.c:687-694 | on a well-formed node, setting the operator twice is setting it once |
| CpeLang.SetName | packages/openscap/openscap-0.8.4/src/CPE/cpelang_priv.c:696-706 | succeeds iff the masked operator is MATCH, then the node holds the name; otherwise nothing changes |
| CpeLang.GetMetaCpe | packages/openscap/openscap-0.8.4/src/CPE/cpelang_priv.c:679-685 | a node that is not MATCH has no name |
| CpeLang.SetNameThenGet | packages/openscap/openscap-0.8.4/src/CPE/cpelang_priv.c:696-706 | on a MATCH node, the name read back is the name set |
| CpeLang.AddSubexpression | packages/openscap/openscap-0.8.4/src/CPE/cpelang_priv.c:708-718 | succeeds iff the masked operator is AND or OR; the child is appended and earlier children are kept; otherwise nothing changes |
| CpeLang.AddAllAppends | packages/openscap/openscap-0.8.4/src/CPE/cpelang_priv.c:713-717 | adding children one by one to a logical node appends them all, in order |
| CpeLang.GetMetaExprAsWritten | packages/openscap/openscap-0.8.4/src/CPE/cpelang_priv.c:671-677 | a child list is handed out iff one of the two low operator bits is set |
| CpeLang.GetMetaExpr | packages/openscap/openscap-0.8.4/src/CPE/cpelang_priv.c:671-677 | a child list is handed out iff the masked operator is AND or OR, never a name |
| CpeLang.BitTestAdmitsMatch | packages/openscap/openscap-0.8.4/src/CPE/cpelang_priv.c:674 | for the known operators, the bit test passes exactly for AND, OR, NAND, NOR and MATCH |
| CpeLang.GetMetaExprOfMatch | packages/openscap/openscap-0.8.4/src/CPE/cpelang_priv.c:671-677 | as written, a MATCH node hands out its name as a child list; the corrected getter returns NULL |
| CpeLang.PlatformSetExprAsWritten | packages/openscap/openscap-0.8.4/src/CPE/cpelang_priv.c:738-748 | refuses iff the expression is non-NULL and both low operator bits are clear; a refusal changes nothing |
| CpeLang.PlatformSetExpr | packages/openscap/openscap-0.8.4/src/CPE/cpelang_priv.c:738-748 | refuses iff the expression is non-NULL and not AND/OR; a platform only ever holds a logical expression |
| CpeLang.PlatformAcceptsMatch | packages/openscap/openscap-0.8.4/src/CPE/cpelang_priv.c:742 | as written, a MATCH node is accepted as a platform's expression; the corrected setter refuses it |
| CpeLang.PlatformChecksAgree | packages/openscap/openscap-0.8.4/src/CPE/cpelang_priv.c:742 | for every known operator except MATCH, both setters agree |
| CpeLang.AddPlatform | packages/openscap/openscap-0.8.4/src/CPE/cpelang_priv.c:720-727 | false for a NULL model, platform or id, changing nothing; otherwise the platform is appended to the list and its id is in the index, other entries untouched |
| CpeLang.AddPlatformKeepsIndex | packages/openscap/openscap-0.8.4/src/CPE/cpelang_priv.c:724-725 | every index entry names a listed platform with that id, before and after adding |
| CpeLang.ParseOperator | packages/openscap/openscap-0.8.4/src/CPE/cpelang_priv.c:395-413 | the operator attribute must read "AND" or "OR" ignoring case; a negate attribute reading "true" ignoring case sets the NOT bit |
| CpeLang.ExportOperator | packages/openscap/openscap-0.8.4/src/CPE/cpelang_priv.c:576-591 | exactly AND, OR, NAND and NOR are written, negate "true" iff NAND or NOR |
| CpeLang.ExportThenParse | packages/openscap/openscap-0.8.4/src/CPE/cpelang_priv.c:576-591 | parsing the attributes written for AND, OR, NAND or NOR gives the operator back |
| CpeLang.ParseThenExport | packages/openscap/openscap-0.8.4/src/CPE/cpelang_priv.c:395-413 | exporting a parsed operator writes its operator attribute again, up to case |
| Elements.LookupPositions | packages/openscap/openscap-0.8.4/src/common/elements.c:151-160 | a value is found iff some key position with a value after it holds the key; it is the value after the first such key |
| Elements.FindValue | packages/openscap/openscap-0.8.4/src/common/elements.c:151-160 | NULL for a NULL array or key; otherwise the pairwise lookup |
| Elements.TrailingKeyIgnored | packages/openscap/openscap-0.8.4/src/common/elements.c:155 | a last key with no value after it is never matched |
| Elements.ValueNotMatchedAsKey | packages/openscap/openscap-0.8.4/src/common/elements.c:155-157 | when no key position holds the key nothing is found, whatever the values hold |
| Elements.OnlyKeysCompared | packages/openscap/openscap-0.8.4/src/common/elements.c:155-157 | only key positions are compared: two arrays of the same length that agree on their key positions find the same keys |
| Elements.MapLookup | packages/openscap/openscap-0.8.4/src/common/elements.c:39-43 | the value of the first entry spelled exactly as the string, or the default for NULL and for unlisted spellings |
| Elements.BoolMapSpellings | packages/openscap/openscap-0.8.4/src/common/elements.c:39-43 | a string reads as true iff it is one of "true", "True", "TRUE", "yes", "Yes", "YES", "1" |
| RpmVerCmp.StrCmp | packages/openscap/openscap-0.8.4/src/OVAL/oval_resultTest.c:161-163 | the segment comparison is -1, 0 or 1 and 0 iff the segments are equal |
| RpmVerCmp.StrCmpAntisymmetric | packages/openscap/openscap-0.8.4/src/OVAL/oval_resultTest.c:161-163 | swapping the segments negates the result |
| RpmVerCmp.SkipSep | packages/openscap/openscap-0.8.4/src/OVAL/oval_resultTest.c:91-94 | skips exactly the leading non-alphanumeric characters |
| RpmVerCmp.DigitRun | packages/openscap/openscap-0.8.4/src/OVAL/oval_resultTest.c:107-110 | the length of the leading run of digits |
| RpmVerCmp.AlphaRun | packages/openscap/openscap-0.8.4/src/OVAL/oval_resultTest.c:113-116 | the length of the leading run of letters |
| RpmVerCmp.StripZeros | packages/openscap/openscap-0.8.4/src/OVAL/oval_resultTest.c:145-148 | drops exactly the leading zeros |
| RpmVerCmp.SegmentOrder | packages/openscap/openscap-0.8.4/src/OVAL/oval_resultTest.c:106-163 | comparing one aligned segment gives -1, 0 or 1 |
| RpmVerCmp.VerCmp | packages/openscap/openscap-0.8.4/src/OVAL/oval_resultTest.c:67-182 | the result is -1, 0 or 1, and 0 for identical strings; for strings that differ only in their separators it is 0 (SeparatorsDoNotMatter) |
| RpmVerCmp.SegmentsReflexive | packages/openscap/openscap-0.8.4/src/OVAL/oval_resultTest.c:90-175 | the segment walk of a string against itself ties |
| RpmVerCmp.SegmentOrderAntisymmetric | packages/openscap/openscap-0.8.4/src/OVAL/oval_resultTest.c:106-163 | swapping two segments negates their order; a tie needs two segments of the same kind |
| RpmVerCmp.SegmentsAntisymmetric | packages/openscap/openscap-0.8.4/src/OVAL/oval_resultTest.c:90-181 | swapping the strings negates the segment walk |
| RpmVerCmp.VerCmpAntisymmetric | packages/openscap/openscap-0.8.4/src/OVAL/oval_resultTest.c:64-66 | a is newer than b iff b is older than a: swapping the arguments negates the result |
| RpmVerCmp.NumericBeatsAlpha | packages/openscap/openscap-0.8.4/src/OVAL/oval_resultTest.c:132-137 | a numeric segment facing an alphabetic one is newer |
| RpmVerCmp.MoreDigitsWins | packages/openscap/openscap-0.8.4/src/OVAL/oval_resultTest.c:144-154 | after leading zeros are stripped, the number with more digits is newer |
| RpmVerCmp.SameLengthSegmentsCompareLexically | packages/openscap/openscap-0.8.4/src/OVAL/oval_resultTest.c:157-163 | differing segments of equal length are ordered lexically |
| RpmVerCmp.LongerVersionIsNewer | packages/openscap/openscap-0.8.4/src/OVAL/oval_resultTest.c:177-181 | when every aligned segment ties, the version with characters left over is newer |
| RpmVerCmp.SeparatorsDoNotMatter | packages/openscap/openscap-0.8.4/src/OVAL/oval_resultTest.c:169-173 | two versions that differ only in the non-empty separator runs between the same segments compare as the same version |
| RpmVerCmp.SeparatorsExample | packages/openscap/openscap-0.8.4/src/OVAL/oval_resultTest.c:169-173 | an example: "1.0" and "1-0" are the same version |
| Comparator.PrefixWalk | packages/openscap/openscap-0.8.4/src/OVAL/oval_resultTest.c:325-328 | the loop finds a difference iff the strings differ ignoring case within the shorter length |
| Comparator.IStrCmpAsWritten | packages/openscap/openscap-0.8.4/src/OVAL/oval_resultTest.c:319-329 | 1 for a NULL argument; otherwise 0 iff the strings agree ignoring case up to the shorter length |
| Comparator.IStrCmp | packages/openscap/openscap-0.8.4/src/OVAL/oval_resultTest.c:319-329 | 1 for a NULL argument; otherwise 0 iff the strings are equal ignoring case |
| Comparator.IStrCmpAsWrittenMatchesPrefixes | packages/openscap/openscap-0.8.4/src/OVAL/oval_resultTest.c:325 | as written, "ab" equals "ABC" and "" equals every string; corrected, they differ |
| Comparator.IStrCmpSymmetric | packages/openscap/openscap-0.8.4/src/OVAL/oval_resultTest.c:319-329 | caseless equality does not depend on the argument order |
| Comparator.SkipSpace | packages/openscap/openscap-0.8.4/src/OVAL/oval_resultTest.c:653-654 | atoi skips exactly the leading white space |
| Comparator.LeadingDigits | packages/openscap/openscap-0.8.4/src/OVAL/oval_resultTest.c:653-654 | atoi reads the longest prefix of digits |
| Comparator.Wrap32 | packages/openscap/openscap-0.8.4/src/OVAL/oval_resultTest.c:653-654 | the value is reduced modulo 2^32 into the `int` range, unchanged when it fits |
| Comparator.AtoI | packages/openscap/openscap-0.8.4/src/OVAL/oval_resultTest.c:653-654 | atoi is an `int`, and is the decimal value read whenever that fits |
| Comparator.AtoIReadsDecimal | packages/openscap/openscap-0.8.4/src/OVAL/oval_resultTest.c:653-654 | atoi of the decimal numeral of n is n, and of "-" and the numeral is -n |
| Comparator.DecimalValue | packages/openscap/openscap-0.8.4/src/OVAL/oval_resultTest.c:653-654 | the digits of a numeral are worth the number written |
| Comparator.Bits | packages/openscap/openscap-0.8.4/src/OVAL/oval_resultTest.c:667-670 | the two's complement bit pattern of a 32-bit `int`: a non-negative value is itself, a negative one has 2^32 added |
| Comparator.FieldWalk | packages/openscap/openscap-0.8.4/src/OVAL/oval_resultTest.c:747-807 | the VERSION walk is ERROR iff the operation is not an equality or order, TRUE or FALSE otherwise; its order meaning is FieldWalkGreater and FieldWalkLess |
| Comparator.FieldWalkGreater | packages/openscap/openscap-0.8.4/src/OVAL/oval_resultTest.c:747-807 | GREATER_THAN holds exactly when, at the first field where the two lists differ, the collected value's field is the larger (a missing field reading as 0) |
| Comparator.FieldWalkLess | packages/openscap/openscap-0.8.4/src/OVAL/oval_resultTest.c:747-807 | LESS_THAN holds exactly when, at the first field that differs, the state value's field is the larger |
| Comparator.VersionWalk | packages/openscap/openscap-0.8.4/src/OVAL/oval_resultTest.c:742-808 | over the two version strings: ERROR iff the operation is not an equality or order; GREATER_THAN iff the collected value's field is the larger at the first field that differs, LESS_THAN iff the state value's is |
| Comparator.FieldWalkEquals | packages/openscap/openscap-0.8.4/src/OVAL/oval_resultTest.c:755-757 | VERSION equality holds iff the field lists agree position by position, a missing field read as 0 |
| Comparator.FieldWalkNotEqual | packages/openscap/openscap-0.8.4/src/OVAL/oval_resultTest.c:758-760 | VERSION not-equal is the negation of equality |
| Comparator.FieldWalkSwap | packages/openscap/openscap-0.8.4/src/OVAL/oval_resultTest.c:761-772 | greater-than with the versions swapped is less-than, and the same for the or-equal forms |
| Comparator.FieldWalkTrichotomy | packages/openscap/openscap-0.8.4/src/OVAL/oval_resultTest.c:747-807 | exactly one of greater, equal and less holds |
| Comparator.FieldWalkOrEqual | packages/openscap/openscap-0.8.4/src/OVAL/oval_resultTest.c:795-807 | greater-or-equal is greater or equal, and less-or-equal is less or equal |
| Comparator.FieldWalkOrder | packages/openscap/openscap-0.8.4/src/OVAL/oval_resultTest.c:747-807 | the VERSION results form a consistent order table |
| Comparator.VersionEqualsFieldwise | packages/openscap/openscap-0.8.4/src/OVAL/oval_resultTest.c:742-808 | two version strings are equal iff their fields agree, a missing field read as 0 |
| Comparator.FromBool | packages/openscap/openscap-0.8.4/src/OVAL/oval_resultTest.c:656 | TRUE for true and FALSE for false |
| Comparator.EvalString | packages/openscap/openscap-0.8.4/src/OVAL/oval_resultTest.c:635-650 | ERROR iff the operation is not a string operation; TRUE or FALSE for the others but pattern match; EQUALS is TRUE iff the strings are identical, NOT_EQUAL iff they are not |
| Comparator.EvalInteger | packages/openscap/openscap-0.8.4/src/OVAL/oval_resultTest.c:651-675 | ERROR iff the operation is not an integer operation, otherwise TRUE or FALSE; EQUALS, NOT_EQUAL, GREATER_THAN, GREATER_THAN_OR_EQUAL, LESS_THAN and LESS_THAN_OR_EQUAL are TRUE iff the collected value stands in that relation to the state value |
| Comparator.EvalFloat | packages/openscap/openscap-0.8.4/src/OVAL/oval_resultTest.c:676-697 | ERROR iff the operation is not a float operation |
| Comparator.EvalBoolean | packages/openscap/openscap-0.8.4/src/OVAL/oval_resultTest.c:698-711 | ERROR iff the operation is not equality or inequality, otherwise TRUE or FALSE |
| Comparator.EvalBinary | packages/openscap/openscap-0.8.4/src/OVAL/oval_resultTest.c:712-721 | ERROR iff the operation is not equality or inequality, otherwise TRUE or FALSE |
| Comparator.EvalEvr | packages/openscap/openscap-0.8.4/src/OVAL/oval_resultTest.c:722-741 | ERROR iff the operation is not an equality or order, otherwise TRUE or FALSE; on c = rpmvercmp(sys, state), EQUALS iff c is 0, GREATER_THAN iff 1 (the collected value is newer), LESS_THAN iff -1, and the or-equal forms accordingly |
| Comparator.Evaluate | packages/openscap/openscap-0.8.4/src/OVAL/oval_resultTest.c:630-822 | FILESET_REVISION and IOS_VERSION are NOT_EVALUATED; IPv4 and unknown datatypes are ERROR; an unsupported operation is ERROR; a supported one is TRUE or FALSE; the meaning per datatype is StringEquality, IntegerComparisons, EvrComparisons and VersionComparisons |
| Comparator.IntegerBitwiseAnd | packages/openscap/openscap-0.8.4/src/OVAL/oval_resultTest.c:667-668 | BITWISE_AND holds iff every bit of the state is set in the collected value |
| Comparator.IntegerBitwiseOr | packages/openscap/openscap-0.8.4/src/OVAL/oval_resultTest.c:669-670 | BITWISE_OR holds iff every bit of the collected value is set in the state |
| Comparator.EvaluateBitwise | packages/openscap/openscap-0.8.4/src/OVAL/oval_resultTest.c:651-675 | the same, for the integers atoi reads from the two strings |
| Comparator.IntegerOrder | packages/openscap/openscap-0.8.4/src/OVAL/oval_resultTest.c:655-666 | the INTEGER results form a consistent order table |
| Comparator.EvrOrder | packages/openscap/openscap-0.8.4/src/OVAL/oval_resultTest.c:725-736 | the EVR results form a consistent order table |
| Comparator.OrderedComparisons | packages/openscap/openscap-0.8.4/src/OVAL/oval_resultTest.c:630-822 | for INTEGER, EVR and VERSION, exactly one of greater, equal and less holds, the or-equal forms agree and not-equal negates equal |
| Comparator.OrderedSwap | packages/openscap/openscap-0.8.4/src/OVAL/oval_resultTest.c:630-822 | for INTEGER, EVR and VERSION, greater-than is less-than with the arguments swapped |
| Comparator.IntegerSwap | packages/openscap/openscap-0.8.4/src/OVAL/oval_resultTest.c:659-666 | the same on integers |
| Comparator.EvrSwap | packages/openscap/openscap-0.8.4/src/OVAL/oval_resultTest.c:725-736 | the same on a comparison and its negation |
| Comparator.OrderedReflexive | packages/openscap/openscap-0.8.4/src/OVAL/oval_resultTest.c:630-822 | for INTEGER, EVR and VERSION every value equals itself |
| Comparator.CaseInsensitiveEquality | packages/openscap/openscap-0.8.4/src/OVAL/oval_resultTest.c:638-643 | with the corrected istrcmp, caseless string equality and binary equality hold iff the strings are equal ignoring case |
| Comparator.BooleanEquality | packages/openscap/openscap-0.8.4/src/OVAL/oval_resultTest.c:698-706 | boolean equality holds iff both strings read as true or both do not; "1" equals "true" |
| Comparator.StringEquality | packages/openscap/openscap-0.8.4/src/OVAL/oval_resultTest.c:636-641 | STRING EQUALS is TRUE iff the collected and state strings are identical, NOT_EQUAL iff they differ |
| Comparator.IntegerComparisons | packages/openscap/openscap-0.8.4/src/OVAL/oval_resultTest.c:651-665 | INTEGER EQUALS and the four orders compare the value atoi reads from the collected string against the one it reads from the state, the collected value on the left |
| Comparator.IntegerNumerals | packages/openscap/openscap-0.8.4/src/OVAL/oval_resultTest.c:651-665 | on decimal numerals, GREATER_THAN is TRUE iff the collected number is larger and LESS_THAN iff it is smaller |
| Comparator.EvrComparisons | packages/openscap/openscap-0.8.4/src/OVAL/oval_resultTest.c:722-735 | EVR EQUALS, GREATER_THAN and LESS_THAN are TRUE iff rpmvercmp(sys, state) is 0, 1 and -1 |
| Comparator.EvrLongerIsGreater | packages/openscap/openscap-0.8.4/src/OVAL/oval_resultTest.c:722-735 | a collected EVR string that extends the state value by a new segment is GREATER_THAN it; the other way round it is LESS_THAN and not GREATER_THAN |
| Comparator.VersionComparisons | packages/openscap/openscap-0.8.4/src/OVAL/oval_resultTest.c:742-808 | VERSION GREATER_THAN is TRUE iff the collected value's field is the larger at the first field that differs, LESS_THAN iff the state value's is |
| Ores.Clear | packages/openscap/openscap-0.8.4/src/OVAL/oval_resultTest.c:854-857 | all six counters are zero |
| Ores.AddRes | packages/openscap/openscap-0.8.4/src/OVAL/oval_resultTest.c:824-852 | a valid result raises its own counter by one and returns 0; an unrecognised one returns 1; no other counter changes |
| Ores.TallyCounts | packages/openscap/openscap-0.8.4/src/OVAL/oval_resultTest.c:824-852 | after adding a sequence of results, each counter holds the number of times its result occurs |
| Ores.ResultByOperator | packages/openscap/openscap-0.8.4/src/OVAL/oval_resultTest.c:949-1050 | no results give UNKNOWN, only not-applicable ones give NOT_APPLICABLE, and the result is always a valid one |
| Ores.ResultByCheck | packages/openscap/openscap-0.8.4/src/OVAL/oval_resultTest.c:859-947 | the same edge cases and validity for the check tables |
| Ores.ResultByCheckAsWritten | packages/openscap/openscap-0.8.4/src/OVAL/oval_resultTest.c:891-905 | differs from the corrected check table only for AT_LEAST_ONE |
| Ores.SharedEdgeCases | packages/openscap/openscap-0.8.4/src/OVAL/oval_resultTest.c:863-874 | both aggregators share the empty, only-not-applicable and unknown-check-or-operator cases |
| Ores.OperatorErrorNeedsError | packages/openscap/openscap-0.8.4/src/OVAL/oval_resultTest.c:967-1041 | a known operator gives ERROR iff an error was counted and nothing decides the result first |
| Ores.CheckErrorNeedsError | packages/openscap/openscap-0.8.4/src/OVAL/oval_resultTest.c:877-939 | with the corrected table, a known check gives ERROR only when an error was counted; as written this holds for every check but AT_LEAST_ONE |
| Ores.AndTable | packages/openscap/openscap-0.8.4/src/OVAL/oval_resultTest.c:967-980 | AND: any false gives FALSE; TRUE needs a true and nothing false, error, unknown or not evaluated; then ERROR > UNKNOWN > NOT_EVALUATED |
| Ores.XorTable | packages/openscap/openscap-0.8.4/src/OVAL/oval_resultTest.c:1028-1041 | XOR is TRUE iff the true count is odd and nothing is error, unknown or not evaluated |
| Ores.OneTable | packages/openscap/openscap-0.8.4/src/OVAL/oval_resultTest.c:981-1012 | ONE is TRUE iff exactly one is true and nothing else undecided; two trues, or no true with all decided, give FALSE |
| Ores.OrIsDualOfAnd | packages/openscap/openscap-0.8.4/src/OVAL/oval_resultTest.c:1013-1027 | OR is the negation of AND over the counts with true and false swapped |
| Ores.AllIsAnd | packages/openscap/openscap-0.8.4/src/OVAL/oval_resultTest.c:877-890 | the ALL check is the AND operator |
| Ores.AtLeastOneIsOr | packages/openscap/openscap-0.8.4/src/OVAL/oval_resultTest.c:891-905 | the corrected AT_LEAST_ONE check is the OR operator |
| Ores.OnlyOneIsOne | packages/openscap/openscap-0.8.4/src/OVAL/oval_resultTest.c:925-939 | the ONLY_ONE check is the ONE operator |
| Ores.NoneSatisfyIsNotOr | packages/openscap/openscap-0.8.4/src/OVAL/oval_resultTest.c:906-924 | NONE_SATISFY (and NONE_EXIST, which falls into it) is the negation of OR |
| Ores.AtLeastOneAsWrittenMissesUnknown | packages/openscap/openscap-0.8.4/src/OVAL/oval_resultTest.c:891-905 | as written, one false and one unknown give ERROR under AT_LEAST_ONE, while OR gives UNKNOWN |
| Ores.NotApplicableIsIgnored | packages/openscap/openscap-0.8.4/src/OVAL/oval_resultTest.c:953-964 | once some other result is counted, adding NOT_APPLICABLE changes no check or operator result |
| Ores.TallyMatchesFold | packages/openscap/openscap-0.8.4/src/OVAL/oval_resultTest.c:967-1041 | the tally summary is the left fold of the pairwise AND, OR or XOR table over the results |
| Ores.OperatorMatchesReference | packages/openscap/openscap-0.8.4/src/OVAL/oval_resultTest.c:949-1050 | AND, OR and XOR over the tally equal the reference fold over the result sequence |
| ResultTest.FirstMissing | packages/openscap/openscap-0.8.4/src/OVAL/oval_resultTest.c:1173-1195 | the index of the first variable value without text |
| ResultTest.VariableResults | packages/openscap/openscap-0.8.4/src/OVAL/oval_resultTest.c:1173-1195 | each variable value is compared in turn, stopping at the first without text |
| ResultTest.EntityValueResult | packages/openscap/openscap-0.8.4/src/OVAL/oval_resultTest.c:1130-1217 | an item entity that does not exist gives FALSE; only a variable reference can fail |
| ResultTest.UncollectedVariableIsError | packages/openscap/openscap-0.8.4/src/OVAL/oval_resultTest.c:1156-1207 | a computed variable whose collection flag is ERROR, DOES_NOT_EXIST, NOT_COLLECTED or NOT_APPLICABLE gives ERROR for an existing entity |
| ResultTest.Named | packages/openscap/openscap-0.8.4/src/OVAL/oval_resultTest.c:1130-1140 | exactly the item entities with the state entity's name |
| ResultTest.EntityResults | packages/openscap/openscap-0.8.4/src/OVAL/oval_resultTest.c:1130-1217 | one result per entity, and failure iff one entity fails |
| ResultTest.ContentResult | packages/openscap/openscap-0.8.4/src/OVAL/oval_resultTest.c:1078-1229 | a state content with a missing part fails; its meaning is ContentFails, ContentAllFalse and AbsentEntityIsUnknown |
| ResultTest.AbsentEntityIsUnknown | packages/openscap/openscap-0.8.4/src/OVAL/oval_resultTest.c:1219-1224 | when the item has no entity of the state's name the content is UNKNOWN |
| ResultTest.ContentFails | packages/openscap/openscap-0.8.4/src/OVAL/oval_resultTest.c:1163-1215 | a well-formed content fails exactly when some item entity of its name fails |
| ResultTest.ContentAllFalse | packages/openscap/openscap-0.8.4/src/OVAL/oval_resultTest.c:1215-1224 | under the entity check ALL, a content is FALSE exactly when no entity of its name fails and one of them is FALSE |
| ResultTest.ContentResults | packages/openscap/openscap-0.8.4/src/OVAL/oval_resultTest.c:1078-1229 | one result per content, and failure iff one content fails |
| ResultTest.EvalItem | packages/openscap/openscap-0.8.4/src/OVAL/oval_resultTest.c:1052-1237 | a malformed content gives ERROR; a state without contents gives UNKNOWN |
| ResultTest.StateResults | packages/openscap/openscap-0.8.4/src/OVAL/oval_resultTest.c:1298-1308 | each state is evaluated against the item |
| ResultTest.ItemResult | packages/openscap/openscap-0.8.4/src/OVAL/oval_resultTest.c:1281-1313 | an ERROR or NOT_COLLECTED item is ERROR, one that does not exist is FALSE, and an existing item with no states is UNKNOWN |
| ResultTest.EvalCheckState | packages/openscap/openscap-0.8.4/src/OVAL/oval_resultTest.c:1255-1320 | every item gets its own result, and the test result is the check over those results |
| ResultTest.MissingItemFailsAll | packages/openscap/openscap-0.8.4/src/OVAL/oval_resultTest.c:1289-1293 | under check ALL, one item that does not exist makes the state check FALSE |
| ResultTest.ExistenceCheck | packages/openscap/openscap-0.8.4/src/OVAL/oval_resultTest.c:1322-1384 | the result is always TRUE, FALSE or ERROR, and never ERROR when no item is in error and the enumeration value is known; the full table is ExistenceTable |
| ResultTest.ExistenceTable | packages/openscap/openscap-0.8.4/src/OVAL/oval_resultTest.c:1322-1384 | the existence result for each enumeration value, as a function of the exists and error counts; always TRUE, FALSE or ERROR |
| ResultTest.ExistenceWithoutErrors | packages/openscap/openscap-0.8.4/src/OVAL/oval_resultTest.c:1322-1384 | without errors, existence is decided by the exists count alone |
| ResultTest.ExistenceWithErrors | packages/openscap/openscap-0.8.4/src/OVAL/oval_resultTest.c:1322-1384 | with errors, ALL_EXIST and NONE_EXIST are ERROR; the others are ERROR only when the exists count does not decide |
| ResultTest.DedupeFrom | packages/openscap/openscap-0.8.4/src/OVAL/oval_resultTest.c:1243-1253 | only items from the input whose id has not been seen are kept |
| ResultTest.DedupeFromIds | packages/openscap/openscap-0.8.4/src/OVAL/oval_resultTest.c:1246-1249 | the kept ids are the input ids not yet seen |
| ResultTest.Dedupe | packages/openscap/openscap-0.8.4/src/OVAL/oval_resultTest.c:1243-1253 | ids are distinct, every input id is kept, and each kept item is the first with its id |
| ResultTest.DedupeDistinct | packages/openscap/openscap-0.8.4/src/OVAL/oval_resultTest.c:1243-1253 | items with distinct ids are kept as they are |
| ResultTest.CountStatus | packages/openscap/openscap-0.8.4/src/OVAL/oval_resultTest.c:1413-1417 | a count of items never exceeds their number |
| ResultTest.CountStatusCounts | packages/openscap/openscap-0.8.4/src/OVAL/oval_resultTest.c:1413-1417 | the count is the number of collected items with the given status: its multiplicity among the items' statuses |
| ResultTest.IncompleteExistence | packages/openscap/openscap-0.8.4/src/OVAL/oval_resultTest.c:1473-1486 | INCOMPLETE: TRUE for ANY_EXIST or AT_LEAST_ONE_EXISTS with an item; FALSE for NONE_EXIST with an item or ONLY_ONE_EXISTS with several; UNKNOWN otherwise |
| ResultTest.IncompleteState | packages/openscap/openscap-0.8.4/src/OVAL/oval_resultTest.c:1488-1498 | a TRUE state check stays TRUE only under AT_LEAST_ONE; FALSE stays; anything else is UNKNOWN |
| ResultTest.NewResultItems | packages/openscap/openscap-0.8.4/src/OVAL/oval_resultTest.c:1419-1421 | one NOT_EVALUATED result item per collected item |
| ResultTest.FlagResult | packages/openscap/openscap-0.8.4/src/OVAL/oval_resultTest.c:1432-1464 | for ERROR, NOT_COLLECTED and NOT_APPLICABLE, ANY_EXIST without states is TRUE; DOES_NOT_EXIST is TRUE iff the existence is NONE_EXIST or ANY_EXIST, else FALSE |
| ResultTest.EvaluateItems | packages/openscap/openscap-0.8.4/src/OVAL/oval_resultTest.c:1386-1507 | the new result items are the de-duplicated collected items, after the ones already there |
| ResultTest.DoesNotExistFlag | packages/openscap/openscap-0.8.4/src/OVAL/oval_resultTest.c:1457-1464 | DOES_NOT_EXIST gives TRUE iff the existence is NONE_EXIST or ANY_EXIST, FALSE otherwise |
| ResultTest.IncompleteFlag | packages/openscap/openscap-0.8.4/src/OVAL/oval_resultTest.c:1472-1499 | INCOMPLETE never gives ERROR; with states it gives TRUE only under AT_LEAST_ONE |
| ResultTest.CompleteFlag | packages/openscap/openscap-0.8.4/src/OVAL/oval_resultTest.c:1465-1471 | COMPLETE is the existence result, or the state check when existence holds and there are states |
| ResultTest.UncollectedFlags | packages/openscap/openscap-0.8.4/src/OVAL/oval_resultTest.c:1433-1456 | ERROR, NOT_COLLECTED and NOT_APPLICABLE give TRUE iff ANY_EXIST without states |
| ResultTest.TestResult | packages/openscap/openscap-0.8.4/src/OVAL/oval_resultTest.c:1510-1538 | a stored result is returned as is; a test whose object was not collected is UNKNOWN |
| ResultTest.InitializeBindings | packages/openscap/openscap-0.8.4/src/OVAL/oval_resultTest.c:1540-1564 | the collected object's bindings are appended, when it was collected, and the bindings are marked initialised |
| ResultTest.TestEval | packages/openscap/openscap-0.8.4/src/OVAL/oval_resultTest.c:1566-1588 | an evaluated test is unchanged; a test of unknown subtype becomes UNKNOWN; otherwise it is evaluated and its bindings initialised |
| ResultTest.TestEvalIdempotent | packages/openscap/openscap-0.8.4/src/OVAL/oval_resultTest.c:1570 | evaluating twice is evaluating once |
| ResultTest.NoCollectedObject | packages/openscap/openscap-0.8.4/src/OVAL/oval_resultTest.c:1528-1531 | a test whose object was not collected evaluates to UNKNOWN and keeps its items |
| ResultDefinition.New | packages/openscap/openscap-0.8.4/src/OVAL/oval_resultDefinition.c:67-82 | a new definition result is NOT_EVALUATED, with no criteria, no messages and instance 1 |
| ResultDefinition.Eval | packages/openscap/openscap-0.8.4/src/OVAL/oval_resultDefinition.c:156-167 | a stored result is returned as is; the first evaluation stores ERROR without criteria and the criteria's result otherwise |
| ResultDefinition.EvalIdempotent | packages/openscap/openscap-0.8.4/src/OVAL/oval_resultDefinition.c:160-174 | evaluating again returns the same, and get_result returns what eval returned |
| ResultDefinition.GetResult | packages/openscap/openscap-0.8.4/src/OVAL/oval_resultDefinition.c:169-174 | the stored result; a function without its own contract, characterised by EvalIdempotent (after an evaluation it returns what eval returned) |
| ResultDefinition.NewWithoutCriteriaIsError | packages/openscap/openscap-0.8.4/src/OVAL/oval_resultDefinition.c:161-164 | a new definition without criteria evaluates to ERROR |
| ResultDefinition.AddMessage | packages/openscap/openscap-0.8.4/src/OVAL/oval_resultDefinition.c:214-218 | a NULL message is ignored; any other is appended |
| ResultDefinition.SetCriteria | packages/openscap/openscap-0.8.4/src/OVAL/oval_resultDefinition.c:203-212 | the new criteria replace the old ones |
| ResultDefinition.AddMessages | packages/openscap/openscap-0.8.4/src/OVAL/oval_resultDefinition.c:96-101 | messages added one at a time end up appended in order |
| ResultDefinition.Clone | packages/openscap/openscap-0.8.4/src/OVAL/oval_resultDefinition.c:84-107 | the clone keeps the id, criteria, messages, result and instance, and takes the new system's version |
| ResultDefinition.CloneIsCopy | packages/openscap/openscap-0.8.4/src/OVAL/oval_resultDefinition.c:84-107 | cloning into a system with the same definition version gives an equal record |
| ResultDefinition.ParseTag | packages/openscap/openscap-0.8.4/src/OVAL/oval_resultDefinition.c:253-278 | the version is always overwritten by atoi of the attribute, warning iff a non-zero version differs; a missing instance is 1; an unresolved result is UNKNOWN |
| ResultDefinition.ParsedResultIsKept | packages/openscap/openscap-0.8.4/src/OVAL/oval_resultDefinition.c:273-278 | a parsed definition result is kept by evaluation |

## Left out

- Float comparison: the FLOAT branch of `evaluate` is a parameter (`Comparator.Externals.floatOrder`), because `atof` and the relative-error tolerance are floating point.
- Regular expressions: PATTERN_MATCH is a parameter (`Comparator.Externals.regexMatch`), because PCRE and POSIX regex are foreign calls. The CPE URI grammar of `cpe_name_check` is written out by hand (`CpeUri.GrammarOk`), including PCRE's `$` matching before a final newline.
- IPv4 comparison: modelled as the constant ERROR that `ipv4addr_cmp` returns on every path (its final `return OVAL_RESULT_ERROR`).
- IPv6 comparison is a parameter, because it calls `inet_pton` and `memcmp`. `mask_v6_addrs` is left out.
- XML reading and writing are left out: `cpe_testexpr_parse`, `cpe_testexpr_export`, the `*_to_dom` functions and `oval_result_test_parse_tag`. Only the attribute decisions are modelled: the operator/negate mapping, and the version, result and instance decisions of `oval_result_definition_parse_tag`.
- The writing of a MATCH node in `cpe_testexpr_export` is left out, because it is XML output; `CpeLang.ExportOperator` returns no attributes for it.
- `cpe_name_write` is left out, because it is file output of `cpe_name_get_uri`.
- Date helpers are left out, because they use `mktime`.
- Memory is not modelled: allocation failure, the `*_free` functions, `bindings_clearable`, `alloca`, iterator objects and pointer arithmetic.
- Names are values, so a name shared between two nodes is not modelled.
- The error side channel (`oscap_seterr`, `oscap_dlprintf` and the debug messages) is left out; results are returned values. The two warnings of `oval_result_definition_parse_tag` are the boolean `versionMismatch`.
- The system_info probe is left out, because it is operating-system I/O.
- Lookups in the syschar and definition models are replaced by inputs: the collected items, states, variable values and bindings are passed in. Variable computation (`oval_syschar_model_compute_variable`) is an input field of the variable.
- NULL elements returned by iterators (an item, an entity or a content) are not modelled; the code reports them as ERROR.
- A test always has an object, because `_oval_result_test_result` dereferences it unconditionally.
- Copying the state entity's mask onto the item entity in `eval_item` is not modelled; it only affects output.
- `cpe_name_match_strs` casts `n` to `int`; a list longer than `INT_MAX` is not modelled.
- `CpeUri.ParseEach`: the targets are parsed before the loop rather than as each is reached. Parsing has no effect, so the index returned is the same.
- `util.c` is not part of this model. `oscap_split` is assumed to keep empty fields, like `strsep`. `oscap_string_to_enum` and `oscap_enum_to_string` are assumed to be exact, case-sensitive table lookups with the terminating entry as default.
- `cpelang.h` is not part of this model. The operator codes are assumed to be INVALID 0, AND 1, OR 2, MATCH 3, MASK 0xFF, NOT 0x100, NAND 0x101 and NOR 0x102.
- `list.c` is not part of this model.
  - CpeLang.AddSubexpression requires a logical node to hold a child list. In the source, `cpe_testexpr_set_oper` leaves the list NULL and `oscap_list_add` on NULL is not visible here.
  - CpeLang.AddPlatform assumes `oscap_htable_add` keeps an existing entry when the id is already present.
- Titles and the remark of a platform are left out, because only the expression takes part in the modelled guards.
- Evaluating a CPE language expression is not among the modelled files.
- Evaluating OVAL criteria nodes is a parameter of `ResultDefinition.Eval`, because `oval_result_criteria_node_eval` is outside the modelled files.
- GetUri: models `cpe_name_get_uri` with the corrected encoder, so a field byte from 0x80 to 0xFE renders as its own `%XX` where the program writes "%FF". The program's URI is `CpeUri.GetUriAsWritten`, and `CpeUri.GetUriAsWrittenSquashes` relates the two.
- EncodedFields: states the fields as the corrected encoder renders them; on "é" (0xE9) it gives "%E9" where the program writes "%FF". `CpeUri.EncodedFieldsAsWritten` is the program's.
- UriShape: states the shape of the corrected URI; the URI the program writes is that of the squashed name (`CpeUri.GetUriAsWrittenSquashes`).
- UriRoundTrip: the round trip of the corrected encoder. The program does not give back a name with a field byte from 0x80 to 0xFE: a vendor "é" comes back as "ÿ". `CpeUri.UriRoundTripAsWritten` states what it gives back.
- FieldWalk: its own contract states only when the walk is ERROR and that it is otherwise TRUE or FALSE; which side is larger for GREATER_THAN and LESS_THAN is proved about it in FieldWalkGreater and FieldWalkLess, because stating it inside the recursive definition would need those lemmas there.
- EvalString: CASE_INSENSITIVE_EQUALS and CASE_INSENSITIVE_NOT_EQUAL use the corrected `istrcmp`. On "ab" against "ABC" the model gives FALSE for equality where the program gives TRUE, because `istrcmp` stops at the shorter string. `Comparator.IStrCmpAsWritten` is the program's `istrcmp`.
- EvalBinary: EQUALS and NOT_EQUAL use the corrected `istrcmp`; "ab" against "ABC" is FALSE for equality in the model and TRUE in the program.
- Evaluate: the STRING and BINARY branches inherit the corrected `istrcmp` of EvalString and EvalBinary, and differ from the program on "ab" against "ABC".
- CaseInsensitiveEquality: states the corrected equality. In the program the two strings are equal when the shorter is a caseless prefix of the longer, as `Comparator.IStrCmpAsWrittenMatchesPrefixes` shows.
- CheckErrorNeedsError: the AT_LEAST_ONE clause is about the corrected table. As written, the tally Counters(0,1,1,0,0,0) (one false, one unknown) gives ERROR with no error counted (`Ores.AtLeastOneAsWrittenMissesUnknown`).
- EntityValueResult: the check over a variable's values uses the corrected table (`Ores.ResultByCheck`). Under AT_LEAST_ONE over {FALSE, UNKNOWN} the model gives UNKNOWN and the program keeps ERROR.
- ContentResult: the entity check uses the corrected table, so AT_LEAST_ONE over {FALSE, UNKNOWN} gives UNKNOWN where the program gives ERROR.
- EvalCheckState: the state check uses the corrected table, with the same AT_LEAST_ONE difference over {FALSE, UNKNOWN}.
- EvaluateItems: inherits the corrected `istrcmp` and AT_LEAST_ONE table from EvalCheckState and the comparator.
- TestEval: inherits the same differences from EvaluateItems.
- ResultTest.EvaluateItems: the item map is fresh for each `oval_result_test_eval` call, as in the code, so de-duplication is per evaluation.
- ResultTest.EvalItem: its contract fixes the malformed and empty-state cases. The other results are stated by ContentResult and the Ores lemmas about the operator it applies.
- Comparator.EvalFloat: only the ERROR cases are stated, because the comparison itself is the parameter `floatOrder`.
- RpmVerCmp.VerCmp: characters outside ASCII are compared as non-alphanumeric separators, as the "C" locale does.

## Findings

| source | as written | input that shows it | evidently intended | confidence | as-written member | corrected member |
|---|---|---|---|---|---|---|
| packages/openscap/openscap-0.8.4/src/OVAL/oval_resultTest.c:319-329 | `istrcmp` stops at the end of the shorter string and returns 0 | "ab" vs "ABC", and "" vs any string, compare equal, so CASE_INSENSITIVE_EQUALS and BINARY EQUALS accept a prefix | 0 only when the strings are equal ignoring case | not executed | Comparator.IStrCmpAsWrittenMatchesPrefixes | Comparator.IStrCmp |
| packages/openscap/openscap-0.8.4/src/OVAL/oval_resultTest.c:891-905 | the AT_LEAST_ONE rows for UNKNOWN and NOT_EVALUATED require the false count to be 0 | one false and one unknown give ERROR | UNKNOWN, as the OR operator and the OVAL CheckEnumeration table give | not executed | Ores.AtLeastOneAsWrittenMissesUnknown | Ores.AtLeastOneIsOr |
| packages/openscap/openscap-0.8.4/src/CPE/cpeuri.c:373 | `sprintf("%%%02X", *in)` on a signed `char` prints a byte of 0x80 or more as `%FFFFFFxx`, ten bytes with the NUL, into space sized for three per byte; the next write overwrites all but `%FF`, and for a high last byte the write runs up to six bytes past the allocation, a heap overflow (the overflow is not modelled) | "é" (0xE9) encodes as "%FF" and decodes as 0xFF | "%E9", which decodes back to the byte | not executed | CpeUri.UriAsWrittenLosesHighBytes | CpeUri.UriRoundTrip |
| packages/openscap/openscap-0.8.4/src/CPE/cpelang_priv.c:738-748 | `oper & (AND \| OR)` is non-zero for MATCH (3), so a MATCH node is accepted as a platform expression and `cpe_testexpr_get_meta_expr` treats its name as a child list | a MATCH node given to `cpe_platform_set_expr` | only AND/OR nodes (with or without NOT) | not executed | CpeLang.PlatformAcceptsMatch | CpeLang.PlatformSetExpr |

=== FILE: ascii.dfy ===
/**
 The <ctype.h> character classes and case mapping the C code relies on, for the
 "C" locale: only ASCII letters and digits are classified, every other byte is
 neither.
 */
module Ascii {

  predicate IsDigit(c: char) {
    '0' <= c <= '9'
  }

  predicate IsUpper(c: char) {
    'A' <= c <= 'Z'
  }

  predicate IsLower(c: char) {
    'a' <= c <= 'z'
  }

  predicate IsAlpha(c: char) {
    IsUpper(c) || IsLower(c)
  }

  predicate IsAlnum(c: char) {
    IsAlpha(c) || IsDigit(c)
  }

  predicate IsXDigit(c: char) {
    IsDigit(c) || 'a' <= c <= 'f' || 'A' <= c <= 'F'
  }

  /** isspace: blank, tab, newline, vertical tab, form feed, carriage return. */
  predicate IsSpace(c: char) {
    c == ' ' || c == '\t' || c == '\n' || c == '\U{000B}' || c == '\U{000C}' || c == '\r'
  }

  /** A byte of a C string: below 256 and not the terminating NUL. */
  predicate IsCByte(c: char) {
    0 < c as int < 256
  }

  /** A string C can hold: no byte is the terminating NUL. */
  predicate NoNul(s: string) {
    forall i :: 0 <= i < |s| ==> s[i] != '\0'
  }

  /** tolower: maps upper-case ASCII letters, leaves everything else alone. */
  function ToLower(c: char): (r: char)
    ensures IsUpper(c) ==> r as int == c as int + 32 && IsLower(r)
    ensures !IsUpper(c) ==> r == c
  {
    if IsUpper(c) then (c as int + 32) as char else c
  }

  /** The value of one hexadecimal digit, either case. */
  function HexValue(c: char): (v: nat)
    requires IsXDigit(c)
    ensures v < 16
  {
    if IsDigit(c) then c as int - '0' as int
    else if 'a' <= c <= 'f' then c as int - 'a' as int + 10
    else c as int - 'A' as int + 10
  }

  /** The upper-case hexadecimal digit for a value below 16, as printf's %X writes it. */
  function HexDigit(v: nat): (c: char)
    requires v < 16
    ensures IsXDigit(c) && HexValue(c) == v
    ensures !IsLower(c)
  {
    if v < 10 then ('0' as int + v) as char else ('A' as int + v - 10) as char
  }

  /** Equal, ignoring case: what strcasecmp reports as 0. */
  predicate EqualIgnoringCase(a: string, b: string) {
    |a| == |b| && forall i :: 0 <= i < |a| ==> ToLower(a[i]) == ToLower(b[i])
  }

  /** A byte of a C string. */
  type CChar = c: char | IsCByte(c) witness 'a'

  /** A C string: bytes up to, not including, the terminating NUL. */
  type CString = seq<CChar>
}

=== FILE: bits.dfy ===
/**
 C's bitwise `&` and `|` on non-negative numbers, defined bit by bit, with the
 facts about single bits that the OVAL and CPE code rely on.
 */
module BitOps {
  /** Bit `i` of `x`, counting from the least significant bit. */
  predicate HasBit(x: nat, i: nat) {
    if i == 0 then x % 2 == 1 else HasBit(x / 2, i - 1)
  }

  /** C's `&` on two bit patterns. */
  function BitAnd(a: nat, b: nat): (r: nat)
    ensures r <= a && r <= b
  {
    if a == 0 || b == 0 then 0
    else 2 * BitAnd(a / 2, b / 2) + (if a % 2 == 1 && b % 2 == 1 then 1 else 0)
  }

  /** C's `|` on two bit patterns. */
  function BitOr(a: nat, b: nat): (r: nat)
    ensures r >= a && r >= b
  {
    if a == 0 then b
    else if b == 0 then a
    else 2 * BitOr(a / 2, b / 2) + (if a % 2 == 1 || b % 2 == 1 then 1 else 0)
  }

  /** Every bit set in `a` is set in `b`. */
  ghost predicate BitsWithin(a: nat, b: nat) {
    forall i: nat :: HasBit(a, i) ==> HasBit(b, i)
  }

  lemma {:induction false} ZeroHasNoBits(i: nat)
    ensures !HasBit(0, i)
  {
    if i > 0 {
      ZeroHasNoBits(i - 1);
    }
  }

  /** A number is determined by its bits. */
  lemma {:induction false} SameBitsSameNumber(x: nat, y: nat)
    requires forall i: nat :: HasBit(x, i) == HasBit(y, i)
    ensures x == y
    decreases x + y
  {
    if x != 0 || y != 0 {
      assert HasBit(x, 0) == HasBit(y, 0);
      forall i: nat
        ensures HasBit(x / 2, i) == HasBit(y / 2, i)
      {
        assert HasBit(x, i + 1) == HasBit(y, i + 1);
      }
      SameBitsSameNumber(x / 2, y / 2);
    }
  }

  /** Bit `i` of `a & b` is set exactly when it is set in both. */
  lemma {:induction false} BitAndBits(a: nat, b: nat, i: nat)
    ensures HasBit(BitAnd(a, b), i) <==> HasBit(a, i) && HasBit(b, i)
  {
    if a == 0 || b == 0 {
      ZeroHasNoBits(i);
    } else {
      HalfOfDouble(BitAnd(a / 2, b / 2), if a % 2 == 1 && b % 2 == 1 then 1 else 0);
      if i > 0 {
        BitAndBits(a / 2, b / 2, i - 1);
      }
    }
  }

  /** Bit `i` of `a | b` is set exactly when it is set in either. */
  lemma {:induction false} BitOrBits(a: nat, b: nat, i: nat)
    ensures HasBit(BitOr(a, b), i) <==> HasBit(a, i) || HasBit(b, i)
  {
    if a == 0 || b == 0 {
      ZeroHasNoBits(i);
    } else {
      HalfOfDouble(BitOr(a / 2, b / 2), if a % 2 == 1 || b % 2 == 1 then 1 else 0);
      if i > 0 {
        BitOrBits(a / 2, b / 2, i - 1);
      }
    }
  }

  /** Halving `2 * h + bit` gives back `h`, and `bit` is its lowest bit. */
  lemma HalfOfDouble(h: nat, bit: nat)
    requires bit <= 1
    ensures (2 * h + bit) / 2 == h && (2 * h + bit) % 2 == bit
  {
  }

  /** `(b & a) == a` holds exactly when `a` sets no bit that `b` leaves clear. */
  lemma MaskIsWithin(a: nat, b: nat)
    ensures BitAnd(b, a) == a <==> BitsWithin(a, b)
  {
    forall i: nat
      ensures HasBit(BitAnd(b, a), i) <==> HasBit(b, i) && HasBit(a, i)
    {
      BitAndBits(b, a, i);
    }
    if BitsWithin(a, b) {
      SameBitsSameNumber(BitAnd(b, a), a);
    }
  }

  /** `(a | b) == b` holds exactly when `a` sets no bit that `b` leaves clear. */
  lemma UnionIsWithin(a: nat, b: nat)
    ensures BitOr(a, b) == b <==> BitsWithin(a, b)
  {
    forall i: nat
      ensures HasBit(BitOr(a, b), i) <==> HasBit(a, i) || HasBit(b, i)
    {
      BitOrBits(a, b, i);
    }
    if BitsWithin(a, b) {
      SameBitsSameNumber(BitOr(a, b), b);
    }
  }

  /** 2 to the power `k`. */
  function Pow2(k: nat): (p: nat)
    ensures p >= 1
  {
    if k == 0 then 1 else 2 * Pow2(k - 1)
  }

  /** `m * d` is at least `m` for a positive `d`. */
  lemma MulAtLeast(m: nat, d: int)
    requires d >= 1
    ensures m * d >= m
  {
    assert m * d == m + m * (d - 1);
  }

  /** The remainder is determined by any quotient-remainder split. */
  lemma ModOfSplit(a: nat, m: nat, q: nat, r: nat)
    requires m > 0 && a == m * q + r && r < m
    ensures a % m == r
  {
    var q0, r0 := a / m, a % m;
    assert m * q0 + r0 == m * q + r;
    if q0 > q {
      assert m * q0 == m * q + m * (q0 - q);
      MulAtLeast(m, q0 - q);
    } else if q0 < q {
      assert m * q == m * q0 + m * (q - q0);
      MulAtLeast(m, q - q0);
    }
  }

  /** Halving, then dividing by `p`, splits `a` by `2 * p`. */
  lemma SplitByDouble(a: nat, p: nat)
    requires p > 0
    ensures a % (2 * p) == 2 * ((a / 2) % p) + a % 2
  {
    var h := a / 2;
    var high, low := h / p, h % p;
    assert h == p * high + low;
    assert a == 2 * h + a % 2;
    assert a == (2 * p) * high + (2 * low + a % 2) by {
      assert 2 * (p * high) == (2 * p) * high;
    }
    ModOfSplit(a, 2 * p, high, 2 * low + a % 2);
  }

  /** Masking with `2^k - 1` keeps the low `k` bits: `a & (2^k - 1) == a % 2^k`. */
  lemma {:induction false} LowBits(a: nat, k: nat)
    ensures BitAnd(a, Pow2(k) - 1) == a % Pow2(k)
  {
    if k > 0 && a > 0 {
      var p := Pow2(k - 1);
      var b := Pow2(k) - 1;
      assert b / 2 == p - 1 && b % 2 == 1;
      LowBits(a / 2, k - 1);
      assert BitAnd(a, b) == 2 * ((a / 2) % p) + a % 2;
      assert Pow2(k) == 2 * p;
      SplitByDouble(a, p);
    } else if k == 0 {
      assert Pow2(k) == 1;
    } else {
      assert a == 0;
    }
  }
}

=== FILE: comparator.dfy ===
/**
 The typed comparison `evaluate` of oval_resultTest.c: one collected value
 against one state value, by the state value's datatype and the entity's
 operation, plus the helpers it relies on (istrcmp, atoi, the version walk).

 Floating-point parsing and comparison, regular expressions and IPv6 address
 parsing are outside the model: they reach `Evaluate` as the functions of an
 `Externals` value.
 */
module Comparator {
  import opened Wrappers
  import opened Ascii
  import opened OvalTypes
  import RpmVerCmp
  import opened BitOps

  // ---------------------------------------------------------------------------
  // istrcmp
  // ---------------------------------------------------------------------------

  /** The byte-wise case-insensitive walk of istrcmp as written: it stops at the end of the shorter string. */
  function PrefixWalk(a: string, b: string): (r: int)
    ensures r == 0 <==> forall i :: 0 <= i < |a| && i < |b| ==> ToLower(a[i]) == ToLower(b[i])
    decreases |a|
  {
    if |a| == 0 || |b| == 0 then 0
    else
      var d := ToLower(b[0]) as int - ToLower(a[0]) as int;
      if d != 0 then d
      else
        var rest := PrefixWalk(a[1..], b[1..]);
        assert forall i :: 1 <= i < |a| && i < |b| ==> a[1..][i - 1] == a[i] && b[1..][i - 1] == b[i];
        rest
  }

  /** The byte (its lower-case form) at index 0, or the terminating NUL of an empty string. */
  function LowerHead(s: string): int {
    if |s| == 0 then 0 else ToLower(s[0]) as int
  }

  /** Everything after the front element, or nothing once the sequence is used up. */
  function Tail<T>(s: seq<T>): (r: seq<T>)
    ensures |s| > 0 ==> r == s[1..]
    ensures |s| == 0 ==> r == s
  {
    if |s| == 0 then s else s[1..]
  }

  /** The walk istrcmp evidently means: it goes on until both strings have ended, comparing a terminator like any byte. */
  function FullWalk(a: string, b: string): (r: int)
    ensures NoNul(a) && NoNul(b) ==>
              (r == 0 <==> |a| == |b| && forall i :: 0 <= i < |a| ==> ToLower(a[i]) == ToLower(b[i]))
    decreases |a| + |b|
  {
    if |a| == 0 && |b| == 0 then 0
    else
      var d := LowerHead(b) - LowerHead(a);
      if d != 0 then d
      else
        var rest := FullWalk(Tail(a), Tail(b));
        assert NoNul(a) && NoNul(b) ==> |a| > 0 && |b| > 0;
        assert forall i :: 1 <= i < |a| ==> a[1..][i - 1] == a[i];
        assert forall i :: 1 <= i < |b| ==> b[1..][i - 1] == b[i];
        rest
  }

  /**
   istrcmp exactly as written: 1 when either string is NULL, otherwise the
   difference of the first differing lower-cased bytes within the length of the
   shorter string, and 0 when there is none.
   */
  function IStrCmpAsWritten(st1: Option<string>, st2: Option<string>): (r: int)
    ensures st1.None? || st2.None? ==> r == 1
    ensures st1.Some? && st2.Some? ==> (r == 0 <==> PrefixEqualIgnoringCase(st1.value, st2.value))
  {
    if st1.None? || st2.None? then 1 else PrefixWalk(st1.value, st2.value)
  }

  /** The shorter string equals the start of the longer one, ignoring case. */
  predicate PrefixEqualIgnoringCase(a: string, b: string) {
    forall i :: 0 <= i < |a| && i < |b| ==> ToLower(a[i]) == ToLower(b[i])
  }

  /** istrcmp corrected to compare whole strings: 0 exactly when they are equal ignoring case. */
  function IStrCmp(st1: Option<string>, st2: Option<string>): (r: int)
    ensures st1.None? || st2.None? ==> r == 1
    ensures st1.Some? && st2.Some? && NoNul(st1.value) && NoNul(st2.value) ==>
              (r == 0 <==> EqualIgnoringCase(st1.value, st2.value))
  {
    if st1.None? || st2.None? then 1 else FullWalk(st1.value, st2.value)
  }

  /**
   The walk as written lets a string match every string it is a prefix of,
   ignoring case: "ab" against "ABC" compares equal, and the empty string
   compares equal with anything. The corrected walk tells them apart.
   */
  lemma IStrCmpAsWrittenMatchesPrefixes(s: string)
    ensures IStrCmpAsWritten(Some("ab"), Some("ABC")) == 0
    ensures IStrCmp(Some("ab"), Some("ABC")) != 0
    ensures IStrCmpAsWritten(Some(""), Some(s)) == 0
    ensures NoNul(s) && |s| > 0 ==> IStrCmp(Some(""), Some(s)) != 0
  {
    assert NoNul("ab") && NoNul("ABC");
  }

  /** The corrected comparison is symmetric in whether it reports equality. */
  lemma IStrCmpSymmetric(a: string, b: string)
    requires NoNul(a) && NoNul(b)
    ensures IStrCmp(Some(a), Some(b)) == 0 <==> IStrCmp(Some(b), Some(a)) == 0
  {
  }

  // ---------------------------------------------------------------------------
  // atoi
  // ---------------------------------------------------------------------------

  /** Drops leading white space, as strtol does. */
  function SkipSpace(s: string): (r: string)
    ensures |r| <= |s| && r == s[|s| - |r|..]
    ensures |r| > 0 ==> !IsSpace(r[0])
  {
    if |s| > 0 && IsSpace(s[0]) then SkipSpace(s[1..]) else s
  }

  /** The value of a string of decimal digits. */
  function DigitsValue(d: string): nat
    requires forall i :: 0 <= i < |d| ==> IsDigit(d[i])
    decreases |d|
  {
    if |d| == 0 then 0
    else
      assert IsDigit(d[|d| - 1]);
      DigitsValue(d[..|d| - 1]) * 10 + (d[|d| - 1] as int - '0' as int)
  }

  /** The leading decimal digits of `s`. */
  function LeadingDigits(s: string): (d: string)
    ensures forall i :: 0 <= i < |d| ==> IsDigit(d[i])
    ensures |d| <= |s| && d == s[..|d|]
  {
    s[..RpmVerCmp.DigitRun(s)]
  }

  /** The exact value strtol reads: white space, an optional sign, decimal digits. */
  function ReadDecimal(s: string): int {
    var t := SkipSpace(s);
    if |t| > 0 && (t[0] == '-' || t[0] == '+') then
      var v: int := DigitsValue(LeadingDigits(t[1..]));
      if t[0] == '-' then -v else v
    else DigitsValue(LeadingDigits(t))
  }

  const LONG_MIN: int := -0x8000_0000_0000_0000
  const LONG_MAX: int := 0x7FFF_FFFF_FFFF_FFFF
  const INT_MIN: int := -0x8000_0000
  const INT_MAX: int := 0x7FFF_FFFF

  predicate IsInt32(v: int) {
    INT_MIN <= v <= INT_MAX
  }

  /** Conversion of a wider integer to a 32-bit `int`: the value modulo 2^32, two's complement. */
  function Wrap32(v: int): (r: int)
    ensures IsInt32(r)
    ensures (r - v) % 0x1_0000_0000 == 0
    ensures IsInt32(v) ==> r == v
  {
    (v - INT_MIN) % 0x1_0000_0000 + INT_MIN
  }

  /**
   atoi with glibc's behaviour: strtol's value, saturated to the range of a
   64-bit long, then converted to int.
   */
  function AtoI(s: string): (r: int)
    ensures IsInt32(r)
    ensures IsInt32(ReadDecimal(s)) ==> r == ReadDecimal(s)
  {
    var v := ReadDecimal(s);
    Wrap32(if v < LONG_MIN then LONG_MIN else if v > LONG_MAX then LONG_MAX else v)
  }

  function DigitChar(v: nat): (c: char)
    requires v < 10
    ensures IsDigit(c) && c as int - '0' as int == v
  {
    ('0' as int + v) as char
  }

  /** The decimal numeral of `n`, without leading zeros. */
  function Decimal(n: nat): (s: string)
    ensures |s| > 0 && forall i :: 0 <= i < |s| ==> IsDigit(s[i])
  {
    if n < 10 then [DigitChar(n)] else Decimal(n / 10) + [DigitChar(n % 10)]
  }

  lemma {:induction false} DecimalValue(n: nat)
    ensures DigitsValue(Decimal(n)) == n
  {
    if n >= 10 {
      var s := Decimal(n);
      assert s[..|s| - 1] == Decimal(n / 10);
      DecimalValue(n / 10);
    }
  }

  lemma LeadingDigitsOfNumeral(d: string)
    requires forall i :: 0 <= i < |d| ==> IsDigit(d[i])
    ensures LeadingDigits(d) == d
  {
    RpmVerCmp.DigitRunOfConcat(d, []);
    assert d + [] == d;
  }

  lemma ReadDecimalOfNumeral(n: nat)
    ensures ReadDecimal(Decimal(n)) == n
  {
    var d := Decimal(n);
    assert IsDigit(d[0]);
    assert SkipSpace(d) == d;
    assert d[0] != '-' && d[0] != '+';
    LeadingDigitsOfNumeral(d);
    DecimalValue(n);
  }

  lemma ReadDecimalOfNegative(n: nat)
    ensures ReadDecimal("-" + Decimal(n)) == -(n as int)
  {
    var d := Decimal(n);
    var m := "-" + d;
    assert SkipSpace(m) == m;
    assert m[1..] == d;
    LeadingDigitsOfNumeral(d);
    DecimalValue(n);
  }

  /** atoi reads back the decimal numeral of every int, with or without a minus sign. */
  lemma AtoIReadsDecimal(n: nat)
    requires n <= INT_MAX + 1
    ensures n <= INT_MAX ==> AtoI(Decimal(n)) == n
    ensures AtoI("-" + Decimal(n)) == -(n as int)
  {
    ReadDecimalOfNumeral(n);
    ReadDecimalOfNegative(n);
  }

  // ---------------------------------------------------------------------------
  // Bits of a C int
  // ---------------------------------------------------------------------------

  /** The 32 bits of a C int in two's complement, read as an unsigned number. */
  function Bits(v: int): (u: nat)
    requires IsInt32(v)
    ensures u < 0x1_0000_0000
    ensures v >= 0 ==> u == v
    ensures v < 0 ==> u == v + 0x1_0000_0000
  {
    v % 0x1_0000_0000
  }

  // ---------------------------------------------------------------------------
  // The version walk
  // ---------------------------------------------------------------------------

  /**
   The step from one field of a version string to the next: one byte, then any
   digits, then one separator.
   */
  function NextField(s: string): (r: string)
    ensures |s| > 0 ==> |r| < |s|
    ensures |s| == 0 ==> r == s
  {
    var s1 := Tail(s);
    var s2 := s1[RpmVerCmp.DigitRun(s1)..];
    if |s2| > 0 && !IsDigit(s2[0]) then s2[1..] else s2
  }

  /** The values atoi reads at the start of each field of a version string, in order. */
  function Fields(s: string): (f: seq<int>)
    ensures |s| == 0 <==> |f| == 0
    decreases |s|
  {
    if |s| == 0 then [] else [AtoI(s)] + Fields(NextField(s))
  }

  /** Field `i` of a field list, 0 past its end (atoi of the empty rest of a used-up string). */
  function FieldAt(f: seq<int>, i: nat): int {
    if i < |f| then f[i] else 0
  }


  /** The answer once both strings are used up and every field tied. */
  function VersionEnd(op: Operation): OvalResult {
    match op
    case Equals => True
    case NotEqual => False
    case GreaterThan => False
    case GreaterThanOrEqual => True
    case LessThan => False
    case LessThanOrEqual => True
    case _ => Error
  }

  /** What one pair of field values decides for `op`: a result, or None when they tie and the walk goes on. */
  function FieldDecision(op: Operation, st: int, sy: int): Option<OvalResult> {
    match op
    case Equals => if st != sy then Some(False) else None
    case NotEqual => if st != sy then Some(True) else None
    case GreaterThan | GreaterThanOrEqual =>
      if sy > st then Some(True) else if sy < st then Some(False) else None
    case LessThan | LessThanOrEqual =>
      if sy < st then Some(True) else if sy > st then Some(False) else None
    case _ => Some(Error)
  }

  /**
   The loop of the VERSION branch over the field values of the state (`fs`) and
   of the collected value (`fy`): it runs while either string has data left.
   */
  function FieldWalk(fs: seq<int>, fy: seq<int>, op: Operation): (r: OvalResult)
    ensures r == Error <==> !IsOrderOperation(op)
    ensures r != Error ==> r == True || r == False
    decreases |fs| + |fy|
  {
    if |fs| == 0 && |fy| == 0 then VersionEnd(op)
    else match FieldDecision(op, FieldAt(fs, 0), FieldAt(fy, 0))
      case Some(r) => r
      case None => FieldWalk(Tail(fs), Tail(fy), op)
  }

  /**
   The VERSION branch of evaluate: fields compared as numbers, left to right.
   GREATER_THAN holds when the collected value's field is the larger one at the
   first field where the two differ, LESS_THAN when the state value's is.
   */
  function VersionWalk(state: string, sys: string, op: Operation): (r: OvalResult)
    ensures r == Error <==> !IsOrderOperation(op)
    ensures r != Error ==> r == True || r == False
    ensures op == GreaterThan ==> (r == True <==> Exceeds(Fields(sys), Fields(state)))
    ensures op == LessThan ==> (r == True <==> Exceeds(Fields(state), Fields(sys)))
  {
    FieldWalkGreater(Fields(state), Fields(sys));
    FieldWalkLess(Fields(state), Fields(sys));
    FieldWalk(Fields(state), Fields(sys), op)
  }

  /** The six comparisons every ordered datatype supports. */
  predicate IsOrderOperation(op: Operation) {
    op in {Equals, NotEqual, GreaterThan, GreaterThanOrEqual, LessThan, LessThanOrEqual}
  }

  /** The two field lists agree everywhere, a missing field reading as 0. */
  ghost predicate SameFields(fs: seq<int>, fy: seq<int>) {
    forall i: nat :: FieldAt(fs, i) == FieldAt(fy, i)
  }

  lemma SameFieldsStep(fs: seq<int>, fy: seq<int>)
    ensures SameFields(fs, fy) <==> FieldAt(fs, 0) == FieldAt(fy, 0) && SameFields(Tail(fs), Tail(fy))
  {
    if SameFields(fs, fy) {
      assert FieldAt(fs, 0) == FieldAt(fy, 0);
      forall i: nat ensures FieldAt(Tail(fs), i) == FieldAt(Tail(fy), i) {
        assert FieldAt(fs, i + 1) == FieldAt(fy, i + 1);
      }
    }
    if FieldAt(fs, 0) == FieldAt(fy, 0) && SameFields(Tail(fs), Tail(fy)) {
      forall i: nat ensures FieldAt(fs, i) == FieldAt(fy, i) {
        if i > 0 {
          assert FieldAt(Tail(fs), i - 1) == FieldAt(Tail(fy), i - 1);
        }
      }
    }
  }

  /** The two field lists agree on every field before `k`. */
  ghost predicate AgreeBelow(a: seq<int>, b: seq<int>, k: nat) {
    forall i: nat :: i < k ==> FieldAt(a, i) == FieldAt(b, i)
  }

  /** `hi` is the larger version: at the first field where the two lists differ, its value is the larger one. */
  ghost predicate Exceeds(hi: seq<int>, lo: seq<int>) {
    exists k: nat :: AgreeBelow(hi, lo, k) && FieldAt(hi, k) > FieldAt(lo, k)
  }

  lemma FieldAtTail(f: seq<int>, i: nat)
    ensures FieldAt(Tail(f), i) == FieldAt(f, i + 1)
  {
  }

  /** With the first fields equal, one list exceeds the other iff it does so after the first field. */
  lemma ExceedsStep(hi: seq<int>, lo: seq<int>)
    requires FieldAt(hi, 0) == FieldAt(lo, 0)
    ensures Exceeds(hi, lo) <==> Exceeds(Tail(hi), Tail(lo))
  {
    if Exceeds(hi, lo) {
      var k: nat :| AgreeBelow(hi, lo, k) && FieldAt(hi, k) > FieldAt(lo, k);
      assert k > 0;
      FieldAtTail(hi, k - 1);
      FieldAtTail(lo, k - 1);
      forall i: nat | i < k - 1
        ensures FieldAt(Tail(hi), i) == FieldAt(Tail(lo), i)
      {
        FieldAtTail(hi, i);
        FieldAtTail(lo, i);
        assert FieldAt(hi, i + 1) == FieldAt(lo, i + 1);
      }
      assert AgreeBelow(Tail(hi), Tail(lo), k - 1);
    }
    if Exceeds(Tail(hi), Tail(lo)) {
      var k: nat :| AgreeBelow(Tail(hi), Tail(lo), k) && FieldAt(Tail(hi), k) > FieldAt(Tail(lo), k);
      FieldAtTail(hi, k);
      FieldAtTail(lo, k);
      forall i: nat | i < k + 1
        ensures FieldAt(hi, i) == FieldAt(lo, i)
      {
        if i > 0 {
          FieldAtTail(hi, i - 1);
          FieldAtTail(lo, i - 1);
          assert FieldAt(Tail(hi), i - 1) == FieldAt(Tail(lo), i - 1);
        }
      }
      assert AgreeBelow(hi, lo, k + 1);
    }
  }

  /** Neither of two lists that differ first at field 0 with `lo` larger exceeds the other there. */
  lemma NotExceedsAtFront(hi: seq<int>, lo: seq<int>)
    requires FieldAt(hi, 0) < FieldAt(lo, 0)
    ensures !Exceeds(hi, lo)
  {
  }

  /** Two used-up lists have no field where one exceeds the other. */
  lemma NotExceedsEmpty(hi: seq<int>, lo: seq<int>)
    requires |hi| == 0 && |lo| == 0
    ensures !Exceeds(hi, lo)
  {
  }

  /** GREATER_THAN holds exactly when the collected value's field is the larger at the first field that differs. */
  lemma {:induction false} FieldWalkGreater(fs: seq<int>, fy: seq<int>)
    ensures FieldWalk(fs, fy, GreaterThan) == True <==> Exceeds(fy, fs)
    decreases |fs| + |fy|
  {
    if |fs| == 0 && |fy| == 0 {
      NotExceedsEmpty(fy, fs);
    } else if FieldAt(fy, 0) > FieldAt(fs, 0) {
      assert AgreeBelow(fy, fs, 0);
    } else if FieldAt(fy, 0) < FieldAt(fs, 0) {
      NotExceedsAtFront(fy, fs);
    } else {
      ExceedsStep(fy, fs);
      FieldWalkGreater(Tail(fs), Tail(fy));
    }
  }

  /** LESS_THAN holds exactly when the state value's field is the larger at the first field that differs. */
  lemma FieldWalkLess(fs: seq<int>, fy: seq<int>)
    ensures FieldWalk(fs, fy, LessThan) == True <==> Exceeds(fs, fy)
  {
    FieldWalkSwap(fy, fs);
    FieldWalkGreater(fy, fs);
  }

  /** EQUALS holds exactly when every field of the two versions has the same value (missing fields read as 0). */
  lemma {:induction false} FieldWalkEquals(fs: seq<int>, fy: seq<int>)
    ensures FieldWalk(fs, fy, Equals) == True <==> SameFields(fs, fy)
    decreases |fs| + |fy|
  {
    if |fs| > 0 || |fy| > 0 {
      SameFieldsStep(fs, fy);
      FieldWalkEquals(Tail(fs), Tail(fy));
    }
  }

  /** NOT_EQUAL is the negation of EQUALS. */
  lemma {:induction false} FieldWalkNotEqual(fs: seq<int>, fy: seq<int>)
    ensures FieldWalk(fs, fy, NotEqual) == Negate(FieldWalk(fs, fy, Equals))
    ensures FieldWalk(fs, fy, Equals) == True || FieldWalk(fs, fy, Equals) == False
    decreases |fs| + |fy|
  {
    if |fs| > 0 || |fy| > 0 {
      FieldWalkNotEqual(Tail(fs), Tail(fy));
    }
  }

  /** Swapping the two lists swaps GREATER and LESS. */
  lemma {:induction false} FieldWalkSwap(fs: seq<int>, fy: seq<int>)
    ensures FieldWalk(fs, fy, GreaterThan) == FieldWalk(fy, fs, LessThan)
    ensures FieldWalk(fs, fy, GreaterThanOrEqual) == FieldWalk(fy, fs, LessThanOrEqual)
    decreases |fs| + |fy|
  {
    if |fs| > 0 || |fy| > 0 {
      FieldWalkSwap(Tail(fs), Tail(fy));
    }
  }

  /** Exactly one of three results is TRUE. */
  predicate ExactlyOneTrue(a: OvalResult, b: OvalResult, c: OvalResult) {
    (a == True || b == True || c == True)
    && !(a == True && b == True) && !(a == True && c == True) && !(b == True && c == True)
  }

  /** Exactly one of GREATER, EQUALS and LESS holds. */
  lemma {:induction false} FieldWalkTrichotomy(fs: seq<int>, fy: seq<int>)
    ensures ExactlyOneTrue(FieldWalk(fs, fy, GreaterThan), FieldWalk(fs, fy, Equals), FieldWalk(fs, fy, LessThan))
    decreases |fs| + |fy|
  {
    if |fs| > 0 || |fy| > 0 {
      FieldWalkTrichotomy(Tail(fs), Tail(fy));
    }
  }

  /** GREATER_OR_EQUAL is GREATER or EQUALS, and LESS_OR_EQUAL is LESS or EQUALS. */
  lemma FieldWalkOrEqual(fs: seq<int>, fy: seq<int>)
    ensures FieldWalk(fs, fy, GreaterThanOrEqual) == True
            <==> FieldWalk(fs, fy, GreaterThan) == True || FieldWalk(fs, fy, Equals) == True
    ensures FieldWalk(fs, fy, LessThanOrEqual) == True
            <==> FieldWalk(fs, fy, LessThan) == True || FieldWalk(fs, fy, Equals) == True
  {
    FieldWalkGreaterOrEqual(fs, fy);
    FieldWalkLessOrEqual(fs, fy);
  }

  lemma {:induction false} FieldWalkGreaterOrEqual(fs: seq<int>, fy: seq<int>)
    ensures FieldWalk(fs, fy, GreaterThanOrEqual) == True
            <==> FieldWalk(fs, fy, GreaterThan) == True || FieldWalk(fs, fy, Equals) == True
    decreases |fs| + |fy|
  {
    if |fs| > 0 || |fy| > 0 {
      FieldWalkGreaterOrEqual(Tail(fs), Tail(fy));
    }
  }

  lemma {:induction false} FieldWalkLessOrEqual(fs: seq<int>, fy: seq<int>)
    ensures FieldWalk(fs, fy, LessThanOrEqual) == True
            <==> FieldWalk(fs, fy, LessThan) == True || FieldWalk(fs, fy, Equals) == True
    decreases |fs| + |fy|
  {
    if |fs| > 0 || |fy| > 0 {
      FieldWalkLessOrEqual(Tail(fs), Tail(fy));
    }
  }

  /** Two version strings are EQUAL exactly when their field values agree, missing fields reading as 0 ("1.0" EQUALS "1"). */
  lemma VersionEqualsFieldwise(state: string, sys: string)
    ensures VersionWalk(state, sys, Equals) == True <==> SameFields(Fields(state), Fields(sys))
  {
    FieldWalkEquals(Fields(state), Fields(sys));
  }

  // ---------------------------------------------------------------------------
  // evaluate
  // ---------------------------------------------------------------------------

  /**
   What evaluate hands to code outside the model: a regular-expression match
   (pattern, subject), the sign of the float comparison cmp_float(atof(sys),
   atof(state)), and the whole IPv6 comparison (state, sys, operation).
   */
  datatype Externals = Externals(
    regexMatch: (string, string) -> OvalResult,
    floatOrder: (string, string) -> int,
    ipv6Compare: (string, string, Operation) -> OvalResult)

  /** "true" and "1" are true; every other string is false. */
  predicate BoolValue(s: string) {
    s == "true" || s == "1"
  }

  function FromBool(b: bool): (r: OvalResult)
    ensures r == True <==> b
    ensures r == False <==> !b
  {
    if b then True else False
  }

  /** The operations evaluate accepts for a state datatype. */
  predicate Supports(dt: Datatype, op: Operation) {
    match dt
    case DtString => op in {Equals, NotEqual, CaseInsensitiveEquals, CaseInsensitiveNotEqual, PatternMatch}
    case DtInteger => IsOrderOperation(op) || op == BitwiseAnd || op == BitwiseOr
    case DtFloat => IsOrderOperation(op)
    case DtBoolean => op == Equals || op == NotEqual
    case DtBinary => op == Equals || op == NotEqual
    case DtEvrString => IsOrderOperation(op)
    case DtVersion => IsOrderOperation(op)
    case _ => false
  }

  /** The datatypes evaluate decides on its own (no external function involved). */
  predicate SelfContained(dt: Datatype, op: Operation) {
    dt in {DtInteger, DtBoolean, DtBinary, DtEvrString, DtVersion} || (dt == DtString && op != PatternMatch)
  }

  /** The STRING branch. */
  function EvalString(sys: string, state: string, op: Operation, ext: Externals): (r: OvalResult)
    ensures op != PatternMatch ==> (r == Error <==> !Supports(DtString, op))
    ensures op != PatternMatch && Supports(DtString, op) ==> r == True || r == False
    ensures !Supports(DtString, op) ==> r == Error
    ensures op == Equals ==> (r == True <==> sys == state)
    ensures op == NotEqual ==> (r == True <==> sys != state)
  {
    if op == Equals then FromBool(state == sys)
    else if op == CaseInsensitiveEquals then FromBool(IStrCmp(Some(state), Some(sys)) == 0)
    else if op == NotEqual then FromBool(state != sys)
    else if op == CaseInsensitiveNotEqual then FromBool(IStrCmp(Some(state), Some(sys)) != 0)
    else if op == PatternMatch then ext.regexMatch(state, sys)
    else Error
  }

  /** The INTEGER branch, on the two values atoi read (state value `st`, collected value `sy`). */
  function EvalInteger(sy: int, st: int, op: Operation): (r: OvalResult)
    requires IsInt32(sy) && IsInt32(st)
    ensures r == Error <==> !Supports(DtInteger, op)
    ensures r != Error ==> r == True || r == False
    ensures op == Equals ==> (r == True <==> sy == st)
    ensures op == NotEqual ==> (r == True <==> sy != st)
    ensures op == GreaterThan ==> (r == True <==> sy > st)
    ensures op == GreaterThanOrEqual ==> (r == True <==> sy >= st)
    ensures op == LessThan ==> (r == True <==> sy < st)
    ensures op == LessThanOrEqual ==> (r == True <==> sy <= st)
  {
    if op == Equals then FromBool(st == sy)
    else if op == NotEqual then FromBool(st != sy)
    else if op == GreaterThan then FromBool(sy > st)
    else if op == GreaterThanOrEqual then FromBool(sy >= st)
    else if op == LessThan then FromBool(sy < st)
    else if op == LessThanOrEqual then FromBool(sy <= st)
    else if op == BitwiseAnd then FromBool(BitAnd(Bits(sy), Bits(st)) == Bits(st))
    else if op == BitwiseOr then FromBool(BitOr(Bits(sy), Bits(st)) == Bits(st))
    else Error
  }

  /** The FLOAT branch, on the sign `o` of cmp_float(sys, state). */
  function EvalFloat(o: int, op: Operation): (r: OvalResult)
    ensures r == Error <==> !Supports(DtFloat, op)
  {
    if op == Equals then FromBool(o == 0)
    else if op == NotEqual then FromBool(o != 0)
    else if op == GreaterThan then FromBool(o == 1)
    else if op == GreaterThanOrEqual then FromBool(o >= 0)
    else if op == LessThan then FromBool(o == -1)
    else if op == LessThanOrEqual then FromBool(o <= 0)
    else Error
  }

  /** The BOOLEAN branch. */
  function EvalBoolean(sys: string, state: string, op: Operation): (r: OvalResult)
    ensures r == Error <==> !Supports(DtBoolean, op)
    ensures r != Error ==> r == True || r == False
  {
    if op == Equals then FromBool(BoolValue(state) == BoolValue(sys))
    else if op == NotEqual then FromBool(BoolValue(state) != BoolValue(sys))
    else Error
  }

  /** The BINARY branch: case-insensitive equality of the hexadecimal text. */
  function EvalBinary(sys: string, state: string, op: Operation): (r: OvalResult)
    ensures r == Error <==> !Supports(DtBinary, op)
    ensures r != Error ==> r == True || r == False
  {
    if op == Equals then FromBool(IStrCmp(Some(state), Some(sys)) == 0)
    else if op == NotEqual then FromBool(IStrCmp(Some(state), Some(sys)) != 0)
    else Error
  }

  /**
   The EVR_STRING branch, on c = rpmvercmp(sys, state): GREATER_THAN holds when
   the collected value is the newer one, LESS_THAN when the state value is.
   */
  function EvalEvr(c: int, op: Operation): (r: OvalResult)
    ensures r == Error <==> !Supports(DtEvrString, op)
    ensures r != Error ==> r == True || r == False
    ensures op == Equals ==> (r == True <==> c == 0)
    ensures op == GreaterThan ==> (r == True <==> c == 1)
    ensures op == LessThan ==> (r == True <==> c == -1)
    ensures RpmVerCmp.IsOrder(c) && op == GreaterThanOrEqual ==> (r == True <==> c >= 0)
    ensures RpmVerCmp.IsOrder(c) && op == LessThanOrEqual ==> (r == True <==> c <= 0)
  {
    if op == Equals then FromBool(c == 0)
    else if op == NotEqual then FromBool(c != 0)
    else if op == GreaterThan then FromBool(c == 1)
    else if op == GreaterThanOrEqual then FromBool(c != -1)
    else if op == LessThan then FromBool(c == -1)
    else if op == LessThanOrEqual then FromBool(c != 1)
    else Error
  }

  /**
   evaluate(sys, state, -, stateType, op): compares the collected value `sys`
   with the state value `state`. The collected value's own datatype plays no
   part. Case-insensitive comparisons use the corrected `IStrCmp`.
   */
  function Evaluate(sys: string, state: string, stateType: Datatype, op: Operation, ext: Externals): (r: OvalResult)
    ensures stateType == DtFilesetRevision || stateType == DtIosVersion ==> r == NotEvaluated
    ensures stateType == DtUnknown || stateType == DtIpv4Addr ==> r == Error
    ensures stateType !in {DtIpv6Addr, DtFilesetRevision, DtIosVersion} && !Supports(stateType, op) ==> r == Error
    ensures SelfContained(stateType, op) ==> (r == Error <==> !Supports(stateType, op))
    ensures SelfContained(stateType, op) && Supports(stateType, op) ==> r == True || r == False
  {
    match stateType
    case DtString => EvalString(sys, state, op, ext)
    case DtInteger => EvalInteger(AtoI(sys), AtoI(state), op)
    case DtFloat => EvalFloat(ext.floatOrder(sys, state), op)
    case DtBoolean => EvalBoolean(sys, state, op)
    case DtBinary => EvalBinary(sys, state, op)
    case DtEvrString => EvalEvr(RpmVerCmp.VerCmp(sys, state), op)
    case DtVersion => VersionWalk(state, sys, op)
    case DtIpv4Addr => Error
    case DtIpv6Addr => ext.ipv6Compare(state, sys, op)
    case DtFilesetRevision => NotEvaluated
    case DtIosVersion => NotEvaluated
    case DtUnknown => Error
  }

  /** BITWISE_AND is TRUE exactly when every bit set in the state value is set in the collected value. */
  lemma IntegerBitwiseAnd(sy: int, st: int)
    requires IsInt32(sy) && IsInt32(st)
    ensures EvalInteger(sy, st, BitwiseAnd) == True <==> BitsWithin(Bits(st), Bits(sy))
  {
    MaskIsWithin(Bits(st), Bits(sy));
  }

  /** BITWISE_OR is TRUE exactly when every bit set in the collected value is set in the state value. */
  lemma IntegerBitwiseOr(sy: int, st: int)
    requires IsInt32(sy) && IsInt32(st)
    ensures EvalInteger(sy, st, BitwiseOr) == True <==> BitsWithin(Bits(sy), Bits(st))
  {
    UnionIsWithin(Bits(sy), Bits(st));
  }

  /** The integer bitwise operations of evaluate, on the values atoi reads from the two strings. */
  lemma EvaluateBitwise(sys: string, state: string, ext: Externals)
    ensures Evaluate(sys, state, DtInteger, BitwiseAnd, ext) == True
            <==> BitsWithin(Bits(AtoI(state)), Bits(AtoI(sys)))
    ensures Evaluate(sys, state, DtInteger, BitwiseOr, ext) == True
            <==> BitsWithin(Bits(AtoI(sys)), Bits(AtoI(state)))
  {
    IntegerBitwiseAnd(AtoI(sys), AtoI(state));
    IntegerBitwiseOr(AtoI(sys), AtoI(state));
  }

  /** The datatypes evaluate compares by an order. */
  predicate Ordered(dt: Datatype) {
    dt == DtInteger || dt == DtEvrString || dt == DtVersion
  }

  /**
   The six comparisons are those of one order: exactly one of GREATER, EQUALS
   and LESS holds, the "or equal" forms are disjunctions, and NOT_EQUAL is the
   negation of EQUALS.
   */
  predicate IsOrderTable(gt: OvalResult, eq: OvalResult, lt: OvalResult,
                         ge: OvalResult, le: OvalResult, ne: OvalResult) {
    && ExactlyOneTrue(gt, eq, lt)
    && (ge == True <==> gt == True || eq == True)
    && (le == True <==> lt == True || eq == True)
    && ne == Negate(eq)
  }

  lemma IntegerOrder(sy: int, st: int)
    requires IsInt32(sy) && IsInt32(st)
    ensures IsOrderTable(EvalInteger(sy, st, GreaterThan), EvalInteger(sy, st, Equals), EvalInteger(sy, st, LessThan),
                         EvalInteger(sy, st, GreaterThanOrEqual), EvalInteger(sy, st, LessThanOrEqual),
                         EvalInteger(sy, st, NotEqual))
  {
  }

  lemma EvrOrder(c: int)
    requires RpmVerCmp.IsOrder(c)
    ensures IsOrderTable(EvalEvr(c, GreaterThan), EvalEvr(c, Equals), EvalEvr(c, LessThan),
                         EvalEvr(c, GreaterThanOrEqual), EvalEvr(c, LessThanOrEqual), EvalEvr(c, NotEqual))
  {
  }

  lemma FieldWalkOrder(fs: seq<int>, fy: seq<int>)
    ensures IsOrderTable(FieldWalk(fs, fy, GreaterThan), FieldWalk(fs, fy, Equals), FieldWalk(fs, fy, LessThan),
                         FieldWalk(fs, fy, GreaterThanOrEqual), FieldWalk(fs, fy, LessThanOrEqual),
                         FieldWalk(fs, fy, NotEqual))
  {
    FieldWalkTrichotomy(fs, fy);
    FieldWalkOrEqual(fs, fy);
    FieldWalkNotEqual(fs, fy);
  }

  /** For integers, EVR strings and versions, evaluate compares by one order. */
  lemma OrderedComparisons(sys: string, state: string, dt: Datatype, ext: Externals)
    requires Ordered(dt)
    ensures IsOrderTable(Evaluate(sys, state, dt, GreaterThan, ext), Evaluate(sys, state, dt, Equals, ext),
                         Evaluate(sys, state, dt, LessThan, ext), Evaluate(sys, state, dt, GreaterThanOrEqual, ext),
                         Evaluate(sys, state, dt, LessThanOrEqual, ext), Evaluate(sys, state, dt, NotEqual, ext))
  {
    if dt == DtInteger {
      IntegerOrder(AtoI(sys), AtoI(state));
    } else if dt == DtEvrString {
      EvrOrder(RpmVerCmp.VerCmp(sys, state));
    } else {
      FieldWalkOrder(Fields(state), Fields(sys));
    }
  }

  /** Exchanging the collected and the state value exchanges GREATER and LESS. */
  lemma OrderedSwap(a: string, b: string, dt: Datatype, ext: Externals)
    requires Ordered(dt)
    ensures Evaluate(a, b, dt, GreaterThan, ext) == Evaluate(b, a, dt, LessThan, ext)
    ensures Evaluate(a, b, dt, GreaterThanOrEqual, ext) == Evaluate(b, a, dt, LessThanOrEqual, ext)
  {
    if dt == DtInteger {
      IntegerSwap(AtoI(a), AtoI(b));
    } else if dt == DtEvrString {
      RpmVerCmp.VerCmpAntisymmetric(a, b);
      EvrSwap(RpmVerCmp.VerCmp(a, b), RpmVerCmp.VerCmp(b, a));
    } else {
      FieldWalkSwap(Fields(b), Fields(a));
    }
  }

  lemma IntegerSwap(x: int, y: int)
    requires IsInt32(x) && IsInt32(y)
    ensures EvalInteger(x, y, GreaterThan) == EvalInteger(y, x, LessThan)
    ensures EvalInteger(x, y, GreaterThanOrEqual) == EvalInteger(y, x, LessThanOrEqual)
  {
  }

  lemma EvrSwap(c: int, d: int)
    requires c == -d
    ensures EvalEvr(c, GreaterThan) == EvalEvr(d, LessThan)
    ensures EvalEvr(c, GreaterThanOrEqual) == EvalEvr(d, LessThanOrEqual)
  {
  }

  /** A value always EQUALS itself, as an integer, an EVR string or a version. */
  lemma OrderedReflexive(a: string, dt: Datatype, ext: Externals)
    requires Ordered(dt)
    ensures Evaluate(a, a, dt, Equals, ext) == True
  {
    if dt == DtVersion {
      FieldWalkEquals(Fields(a), Fields(a));
    }
  }

  /** Case-insensitive string equality and binary equality hold exactly for strings equal up to case. */
  lemma CaseInsensitiveEquality(sys: string, state: string, ext: Externals)
    requires NoNul(sys) && NoNul(state)
    ensures Evaluate(sys, state, DtString, CaseInsensitiveEquals, ext) == True <==> EqualIgnoringCase(state, sys)
    ensures Evaluate(sys, state, DtBinary, Equals, ext) == True <==> EqualIgnoringCase(state, sys)
    ensures Evaluate(sys, state, DtString, CaseInsensitiveNotEqual, ext)
            == Negate(Evaluate(sys, state, DtString, CaseInsensitiveEquals, ext))
  {
  }

  /** STRING EQUALS and NOT_EQUAL compare the two strings exactly. */
  lemma StringEquality(sys: string, state: string, ext: Externals)
    ensures Evaluate(sys, state, DtString, Equals, ext) == True <==> sys == state
    ensures Evaluate(sys, state, DtString, NotEqual, ext) == True <==> sys != state
  {
  }

  /** INTEGER comparisons order the value atoi reads from the collected string against the one it reads from the state. */
  lemma IntegerComparisons(sys: string, state: string, ext: Externals)
    ensures Evaluate(sys, state, DtInteger, Equals, ext) == True <==> AtoI(sys) == AtoI(state)
    ensures Evaluate(sys, state, DtInteger, GreaterThan, ext) == True <==> AtoI(sys) > AtoI(state)
    ensures Evaluate(sys, state, DtInteger, GreaterThanOrEqual, ext) == True <==> AtoI(sys) >= AtoI(state)
    ensures Evaluate(sys, state, DtInteger, LessThan, ext) == True <==> AtoI(sys) < AtoI(state)
    ensures Evaluate(sys, state, DtInteger, LessThanOrEqual, ext) == True <==> AtoI(sys) <= AtoI(state)
  {
  }

  /** On decimal numerals, INTEGER GREATER_THAN holds exactly when the collected number is the larger. */
  lemma IntegerNumerals(m: nat, n: nat, ext: Externals)
    requires m <= INT_MAX && n <= INT_MAX
    ensures Evaluate(Decimal(m), Decimal(n), DtInteger, GreaterThan, ext) == True <==> m > n
    ensures Evaluate(Decimal(m), Decimal(n), DtInteger, LessThan, ext) == True <==> m < n
  {
    AtoIReadsDecimal(m);
    AtoIReadsDecimal(n);
  }

  /** EVR comparisons read rpmvercmp(sys, state): GREATER_THAN iff the collected value is newer. */
  lemma EvrComparisons(sys: string, state: string, ext: Externals)
    ensures Evaluate(sys, state, DtEvrString, Equals, ext) == True <==> RpmVerCmp.VerCmp(sys, state) == 0
    ensures Evaluate(sys, state, DtEvrString, GreaterThan, ext) == True <==> RpmVerCmp.VerCmp(sys, state) == 1
    ensures Evaluate(sys, state, DtEvrString, LessThan, ext) == True <==> RpmVerCmp.VerCmp(sys, state) == -1
  {
  }

  /** A collected EVR string that extends the state value by a new segment is GREATER_THAN it, and not the reverse. */
  lemma EvrLongerIsGreater(x: string, s: string, ext: Externals)
    requires |x| > 0 && IsAlnum(x[|x| - 1])
    requires |s| > 0 && !RpmVerCmp.SameClass(x[|x| - 1], s[0])
    ensures Evaluate(x + s, x, DtEvrString, GreaterThan, ext) == True
    ensures Evaluate(x, x + s, DtEvrString, GreaterThan, ext) == False
    ensures Evaluate(x, x + s, DtEvrString, LessThan, ext) == True
  {
    RpmVerCmp.LongerVersionIsNewer(x, s);
  }

  /** VERSION comparisons: GREATER_THAN iff the collected value's field is the larger at the first field that differs. */
  lemma VersionComparisons(sys: string, state: string, ext: Externals)
    ensures Evaluate(sys, state, DtVersion, GreaterThan, ext) == True <==> Exceeds(Fields(sys), Fields(state))
    ensures Evaluate(sys, state, DtVersion, LessThan, ext) == True <==> Exceeds(Fields(state), Fields(sys))
  {
  }

  /** Booleans compare by their truth value, so "1" EQUALS "true". */
  lemma BooleanEquality(sys: string, state: string, ext: Externals)
    ensures Evaluate(sys, state, DtBoolean, Equals, ext) == True <==> (BoolValue(sys) <==> BoolValue(state))
    ensures Evaluate("1", "true", DtBoolean, Equals, ext) == True
  {
  }
}

=== FILE: cpe_dict.dfy ===
/**
 Matching a CPE name against a CPE dictionary (cpedict.c): a dictionary is a
 list of items, each carrying a name, and a name matches the dictionary when
 it matches the name of some item.
 */
module CpeDict {
  import opened Wrappers
  import opened Ascii
  import opened CpeUri

  /** CPE_DICT_SUPPORTED, the dictionary format version this code reads. */
  const DictSupported: string := "2.2"

  /** A dictionary item; only its name takes part in matching (it may be NULL). */
  datatype Item = Item(name: Option<Name>)

  /** cpe_dict_model: the items in document order. */
  datatype Dict = Dict(items: seq<Item>)

  /** The item names, collected in order as the C code fills its array. */
  function ItemNames(d: Dict): (ns: seq<Option<Name>>)
    ensures |ns| == |d.items|
    ensures forall i :: 0 <= i < |d.items| ==> ns[i] == d.items[i].name
  {
    seq(|d.items|, i requires 0 <= i < |d.items| => d.items[i].name)
  }

  /** The name matches the dictionary: both exist and some item's name is matched. */
  predicate MatchesDict(name: Option<Name>, dict: Option<Dict>) {
    name.Some? && dict.Some?
    && exists i :: 0 <= i < |dict.value.items| && MatchOne(name, dict.value.items[i].name)
  }

  /** cpe_name_match_dict: NULL arguments give false; otherwise cpe_name_match_cpes over the item names. */
  method MatchDict(name: Option<Name>, dict: Option<Dict>) returns (r: bool)
    ensures name.None? || dict.None? ==> !r
    ensures r <==> MatchesDict(name, dict)
  {
    if name.None? || dict.None? {
      return false;
    }
    var names := ItemNames(dict.value);
    r := MatchCpes(name, Some(names));
  }

  /**
   cpe_name_match_dict_str: false for a NULL string and for one that does not
   parse; otherwise the parsed name is matched against the dictionary.
   */
  method MatchDictStr(s: Option<CString>, dict: Option<Dict>) returns (r: bool)
    ensures s.None? ==> !r
    ensures s.Some? && NameNew(s).None? ==> !r
    ensures s.Some? && NameNew(s).Some? ==> (r <==> MatchesDict(NameNew(s), dict))
  {
    if s.None? {
      return false;
    }
    var name := NameNew(s);
    if name.None? {
      return false;
    }
    r := MatchDict(name, dict);
  }

  /** cpe_dict_model_supported. */
  function Supported(): (v: string)
    ensures v == DictSupported && v == "2.2"
  {
    DictSupported
  }

  /** A name without empty fields matches every dictionary that lists it. */
  lemma ListedNameMatches(n: Name, d: Dict, k: int)
    requires Valid(n)
    requires 0 <= k < |d.items| && d.items[k].name == Some(n)
    ensures MatchesDict(Some(n), Some(d))
  {
    MatchOneReflexive(n);
  }

  /** Adding items to a dictionary keeps every match it had. */
  lemma MatchSurvivesAdding(name: Option<Name>, d: Dict, more: seq<Item>)
    requires MatchesDict(name, Some(d))
    ensures MatchesDict(name, Some(Dict(d.items + more)))
  {
    var i :| 0 <= i < |d.items| && MatchOne(name, d.items[i].name);
    assert (d.items + more)[i] == d.items[i];
  }
}

=== FILE: cpe_lang.dfy ===
/**
 The CPE language test expression (cpelang_priv.c): a node whose operator
 selects its payload. A MATCH node carries a CPE name, an AND or OR node,
 possibly with the NOT bit, carries a list of sub-expressions. The guarded
 mutators, the platform and language-model adders, and the mapping between
 the (operator, negate) attributes and the operator values are modelled;
 evaluating an expression is not part of this model.
 */
module CpeLang {
  import opened Wrappers
  import opened Ascii
  import opened BitOps
  import CpeUri

  // ---------------------------------------------------------------------------
  // Operator values (cpe_lang_oper_t)
  // ---------------------------------------------------------------------------

  const OperInvalid: nat := 0
  const OperAnd: nat := 1
  const OperOr: nat := 2
  const OperMatch: nat := 3
  /** Selects the operator proper, without the NOT bit. */
  const OperMask: nat := 0xFF
  const OperNot: nat := 0x100
  /** AND | NOT */
  const OperNand: nat := 0x101
  /** OR | NOT */
  const OperNor: nat := 0x102

  /** The combined operators are the plain ones with the NOT bit added. */
  lemma NegatedOperators()
    ensures OperNand == BitOr(OperAnd, OperNot) && OperNor == BitOr(OperOr, OperNot)
    ensures BitAnd(OperNand, OperMask) == OperAnd && BitAnd(OperNor, OperMask) == OperOr
  {
    LowBits(OperNand, 8);
    LowBits(OperNor, 8);
  }

  /** `oper & CPE_LANG_OPER_MASK`: the operator without the NOT bit. */
  function Masked(oper: nat): (m: nat)
    ensures m <= OperMask
    ensures m == oper % 0x100
  {
    LowBits(oper, 8);
    BitAnd(oper, OperMask)
  }

  /** `oper & (CPE_LANG_OPER_AND | CPE_LANG_OPER_OR)`: the two low bits. */
  function AndOrBits(oper: nat): (m: nat)
    ensures m == oper % 4
  {
    LowBits(oper, 2);
    BitAnd(oper, BitOr(OperAnd, OperOr))
  }

  /** The NOT bit is set. */
  predicate Negated(oper: nat) {
    BitAnd(oper, OperNot) != 0
  }

  /** The node is a logical test: its masked operator is AND or OR. */
  predicate IsLogical(oper: nat) {
    Masked(oper) == OperAnd || Masked(oper) == OperOr
  }

  // ---------------------------------------------------------------------------
  // Test expressions
  // ---------------------------------------------------------------------------

  /**
   The payload union of a node: NULL, the sub-expression list of a logical
   test, or the name of a MATCH node (which may itself be NULL).
   */
  datatype Meta = NoMeta | Children(subs: seq<TestExpr>) | Cpe(name: Option<CpeUri.Name>)

  /** cpe_testexpr: the operator and its payload. */
  datatype TestExpr = TestExpr(oper: nat, meta: Meta)

  /**
   The payload agrees with the operator: a logical test never holds a name, a
   MATCH node never holds a list, and any other operator holds nothing.
   */
  predicate Wf(e: TestExpr) {
    (IsLogical(e.oper) ==> !e.meta.Cpe?)
    && (Masked(e.oper) == OperMatch ==> !e.meta.Children?)
    && (!IsLogical(e.oper) && Masked(e.oper) != OperMatch ==> e.meta.NoMeta?)
  }

  /** cpe_testexpr_meta_free: the payload the masked operator names is released; any other is left alone. */
  function MetaFree(e: TestExpr): (m: Meta)
    ensures Wf(e) ==> m == NoMeta
  {
    if IsLogical(e.oper) || Masked(e.oper) == OperMatch then NoMeta else e.meta
  }

  /** cpe_testexpr_set_oper: the old payload is released, then the operator is stored; always true. */
  function SetOper(e: TestExpr, oper: nat): (out: (bool, TestExpr))
    ensures out.0 && out.1.oper == oper
    ensures IsLogical(e.oper) || Masked(e.oper) == OperMatch ==> out.1.meta == NoMeta
    ensures !IsLogical(e.oper) && Masked(e.oper) != OperMatch ==> out.1.meta == e.meta
    ensures Wf(e) ==> out.1 == TestExpr(oper, NoMeta) && Wf(out.1)
  {
    (true, TestExpr(oper, MetaFree(e)))
  }

  /** Setting the operator twice is setting it once to the second value. */
  lemma SetOperTwice(e: TestExpr, a: nat, b: nat)
    requires Wf(e)
    ensures SetOper(SetOper(e, a).1, b) == SetOper(e, b)
  {
  }

  /**
   cpe_testexpr_set_name: false, with the node unchanged, unless the masked
   operator is MATCH; otherwise the old name is released and the new one stored.
   */
  function SetName(e: TestExpr, name: Option<CpeUri.Name>): (out: (bool, TestExpr))
    ensures out.0 <==> Masked(e.oper) == OperMatch
    ensures !out.0 ==> out.1 == e
    ensures out.0 ==> out.1.oper == e.oper && out.1.meta == Cpe(name)
    ensures Wf(e) ==> Wf(out.1)
  {
    if Masked(e.oper) != OperMatch then (false, e)
    else (true, TestExpr(e.oper, Cpe(name)))
  }

  /** cpe_testexpr_get_meta_cpe: NULL unless the masked operator is MATCH. */
  function GetMetaCpe(e: TestExpr): (r: Option<CpeUri.Name>)
    ensures Masked(e.oper) != OperMatch ==> r.None?
  {
    if Masked(e.oper) != OperMatch then None
    else if e.meta.Cpe? then e.meta.name
    else None
  }

  /** A name stored on a MATCH node is the name read back. */
  lemma SetNameThenGet(e: TestExpr, name: Option<CpeUri.Name>)
    requires Masked(e.oper) == OperMatch
    ensures GetMetaCpe(SetName(e, name).1) == name
  {
  }

  /**
   cpe_testexpr_add_subexpression: false unless the masked operator is AND or
   OR; otherwise the child is appended to the list. A logical node must hold a
   list: set_oper leaves it NULL, and adding to a NULL list is decided by list.c.
   */
  function AddSubexpression(e: TestExpr, sub: TestExpr): (out: (bool, TestExpr))
    requires IsLogical(e.oper) ==> e.meta.Children?
    ensures out.0 <==> IsLogical(e.oper)
    ensures !out.0 ==> out.1 == e
    ensures out.0 ==> out.1.oper == e.oper && out.1.meta.Children?
    ensures out.0 ==> |out.1.meta.subs| == |e.meta.subs| + 1
    ensures out.0 ==> out.1.meta.subs[..|e.meta.subs|] == e.meta.subs
    ensures out.0 ==> out.1.meta.subs[|e.meta.subs|] == sub
    ensures Wf(e) ==> Wf(out.1)
  {
    if !IsLogical(e.oper) then (false, e)
    else (true, TestExpr(e.oper, Children(e.meta.subs + [sub])))
  }

  /** Adds the children one at a time, stopping at the first refusal. */
  function AddAll(e: TestExpr, subs: seq<TestExpr>): (out: (bool, TestExpr))
    requires IsLogical(e.oper) ==> e.meta.Children?
    decreases |subs|
  {
    if |subs| == 0 then (true, e)
    else
      var step := AddSubexpression(e, subs[0]);
      if !step.0 then (false, step.1) else AddAll(step.1, subs[1..])
  }

  /** Adding children one by one to a logical node leaves exactly those children after the old ones, in order. */
  lemma {:induction false} AddAllAppends(e: TestExpr, subs: seq<TestExpr>)
    requires IsLogical(e.oper) && e.meta.Children?
    ensures AddAll(e, subs).0
    ensures AddAll(e, subs).1 == TestExpr(e.oper, Children(e.meta.subs + subs))
    decreases |subs|
  {
    if |subs| > 0 {
      var next := AddSubexpression(e, subs[0]).1;
      AddAllAppends(next, subs[1..]);
      assert e.meta.subs + subs == (e.meta.subs + [subs[0]]) + subs[1..];
    }
  }

  /**
   cpe_testexpr_get_meta_expr as written: an iterator over the payload
   whenever `oper & (AND | OR)` is non-zero. The result is the payload the
   iterator is built over.
   */
  function GetMetaExprAsWritten(e: Option<TestExpr>): (r: Option<Meta>)
    ensures e.None? ==> r.None?
    ensures e.Some? ==> (r.Some? <==> e.value.oper % 4 != 0)
    ensures r.Some? ==> r.value == e.value.meta
  {
    if e.None? then None
    else if AndOrBits(e.value.oper) != 0 then Some(e.value.meta)
    else None
  }

  /** cpe_testexpr_get_meta_expr as intended: an iterator over the children of a logical node only. */
  function GetMetaExpr(e: Option<TestExpr>): (r: Option<Meta>)
    ensures r.Some? <==> e.Some? && IsLogical(e.value.oper)
    ensures r.Some? ==> r.value == e.value.meta
    ensures r.Some? && Wf(e.value) ==> !r.value.Cpe?
  {
    if e.Some? && IsLogical(e.value.oper) then Some(e.value.meta) else None
  }

  /** A node whose operator is one of the known values, with or without the NOT bit. */
  predicate KnownOper(oper: nat) {
    Masked(oper) <= OperMatch
  }

  /**
   For known operators the bit test of the code and the masked test differ on
   MATCH only: `MATCH & (AND | OR)` is non-zero.
   */
  lemma BitTestAdmitsMatch(oper: nat)
    requires KnownOper(oper)
    ensures AndOrBits(oper) != 0 <==> IsLogical(oper) || Masked(oper) == OperMatch
  {
    LowTwoOfLowByte(oper);
  }

  /** The two low bits of a number are the two low bits of its low byte. */
  lemma LowTwoOfLowByte(x: nat)
    ensures x % 4 == (x % 0x100) % 4
  {
    var q, r := x / 0x100, x % 0x100;
    assert x == 0x100 * q + r;
    ModOfMultiple(64 * q, r);
  }

  lemma ModOfMultiple(k: nat, r: nat)
    ensures (4 * k + r) % 4 == r % 4
  {
  }

  /** The code hands out an iterator over the name of a MATCH node, read as if it were a list. */
  lemma GetMetaExprOfMatch(name: Option<CpeUri.Name>)
    ensures GetMetaExprAsWritten(Some(TestExpr(OperMatch, Cpe(name)))) == Some(Cpe(name))
    ensures GetMetaExpr(Some(TestExpr(OperMatch, Cpe(name)))).None?
  {
  }

  // ---------------------------------------------------------------------------
  // Platforms and the language model
  // ---------------------------------------------------------------------------

  /** cpe_platform: its id (may be NULL) and its top expression (may be NULL); titles and remark are not modelled. */
  datatype Platform = Platform(id: Option<string>, expr: Option<TestExpr>)

  /**
   cpe_platform_set_expr as written: a non-NULL expression without an AND or
   OR bit is refused and the platform unchanged; otherwise the old expression is
   released and the new one stored.
   */
  function PlatformSetExprAsWritten(p: Platform, expr: Option<TestExpr>): (out: (bool, Platform))
    ensures !out.0 <==> expr.Some? && expr.value.oper % 4 == 0
    ensures !out.0 ==> out.1 == p
    ensures out.0 ==> out.1 == p.(expr := expr)
  {
    if expr.Some? && AndOrBits(expr.value.oper) == 0 then (false, p)
    else (true, p.(expr := expr))
  }

  /** cpe_platform_set_expr as intended: only a logical test (or NULL) becomes a platform's expression. */
  function PlatformSetExpr(p: Platform, expr: Option<TestExpr>): (out: (bool, Platform))
    ensures !out.0 <==> expr.Some? && !IsLogical(expr.value.oper)
    ensures !out.0 ==> out.1 == p
    ensures out.0 ==> out.1 == p.(expr := expr)
    ensures out.0 ==> (out.1.expr.None? || IsLogical(out.1.expr.value.oper))
  {
    if expr.Some? && !IsLogical(expr.value.oper) then (false, p)
    else (true, p.(expr := expr))
  }

  /** The code accepts a single MATCH node as a platform's expression; the intended check refuses it. */
  lemma PlatformAcceptsMatch(p: Platform, name: Option<CpeUri.Name>)
    ensures PlatformSetExprAsWritten(p, Some(TestExpr(OperMatch, Cpe(name)))).0
    ensures !PlatformSetExpr(p, Some(TestExpr(OperMatch, Cpe(name)))).0
  {
  }

  /** For every known operator other than MATCH the two checks agree. */
  lemma PlatformChecksAgree(p: Platform, expr: Option<TestExpr>)
    requires expr.Some? ==> KnownOper(expr.value.oper) && Masked(expr.value.oper) != OperMatch
    ensures PlatformSetExprAsWritten(p, expr) == PlatformSetExpr(p, expr)
  {
    if expr.Some? {
      BitTestAdmitsMatch(expr.value.oper);
    }
  }

  /** cpe_lang_model: the platforms in order and the index from id to platform. */
  datatype LangModel = LangModel(platforms: seq<Platform>, index: map<string, Platform>)

  /** Every indexed platform is listed, under its own id. */
  predicate IndexConsistent(m: LangModel) {
    forall id :: id in m.index ==> m.index[id] in m.platforms && m.index[id].id == Some(id)
  }

  /**
   cpe_lang_model_add_platform: false for a NULL model, a NULL platform or a
   platform without an id; otherwise the platform is appended to the list and
   indexed by its id. The hash table keeps an entry already present under that id.
   */
  function AddPlatform(m: Option<LangModel>, p: Option<Platform>): (out: (bool, Option<LangModel>))
    ensures !out.0 <==> m.None? || p.None? || p.value.id.None?
    ensures !out.0 ==> out.1 == m
    ensures out.0 ==> out.1.Some? && out.1.value.platforms == m.value.platforms + [p.value]
    ensures out.0 ==> p.value.id.value in out.1.value.index
    ensures out.0 && p.value.id.value !in m.value.index ==> out.1.value.index[p.value.id.value] == p.value
    ensures out.0 ==> forall id :: id in m.value.index ==> id in out.1.value.index && out.1.value.index[id] == m.value.index[id]
    ensures out.0 ==> out.1.value.index.Keys == m.value.index.Keys + {p.value.id.value}
  {
    if m.None? || p.None? || p.value.id.None? then (false, m)
    else
      var id := p.value.id.value;
      var index := if id in m.value.index then m.value.index else m.value.index[id := p.value];
      (true, Some(LangModel(m.value.platforms + [p.value], index)))
  }

  /** Adding a platform keeps the index consistent with the list. */
  lemma AddPlatformKeepsIndex(m: LangModel, p: Option<Platform>)
    requires IndexConsistent(m)
    ensures AddPlatform(Some(m), p).0 ==> IndexConsistent(AddPlatform(Some(m), p).1.value)
  {
    var out := AddPlatform(Some(m), p);
    if out.0 {
      var n := out.1.value;
      forall id | id in n.index
        ensures n.index[id] in n.platforms && n.index[id].id == Some(id)
      {
        if id in m.index {
          assert m.index[id] in m.platforms;
        } else {
          assert n.index[id] == p.value && n.platforms[|m.platforms|] == p.value;
        }
      }
    }
  }

  // ---------------------------------------------------------------------------
  // The operator and negate attributes
  // ---------------------------------------------------------------------------

  const AndText: string := "AND"
  const OrText: string := "OR"
  const TrueText: string := "true"
  const FalseText: string := "false"

  /**
   The operator of a logical-test element, as the parser sets it: the operator
   attribute must be AND or OR ignoring case (a missing one fails, None), and a
   negate attribute of "true", ignoring case, adds the NOT bit.
   */
  function ParseOperator(operatorAttr: Option<string>, negateAttr: Option<string>): (r: Option<nat>)
    ensures r.Some? <==> operatorAttr.Some?
                         && (EqualIgnoringCase(operatorAttr.value, AndText) || EqualIgnoringCase(operatorAttr.value, OrText))
    ensures r.Some? ==> IsLogical(r.value)
    ensures r.Some? ==> (Masked(r.value) == OperAnd <==> EqualIgnoringCase(operatorAttr.value, AndText))
    ensures r.Some? ==> (Negated(r.value) <==> negateAttr.Some? && EqualIgnoringCase(negateAttr.value, TrueText))
  {
    if operatorAttr.None? then None
    else
      var isAnd := EqualIgnoringCase(operatorAttr.value, AndText);
      if !isAnd && !EqualIgnoringCase(operatorAttr.value, OrText) then None
      else
        var base := if isAnd then OperAnd else OperOr;
        var negate := negateAttr.Some? && EqualIgnoringCase(negateAttr.value, TrueText);
        LogicalOperators(base, negate);
        Some(if negate then BitOr(base, OperNot) else base)
  }

  /** AND and OR, with or without the NOT bit, are logical operators that keep their base and show the bit. */
  lemma LogicalOperators(base: nat, negate: bool)
    requires base == OperAnd || base == OperOr
    ensures var oper := if negate then BitOr(base, OperNot) else base;
            IsLogical(oper) && Masked(oper) == base && (Negated(oper) <==> negate)
  {
    NegatedOperators();
    if negate {
      assert BitAnd(OperNand, OperNot) != 0 && BitAnd(OperNor, OperNot) != 0;
    } else {
      assert BitAnd(OperAnd, OperNot) == 0 && BitAnd(OperOr, OperNot) == 0;
    }
  }

  /**
   The (operator, negate) attributes cpe_testexpr_export writes: AND and OR
   with "false", NAND and NOR as AND and OR with "true". Every other operator
   writes no logical-test attributes (INVALID writes nothing, MATCH a fact-ref).
   */
  function ExportOperator(oper: nat): (r: Option<(string, string)>)
    ensures r.Some? <==> oper in {OperAnd, OperOr, OperNand, OperNor}
    ensures r.Some? ==> r.value.0 in {AndText, OrText} && r.value.1 in {TrueText, FalseText}
    ensures r.Some? ==> (r.value.1 == TrueText <==> oper in {OperNand, OperNor})
  {
    if oper == OperAnd then Some((AndText, FalseText))
    else if oper == OperOr then Some((OrText, FalseText))
    else if oper == OperNor then Some((OrText, TrueText))
    else if oper == OperNand then Some((AndText, TrueText))
    else None
  }

  /** Exporting a logical operator and parsing the attributes back gives the operator again. */
  lemma ExportThenParse(oper: nat)
    requires oper in {OperAnd, OperOr, OperNand, OperNor}
    ensures ExportOperator(oper).Some?
    ensures ParseOperator(Some(ExportOperator(oper).value.0), Some(ExportOperator(oper).value.1)) == Some(oper)
  {
    NegatedOperators();
  }

  /** Parsing attributes and exporting the operator writes the same attributes, up to case. */
  lemma ParseThenExport(operatorAttr: Option<string>, negateAttr: Option<string>)
    requires ParseOperator(operatorAttr, negateAttr).Some?
    ensures ExportOperator(ParseOperator(operatorAttr, negateAttr).value).Some?
    ensures EqualIgnoringCase(ExportOperator(ParseOperator(operatorAttr, negateAttr).value).value.0, operatorAttr.value)
    ensures ExportOperator(ParseOperator(operatorAttr, negateAttr).value).value.1 == TrueText
            <==> negateAttr.Some? && EqualIgnoringCase(negateAttr.value, TrueText)
  {
    NegatedOperators();
  }
}

=== FILE: cpe_uri.dfy ===
/**
 CPE 2.2 URI names (cpeuri.c): a name is a part (hardware, operating system,
 application or none) and six optional text fields. Names are parsed from and
 rendered to `cpe:/part:vendor:product:version:update:edition:language` URIs
 whose fields are percent-encoded (sections 2.1 and 2.3 of RFC 3986), and are
 matched field by field with an absent field acting as a wildcard.

 C strings are `CString`s: sequences of non-NUL bytes. A NULL pointer is None.
 */
module CpeUri {
  import opened Wrappers
  import opened Ascii

  /** cpe_part_t. */
  datatype Part = PartNone | PartHw | PartOs | PartApp

  /** struct cpe_name: the part and six fields, each NULL (None) or a C string. */
  datatype Name = Name(part: Part, vendor: Option<CString>, product: Option<CString>, version: Option<CString>,
                       update: Option<CString>, edition: Option<CString>, language: Option<CString>)

  /** CPE_FIELDNUM: the part and the six text fields. */
  const FieldCount: nat := 7

  /** CPE_URI_SUPPORTED, returned by cpe_name_supported. */
  const UriSupported: string := "2.2"

  /** What every CPE URI starts with. */
  const UriPrefix: CString := "cpe:/"

  /** The name cpe_name_new(NULL) creates: every field NULL. */
  const Empty: Name := Name(PartNone, None, None, None, None, None, None)

  // ---------------------------------------------------------------------------
  // Fields
  // ---------------------------------------------------------------------------

  /** oscap_enum_to_string over CPE_PART_MAP: NONE has no text. */
  function PartText(p: Part): (t: Option<CString>)
    ensures t.None? <==> p == PartNone
    ensures t.Some? ==> t.value == "h" || t.value == "o" || t.value == "a"
  {
    match p
    case PartHw => Some("h")
    case PartOs => Some("o")
    case PartApp => Some("a")
    case PartNone => None
  }

  /**
   oscap_string_to_enum over CPE_PART_MAP: an exact, case-sensitive match of
   "h", "o" or "a"; any other text, and NULL, gives NONE.
   */
  function PartOf(t: Option<CString>): (p: Part)
    ensures p != PartNone <==> t == Some("h") || t == Some("o") || t == Some("a")
    ensures p != PartNone ==> PartText(p) == t
    ensures forall q :: t == PartText(q) ==> p == q
  {
    if t == Some("h") then PartHw
    else if t == Some("o") then PartOs
    else if t == Some("a") then PartApp
    else PartNone
  }

  /** The fields in index order, as cpe_get_field returns them for indices 0 to 6. */
  function Fields(n: Name): (fs: seq<Option<CString>>)
    ensures |fs| == FieldCount
  {
    [PartText(n.part), n.vendor, n.product, n.version, n.update, n.edition, n.language]
  }

  /** cpe_get_field: field 0 is the part's text, which reads back as the part; NULL only for no part. */
  function GetField(n: Name, idx: nat): (r: Option<CString>)
    requires idx < FieldCount
    ensures idx == 0 ==> PartOf(r) == n.part
    ensures idx == 0 ==> (r.None? <==> n.part == PartNone)
  {
    Fields(n)[idx]
  }

  /** as_str: NULL reads as the empty string, and a present string as itself. */
  function AsStr(s: Option<CString>): (r: CString)
    ensures r == [] <==> s == None || s == Some([])
    ensures s.Some? ==> r == s.value
  {
    s.GetOr([])
  }

  /** Two names with the same fields are the same name. */
  lemma NameExtensional(a: Name, b: Name)
    requires forall i :: 0 <= i < FieldCount ==> GetField(a, i) == GetField(b, i)
    ensures a == b
  {
    assert GetField(a, 0) == GetField(b, 0);
    assert PartOf(PartText(a.part)) == a.part;
    assert GetField(a, 1) == GetField(b, 1) && GetField(a, 2) == GetField(b, 2) && GetField(a, 3) == GetField(b, 3);
    assert GetField(a, 4) == GetField(b, 4) && GetField(a, 5) == GetField(b, 5) && GetField(a, 6) == GetField(b, 6);
  }

  /**
   cpe_set_field: the part is set from its text and the call succeeds iff the
   text named a part; any other field takes the new value, an empty string
   being stored as NULL. The pair is (returned status, name afterwards).
   */
  function SetField(n: Name, idx: nat, v: Option<CString>): (out: (bool, Name))
    requires idx < FieldCount
    ensures forall j :: 0 <= j < FieldCount && j != idx ==> GetField(out.1, j) == GetField(n, j)
    ensures idx == 0 ==> out.1.part == PartOf(v) && (out.0 <==> v == Some("h") || v == Some("o") || v == Some("a"))
    ensures idx != 0 ==> out.0
    ensures idx != 0 ==> (GetField(out.1, idx).Some? <==> v.Some? && v.value != [])
    ensures idx != 0 && GetField(out.1, idx).Some? ==> GetField(out.1, idx) == v
  {
    var stored := if v == Some([]) then None else v;
    if idx == 0 then
      var p := PartOf(v);
      (p != PartNone, n.(part := p))
    else if idx == 1 then (true, n.(vendor := stored))
    else if idx == 2 then (true, n.(product := stored))
    else if idx == 3 then (true, n.(version := stored))
    else if idx == 4 then (true, n.(update := stored))
    else if idx == 5 then (true, n.(edition := stored))
    else (true, n.(language := stored))
  }

  /**
   cpe_name_clone: the part copied, each text field duplicated (a NULL field
   stays NULL). The source dereferences `n`, so there is no NULL case.
   */
  function Clone(n: Name): (c: Name)
    ensures forall i :: 0 <= i < FieldCount ==> GetField(c, i) == GetField(n, i)
  {
    Name(n.part, n.vendor, n.product, n.version, n.update, n.edition, n.language)
  }

  /** A clone is indistinguishable from the original: it is the same name. */
  lemma CloneIsCopy(n: Name)
    ensures Clone(n) == n
  {
    NameExtensional(Clone(n), n);
  }

  /** Empty components are NULL, never the empty string. */
  predicate Valid(n: Name) {
    forall i :: 0 <= i < FieldCount ==> GetField(n, i) != Some([])
  }

  /** The length of `fs` without its trailing absent entries. */
  function LastPresent(fs: seq<Option<CString>>): (k: nat)
    ensures k <= |fs|
    ensures forall i :: k <= i < |fs| ==> fs[i].None?
    ensures k > 0 ==> fs[k - 1].Some?
  {
    if |fs| == 0 then 0
    else if fs[|fs| - 1].Some? then |fs|
    else LastPresent(fs[..|fs| - 1])
  }

  /** cpe_fields_num: one more than the index of the last present field, 0 when none is present. */
  function FieldsNum(n: Name): (k: nat)
    ensures k <= FieldCount
    ensures forall i :: k <= i < FieldCount ==> GetField(n, i).None?
    ensures k > 0 ==> GetField(n, k - 1).Some?
  {
    LastPresent(Fields(n))
  }

  /**
   cpe_assign_values on a fresh name: cpe_set_field for each piece in order,
   ignoring the statuses.
   */
  function AssignValues(ts: seq<CString>): (n: Name)
    requires |ts| <= FieldCount
    ensures n.part == (if |ts| > 0 then PartOf(Some(ts[0])) else PartNone)
    ensures forall i :: 1 <= i < FieldCount ==>
              GetField(n, i) == (if i < |ts| && ts[i] != [] then Some(ts[i]) else None)
    ensures Valid(n)
    decreases |ts|
  {
    if |ts| == 0 then Empty
    else SetField(AssignValues(ts[..|ts| - 1]), |ts| - 1, Some(ts[|ts| - 1])).1
  }

  // ---------------------------------------------------------------------------
  // Percent-encoding
  // ---------------------------------------------------------------------------

  /** The unreserved bytes of section 2.3 of RFC 3986, which cpe_urlencode keeps as they are. */
  predicate Unreserved(c: char) {
    IsAlnum(c) || c == '-' || c == '.' || c == '_' || c == '~'
  }

  /** One byte as cpe_urlencode is meant to write it: as it is, or '%' and two upper-case hex digits. */
  function EncodeByte(c: CChar): (e: CString)
    ensures Unreserved(c) ==> e == [c]
    ensures !Unreserved(c) ==> |e| == 3 && e[0] == '%' && IsXDigit(e[1]) && IsXDigit(e[2])
                               && HexValue(e[1]) * 16 + HexValue(e[2]) == c as int
    ensures forall i :: 0 <= i < |e| ==> InClass(e[i])
  {
    if Unreserved(c) then [c] else ['%', HexDigit(c as int / 16), HexDigit(c as int % 16)]
  }

  /**
   One byte as cpe_urlencode writes it where `char` is signed: a byte from 0x80
   up is a negative `char`, which "%02X" prints as eight hex digits; the next
   write lands three bytes on, so "%FF" is what remains.
   */
  function EncodeByteAsWritten(c: CChar): (e: CString)
    ensures c as int < 0x80 ==> e == EncodeByte(c)
    ensures c as int >= 0x80 ==> e == "%FF"
  {
    if Unreserved(c) then [c] else if c as int >= 0x80 then "%FF" else EncodeByte(c)
  }

  /** cpe_urlencode as intended: each byte encoded in turn. */
  function UrlEncode(s: CString): (e: CString)
    ensures forall i :: 0 <= i < |e| ==> InClass(e[i])
    ensures |e| == 0 <==> |s| == 0
    ensures (forall i :: 0 <= i < |s| ==> Unreserved(s[i])) ==> e == s
  {
    if |s| == 0 then [] else EncodeByte(s[0]) + UrlEncode(s[1..])
  }

  /** cpe_urlencode as written. */
  function UrlEncodeAsWritten(s: CString): (e: CString)
    ensures (forall i :: 0 <= i < |s| ==> s[i] as int < 0x80) ==> e == UrlEncode(s)
  {
    if |s| == 0 then [] else EncodeByteAsWritten(s[0]) + UrlEncodeAsWritten(s[1..])
  }

  /** The byte whose intended encoding the encoder as written produces: 0xFF for any byte from 0x80 up. */
  function SquashByte(c: CChar): (d: CChar)
    ensures c as int < 0x80 ==> d == c
    ensures c as int >= 0x80 ==> d == 'ÿ'
  {
    if c as int >= 0x80 then 'ÿ' else c
  }

  /** Every byte squashed. */
  function Squash(s: CString): (r: CString)
    ensures |r| == |s|
    ensures forall i :: 0 <= i < |s| ==> r[i] == SquashByte(s[i])
  {
    if |s| == 0 then [] else [SquashByte(s[0])] + Squash(s[1..])
  }

  /** Every byte is below 0x80 or is 0xFF. */
  predicate KeptByteString(s: CString) {
    forall i :: 0 <= i < |s| ==> s[i] as int < 0x80 || s[i] == 'ÿ'
  }

  /** Squashing leaves a string alone exactly when all its bytes are below 0x80 or are 0xFF. */
  lemma SquashKeeps(s: CString)
    ensures Squash(s) == s <==> KeptByteString(s)
  {
    if Squash(s) == s {
      forall i | 0 <= i < |s|
        ensures s[i] as int < 0x80 || s[i] == 'ÿ'
      {
        assert Squash(s)[i] == s[i];
      }
    }
  }

  /** One byte as written is the intended encoding of its squashed byte. */
  lemma EncodeByteAsWrittenSquashes(c: CChar)
    ensures EncodeByteAsWritten(c) == EncodeByte(SquashByte(c))
  {
    if c as int >= 0x80 {
      var ff: CChar := 'ÿ';
      assert !Unreserved(ff);
      assert EncodeByte(ff) == ['%', HexDigit(15), HexDigit(15)];
    }
  }

  /** cpe_urlencode as written is the intended encoder applied to the squashed string. */
  lemma {:induction false} UrlEncodeAsWrittenSquashes(s: CString)
    ensures UrlEncodeAsWritten(s) == UrlEncode(Squash(s))
  {
    if |s| > 0 {
      UrlEncodeAsWrittenSquashes(s[1..]);
      EncodeByteAsWrittenSquashes(s[0]);
      assert Squash(s)[0] == SquashByte(s[0]) && Squash(s)[1..] == Squash(s[1..]);
    }
  }

  /**
   The loop of cpe_urldecode: the bytes it writes, and false when a '%' not
   followed by two hex digits stopped it there. A decoded byte may be NUL.
   */
  function DecodeRaw(s: CString): (out: (string, bool))
    ensures forall i :: 0 <= i < |out.0| ==> out.0[i] as int < 256
    ensures |out.0| <= |s|
    ensures '%' !in s ==> out == (s, true)
    decreases |s|
  {
    if |s| == 0 then ([], true)
    else if s[0] == '%' then
      if |s| >= 3 && IsXDigit(s[1]) && IsXDigit(s[2]) then
        var rest := DecodeRaw(s[3..]);
        ([(HexValue(s[1]) * 16 + HexValue(s[2])) as char] + rest.0, rest.1)
      else ([], false)
    else
      var rest := DecodeRaw(s[1..]);
      assert [s[0]] + s[1..] == s;
      ([s[0]] + rest.0, rest.1)
  }

  /** A '%' that does not start an escape: not followed by two hex digits. */
  predicate MalformedEscape(rest: CString) {
    |rest| > 0 && rest[0] == '%' && !(|rest| >= 3 && IsXDigit(rest[1]) && IsXDigit(rest[2]))
  }

  /**
   A malformed escape stops the decoder: the plain bytes before it are kept,
   a NUL is written in its place and the status is false.
   */
  lemma {:induction false} DecodeRawMalformed(p: CString, rest: CString)
    requires '%' !in p
    requires MalformedEscape(rest)
    ensures DecodeRaw(p + rest) == (p, false)
    decreases |p|
  {
    if |p| == 0 {
      assert p + rest == rest;
    } else {
      assert (p + rest)[0] == p[0] && (p + rest)[1..] == p[1..] + rest;
      DecodeRawMalformed(p[1..], rest);
      assert [p[0]] + p[1..] == p;
    }
  }

  /** The C string a buffer of bytes holds: everything before the first NUL. */
  function UntilNul(s: string): (c: CString)
    requires forall i :: 0 <= i < |s| ==> s[i] as int < 256
    ensures c <= s
    ensures |c| < |s| ==> s[|c|] == '\0'
    ensures NoNul(s) ==> c == s
  {
    if |s| == 0 || s[0] == '\0' then [] else [s[0]] + UntilNul(s[1..])
  }

  /** cpe_urldecode: the field it leaves behind and its status. */
  function UrlDecode(s: CString): (out: (CString, bool))
    ensures '%' !in s ==> out == (s, true)
  {
    var raw := DecodeRaw(s);
    (UntilNul(raw.0), raw.1)
  }

  /** cpe_urldecode on a field with a malformed escape: the field is cut there and false is returned. */
  lemma UrlDecodeMalformed(p: CString, rest: CString)
    requires '%' !in p
    requires MalformedEscape(rest)
    ensures UrlDecode(p + rest) == (p, false)
  {
    DecodeRawMalformed(p, rest);
  }

  /** Decoding an encoded byte gives the byte back and goes on with what follows. */
  lemma DecodeEncodedByte(c: CChar, rest: CString)
    ensures DecodeRaw(EncodeByte(c) + rest) == ([c as char] + DecodeRaw(rest).0, DecodeRaw(rest).1)
  {
    if Unreserved(c) {
      DecodePlainFront(c, rest);
    } else {
      DecodeEscapeFront(EncodeByte(c), rest);
    }
  }

  /** A byte other than '%' is copied, and decoding goes on after it. */
  lemma DecodePlainFront(c: CChar, rest: CString)
    requires c != '%'
    ensures DecodeRaw([c] + rest) == ([c as char] + DecodeRaw(rest).0, DecodeRaw(rest).1)
  {
    var s := [c] + rest;
    assert s[0] == c && s[1..] == rest;
  }

  /** '%' and two hex digits decode to one byte, and decoding goes on after them. */
  lemma DecodeEscapeFront(e: CString, rest: CString)
    requires |e| == 3 && e[0] == '%' && IsXDigit(e[1]) && IsXDigit(e[2])
    ensures DecodeRaw(e + rest) == ([(HexValue(e[1]) * 16 + HexValue(e[2])) as char] + DecodeRaw(rest).0, DecodeRaw(rest).1)
  {
    var s := e + rest;
    assert s[0] == '%' && s[1] == e[1] && s[2] == e[2] && s[3..] == rest;
  }

  /** Decoding undoes the intended encoding. */
  lemma {:induction false} DecodeEncode(s: CString)
    ensures DecodeRaw(UrlEncode(s)) == (s, true)
    ensures UrlDecode(UrlEncode(s)) == (s, true)
  {
    if |s| > 0 {
      DecodeEncode(s[1..]);
      DecodeEncodedByte(s[0], UrlEncode(s[1..]));
      assert [s[0]] + s[1..] == s;
    }
  }

  /** The encoding as written loses a byte from 0x80 up: 0xE9 comes back as 0xFF. */
  lemma EncodeAsWrittenLosesHighBytes()
    ensures UrlEncodeAsWritten("é") == "%FF"
    ensures UrlDecode(UrlEncodeAsWritten("é")).0 == "ÿ"
    ensures UrlDecode(UrlEncodeAsWritten("é")).0 != "é"
  {
    var s: CString := "%FF";
    assert s[1..] == "FF" && s[3..] == [];
    assert DecodeRaw(s).0 == ['ÿ'];
  }

  // ---------------------------------------------------------------------------
  // The URI grammar
  // ---------------------------------------------------------------------------

  /** A byte of the field class [a-z0-9._~%-], matched without regard to case. */
  predicate InClass(c: char) {
    Unreserved(c) || c == '%'
  }

  /** The number of ':' in `t`. */
  function Colons(t: string): nat {
    if |t| == 0 then 0 else (if t[0] == ':' then 1 else 0) + Colons(t[1..])
  }

  /** `(:[a-z0-9._~%-]*){0,6}` matches the whole of `t`. */
  predicate FieldsOk(t: string) {
    (|t| == 0 || t[0] == ':')
    && (forall i :: 0 <= i < |t| ==> t[i] == ':' || InClass(t[i]))
    && Colons(t) <= 6
  }

  /** `[aho]?(:[a-z0-9._~%-]*){0,6}` matches the whole of `t`, without regard to case. */
  predicate BodyOk(t: string) {
    FieldsOk(t)
    || (|t| > 0 && (ToLower(t[0]) == 'a' || ToLower(t[0]) == 'h' || ToLower(t[0]) == 'o') && FieldsOk(t[1..]))
  }

  /**
   cpe_name_check: `^cpe:/[aho]?(:[a-z0-9._~%-]*){0,6}$` without regard to
   case; PCRE's `$` also matches just before a final newline.
   */
  predicate GrammarOk(s: string) {
    |s| >= 5 && EqualIgnoringCase(s[..5], "cpe:/")
    && (BodyOk(s[5..]) || (|s| > 5 && s[|s| - 1] == '\n' && BodyOk(s[5..|s| - 1])))
  }

  lemma {:induction false} ColonsAppend(a: string, b: string)
    ensures Colons(a + b) == Colons(a) + Colons(b)
  {
    if |a| == 0 {
      assert a + b == b;
    } else {
      assert (a + b)[0] == a[0] && (a + b)[1..] == a[1..] + b;
      ColonsAppend(a[1..], b);
    }
  }

  /** A URI the grammar accepts has at most six separators after "cpe:/". */
  lemma GrammarColons(s: string)
    requires GrammarOk(s)
    ensures Colons(s[5..]) <= 6
  {
    var t := s[5..];
    if !FieldsOk(t) && |t| > 0 && ToLower(t[0]) != ':' && FieldsOk(t[1..]) {
    } else if !BodyOk(t) {
      var u := s[5..|s| - 1];
      assert t == u + "\n";
      ColonsAppend(u, "\n");
      assert Colons("\n") == 0;
      if !FieldsOk(u) {
        assert Colons(u) == Colons(u[1..]);
      }
    }
  }

  // ---------------------------------------------------------------------------
  // Splitting and joining at ':'
  // ---------------------------------------------------------------------------

  /** oscap_split(t, ":"): the pieces between the separators, empty pieces included. */
  function Split(t: CString): (ps: seq<CString>)
    ensures |ps| == Colons(t) + 1
    ensures forall i :: 0 <= i < |ps| ==> ':' !in ps[i]
  {
    if |t| == 0 then [[]]
    else
      var rest := Split(t[1..]);
      if t[0] == ':' then [[]] + rest else [[t[0]] + rest[0]] + rest[1..]
  }

  /** ":" before each piece, concatenated. */
  function JoinTail(qs: seq<CString>): CString {
    if |qs| == 0 then [] else ":" + qs[0] + JoinTail(qs[1..])
  }

  /** The pieces separated by ':'. */
  function Join(ps: seq<CString>): CString
    requires |ps| > 0
  {
    ps[0] + JoinTail(ps[1..])
  }

  lemma {:induction false} JoinTailAppend(a: seq<CString>, b: seq<CString>)
    ensures JoinTail(a + b) == JoinTail(a) + JoinTail(b)
  {
    if |a| == 0 {
      assert a + b == b;
    } else {
      assert (a + b)[0] == a[0] && (a + b)[1..] == a[1..] + b;
      JoinTailAppend(a[1..], b);
    }
  }

  lemma {:induction false} SplitWithoutColon(p: CString)
    requires ':' !in p
    ensures Split(p) == [p]
  {
    if |p| > 0 {
      SplitWithoutColon(p[1..]);
      assert [p[0]] + p[1..] == p;
    }
  }

  lemma {:induction false} SplitPrefix(p: CString, t: CString)
    requires ':' !in p
    ensures Split(p + t) == [p + Split(t)[0]] + Split(t)[1..]
  {
    if |p| == 0 {
      assert p + t == t;
      assert p + Split(t)[0] == Split(t)[0];
      assert Split(t) == [Split(t)[0]] + Split(t)[1..];
    } else {
      assert (p + t)[0] == p[0] && (p + t)[1..] == p[1..] + t;
      SplitPrefix(p[1..], t);
      assert [p[0]] + (p[1..] + Split(t)[0]) == p + Split(t)[0];
    }
  }

  /** Splitting a joined sequence of colon-free pieces gives the pieces back. */
  lemma {:induction false} SplitJoinTail(p: CString, qs: seq<CString>)
    requires ':' !in p
    requires forall i :: 0 <= i < |qs| ==> ':' !in qs[i]
    ensures Split(p + JoinTail(qs)) == [p] + qs
    decreases |qs|
  {
    if |qs| == 0 {
      assert p + JoinTail(qs) == p;
      SplitWithoutColon(p);
    } else {
      var sepRest := JoinTail(qs);
      SplitJoinTail(qs[0], qs[1..]);
      assert sepRest[0] == ':' && sepRest[1..] == qs[0] + JoinTail(qs[1..]);
      assert Split(sepRest) == [[]] + ([qs[0]] + qs[1..]);
      SplitPrefix(p, sepRest);
      assert p + [] == p;
    }
  }

  /** Split undoes Join on colon-free pieces. */
  lemma SplitJoin(ps: seq<CString>)
    requires |ps| > 0
    requires forall i :: 0 <= i < |ps| ==> ':' !in ps[i]
    ensures Split(Join(ps)) == ps
  {
    SplitJoinTail(ps[0], ps[1..]);
  }

  lemma {:induction false} JoinTailOfClass(qs: seq<CString>)
    requires forall i, j :: 0 <= i < |qs| && 0 <= j < |qs[i]| ==> InClass(qs[i][j])
    ensures forall k :: 0 <= k < |JoinTail(qs)| ==> JoinTail(qs)[k] == ':' || InClass(JoinTail(qs)[k])
    ensures Colons(JoinTail(qs)) == |qs|
  {
    if |qs| > 0 {
      JoinTailOfClass(qs[1..]);
      var q := qs[0];
      NoColonsInClass(q);
      ColonsAppend(q, JoinTail(qs[1..]));
      var j: CString := ":" + q + JoinTail(qs[1..]);
      assert j[1..] == q + JoinTail(qs[1..]);
      forall k | 0 <= k < |j|
        ensures j[k] == ':' || InClass(j[k])
      {
        if 1 <= k <= |q| {
          assert j[k] == q[k - 1];
        } else if k > |q| {
          assert j[k] == JoinTail(qs[1..])[k - 1 - |q|];
        }
      }
    }
  }

  lemma {:induction false} NoColonsInClass(q: string)
    requires forall j :: 0 <= j < |q| ==> InClass(q[j])
    ensures Colons(q) == 0
  {
    if |q| > 0 {
      NoColonsInClass(q[1..]);
    }
  }

  /** Non-empty and not ending in ':'. */
  predicate NoColonEnd(x: CString) {
    |x| > 0 && x[|x| - 1] != ':'
  }

  /** Every byte is ':'. */
  predicate AllColons(t: CString) {
    forall k :: 0 <= k < |t| ==> t[k] == ':'
  }

  lemma {:induction false} JoinTailOfEmpties(qs: seq<CString>)
    requires forall i :: 0 <= i < |qs| ==> qs[i] == []
    ensures AllColons(JoinTail(qs))
  {
    if |qs| > 0 {
      JoinTailOfEmpties(qs[1..]);
      assert JoinTail(qs) == ":" + JoinTail(qs[1..]);
    }
  }

  /** cpe_name_get_uri's final loop: every trailing ':' removed. */
  function TrimColons(s: CString): (t: CString)
    ensures t <= s
    ensures |t| == 0 || t[|t| - 1] != ':'
    ensures forall i :: |t| <= i < |s| ==> s[i] == ':'
    decreases |s|
  {
    if |s| > 0 && s[|s| - 1] == ':' then TrimColons(s[..|s| - 1]) else s
  }

  /** Trimming a run of ':' off a string that does not itself end in ':' gives that string. */
  lemma TrimColonRun(x: CString, run: CString)
    requires |x| > 0 && x[|x| - 1] != ':'
    requires AllColons(run)
    ensures TrimColons(x + run) == x
  {
    var s := x + run;
    var t := TrimColons(s);
    assert forall i :: |x| <= i < |s| ==> s[i] == run[i - |x|] == ':';
    assert s[|x| - 1] == x[|x| - 1] != ':';
    assert forall i :: 0 <= i < |t| ==> t[i] == s[i];
  }

  // ---------------------------------------------------------------------------
  // Names and URIs
  // ---------------------------------------------------------------------------

  /** The seven fields, percent-encoded, an absent field as "". */
  function EncodedFields(n: Name): (e: seq<CString>)
    ensures |e| == FieldCount
    ensures forall i :: 0 <= i < FieldCount ==> e[i] == UrlEncode(AsStr(GetField(n, i)))
  {
    seq(FieldCount, i requires 0 <= i < FieldCount => UrlEncode(AsStr(GetField(n, i))))
  }

  /** cpe_name_get_uri: "cpe:/" and the seven encoded fields joined by ':', with the trailing ':' trimmed. */
  function GetUri(n: Name): CString {
    TrimColons(UriPrefix + Join(EncodedFields(n)))
  }

  /** The seven fields as cpe_name_get_uri writes them: through cpe_urlencode as written. */
  function EncodedFieldsAsWritten(n: Name): (e: seq<CString>)
    ensures |e| == FieldCount
    ensures forall i :: 0 <= i < FieldCount ==> e[i] == UrlEncodeAsWritten(AsStr(GetField(n, i)))
  {
    seq(FieldCount, i requires 0 <= i < FieldCount => UrlEncodeAsWritten(AsStr(GetField(n, i))))
  }

  /** cpe_name_get_uri as written. */
  function GetUriAsWritten(n: Name): CString {
    TrimColons(UriPrefix + Join(EncodedFieldsAsWritten(n)))
  }

  /** A field with every byte from 0x80 up replaced by 0xFF. */
  function SquashField(f: Option<CString>): (g: Option<CString>)
    ensures g.None? <==> f.None?
    ensures AsStr(g) == Squash(AsStr(f))
  {
    match f
    case None => None
    case Some(t) => Some(Squash(t))
  }

  /** The part's text is ASCII, so squashing leaves it alone. */
  lemma SquashPart(p: Part)
    ensures SquashField(PartText(p)) == PartText(p)
  {
    var t := PartText(p);
    if t.Some? {
      assert forall k :: 0 <= k < |t.value| ==> t.value[k] as int < 0x80;
      SquashKeeps(t.value);
    }
  }

  /** The name whose intended URI is the one cpe_name_get_uri writes for `n`: high bytes replaced by 0xFF. */
  function SquashName(n: Name): (r: Name)
    ensures forall i :: 0 <= i < FieldCount ==> GetField(r, i) == SquashField(GetField(n, i))
    ensures Valid(n) ==> Valid(r)
  {
    SquashPart(n.part);
    Name(n.part, SquashField(n.vendor), SquashField(n.product), SquashField(n.version),
         SquashField(n.update), SquashField(n.edition), SquashField(n.language))
  }

  /** The URI written for a name is the intended URI of its squashed form. */
  lemma GetUriAsWrittenSquashes(n: Name)
    ensures GetUriAsWritten(n) == GetUri(SquashName(n))
  {
    var a, b := EncodedFieldsAsWritten(n), EncodedFields(SquashName(n));
    forall i | 0 <= i < FieldCount
      ensures a[i] == b[i]
    {
      UrlEncodeAsWrittenSquashes(AsStr(GetField(n, i)));
    }
    assert a == b;
  }

  /** Every byte of every field is below 0x80 or is 0xFF: the bytes the encoder as written keeps. */
  predicate KeptBytes(n: Name) {
    forall i :: 0 <= i < FieldCount ==> KeptByteString(AsStr(GetField(n, i)))
  }

  /** Squashing leaves a name alone exactly when none of its bytes lies from 0x80 to 0xFE. */
  lemma SquashNameKeeps(n: Name)
    ensures SquashName(n) == n <==> KeptBytes(n)
  {
    var r := SquashName(n);
    if r == n {
      forall i | 0 <= i < FieldCount
        ensures KeptByteString(AsStr(GetField(n, i)))
      {
        SquashKeeps(AsStr(GetField(n, i)));
      }
    }
    if KeptBytes(n) {
      forall i | 0 <= i < FieldCount
        ensures GetField(r, i) == GetField(n, i)
      {
        SquashKeeps(AsStr(GetField(n, i)));
      }
      NameExtensional(r, n);
    }
  }

  /**
   cpe_name_new: NULL gives the empty name; a string the grammar rejects gives
   NULL; otherwise the text after "cpe:/" is split at ':', each piece is
   decoded, and the pieces are assigned to the fields in order.
   */
  function NameNew(s: Option<CString>): (r: Option<Name>)
    ensures s.None? ==> r == Some(Empty)
    ensures s.Some? ==> (r.None? <==> !GrammarOk(s.value))
    ensures r.Some? ==> Valid(r.value)
  {
    if s.None? then Some(Empty)
    else if !GrammarOk(s.value) then None
    else
      GrammarColons(s.value);
      Some(AssignValues(DecodeEach(Split(s.value[5..]))))
  }

  /** Each piece decoded with cpe_urldecode, its status ignored. */
  function DecodeEach(ps: seq<CString>): (ds: seq<CString>)
    ensures |ds| == |ps|
    ensures forall i :: 0 <= i < |ps| ==> ds[i] == UrlDecode(ps[i]).0
  {
    seq(|ps|, i requires 0 <= i < |ps| => UrlDecode(ps[i]).0)
  }

  /** The number of pieces GetUri keeps before trimming: the fields up to the last present one, at least one. */
  function KeptFields(n: Name): (m: nat)
    ensures 1 <= m <= FieldCount
    ensures forall i :: m <= i < FieldCount ==> GetField(n, i).None?
    ensures m > 1 ==> GetField(n, m - 1).Some?
  {
    if FieldsNum(n) == 0 then 1 else FieldsNum(n)
  }

  /** The encoded part field is the part's text, which needs no encoding. */
  lemma EncodedPart(n: Name)
    ensures EncodedFields(n)[0] == AsStr(PartText(n.part))
  {
    var t := AsStr(PartText(n.part));
    assert forall i :: 0 <= i < |t| ==> Unreserved(t[i]);
  }

  /** Each piece percent-encoded. */
  function EncodeEach(ts: seq<CString>): (es: seq<CString>)
    ensures |es| == |ts|
    ensures forall i :: 0 <= i < |ts| ==> es[i] == UrlEncode(ts[i])
  {
    seq(|ts|, i requires 0 <= i < |ts| => UrlEncode(ts[i]))
  }

  /** A join ends where its last piece ends. */
  lemma JoinLast(ps: seq<CString>)
    requires |ps| > 0
    ensures |ps| == 1 ==> Join(ps) == ps[0]
    ensures |ps[|ps| - 1]| > 0 ==> |Join(ps)| > 0 && Join(ps)[|Join(ps)| - 1] == ps[|ps| - 1][|ps[|ps| - 1]| - 1]
  {
    var last := ps[|ps| - 1];
    if |ps| == 1 {
      assert ps[1..] == [];
    } else {
      var init := ps[..|ps| - 1];
      assert ps[1..] == init[1..] + [last];
      JoinTailAppend(init[1..], [last]);
      assert JoinTail([last]) == ":" + last + JoinTail([]);
      assert Join(ps) == (ps[0] + JoinTail(init[1..]) + ":") + last;
    }
  }

  /** Join(e) is the join of its first m pieces followed by ':' and each later piece. */
  lemma JoinSplitAt(e: seq<CString>, m: nat)
    requires 1 <= m <= |e|
    ensures Join(e) == Join(e[..m]) + JoinTail(e[m..])
  {
    assert e[..m][1..] == e[1..m];
    assert e[1..] == e[1..m] + e[m..];
    JoinTailAppend(e[1..m], e[m..]);
  }

  /**
   Trimming the trailing ':' drops exactly the empty pieces after the m-th
   when the m-th is the first piece or a non-empty one not ending in ':'.
   */
  lemma TrimmedJoin(pre: CString, e: seq<CString>, m: nat)
    requires |pre| > 0 && pre[|pre| - 1] != ':'
    requires 1 <= m <= |e|
    requires forall i :: m <= i < |e| ==> e[i] == []
    requires |e[m - 1]| > 0 ==> e[m - 1][|e[m - 1]| - 1] != ':'
    requires m > 1 ==> |e[m - 1]| > 0
    ensures TrimColons(pre + Join(e)) == pre + Join(e[..m])
  {
    assert Join(e) == Join(e[..m]) + JoinTail(e[m..]) by { JoinSplitAt(e, m); }
    assert AllColons(JoinTail(e[m..])) by { EmptiesAfter(e, m); }
    assert NoColonEnd(pre + Join(e[..m])) by { KeptJoinEnd(pre, e, m); }
    TrimJoined(pre, Join(e[..m]), JoinTail(e[m..]), Join(e));
  }

  /** The pieces from the m-th on are all empty, so they join to a run of ':'. */
  lemma EmptiesAfter(e: seq<CString>, m: nat)
    requires m <= |e|
    requires forall i :: m <= i < |e| ==> e[i] == []
    ensures AllColons(JoinTail(e[m..]))
  {
    var qs := e[m..];
    assert forall i :: 0 <= i < |qs| ==> qs[i] == e[m + i];
    JoinTailOfEmpties(qs);
  }

  /** Trimming `pre + j` followed by a run of ':' gives `pre + j` back when it does not end in ':'. */
  lemma TrimJoined(pre: CString, j: CString, tail: CString, whole: CString)
    requires whole == j + tail
    requires NoColonEnd(pre + j)
    requires AllColons(tail)
    ensures TrimColons(pre + whole) == pre + j
  {
    AppendAssociative(pre, j, tail);
    TrimColonRun(pre + j, tail);
  }

  lemma AppendAssociative(a: CString, b: CString, c: CString)
    ensures a + (b + c) == (a + b) + c
  {
  }

  /** The kept part of the URI does not end in ':'. */
  lemma KeptJoinEnd(pre: CString, e: seq<CString>, m: nat)
    requires |pre| > 0 && pre[|pre| - 1] != ':'
    requires 1 <= m <= |e|
    requires |e[m - 1]| > 0 ==> e[m - 1][|e[m - 1]| - 1] != ':'
    requires m > 1 ==> |e[m - 1]| > 0
    ensures NoColonEnd(pre + Join(e[..m]))
  {
    var x := pre + Join(e[..m]);
    JoinLast(e[..m]);
    if |e[m - 1]| > 0 {
      var j, last := Join(e[..m]), e[m - 1];
      assert e[..m][m - 1] == last;
      assert |j| > 0 && j[|j| - 1] == last[|last| - 1];
      assert x[|x| - 1] == j[|j| - 1];
    } else {
      assert x == pre + [];
    }
  }

  /** What GetUri keeps: "cpe:/" and the encoded fields up to the last present one. */
  lemma UriShape(n: Name)
    requires Valid(n)
    ensures GetUri(n) == UriPrefix + Join(EncodedFields(n)[..KeptFields(n)])
  {
    var e := EncodedFields(n);
    var m := KeptFields(n);
    forall i | m <= i < |e|
      ensures e[i] == []
    {
      assert GetField(n, i).None?;
    }
    if m > 1 {
      assert GetField(n, m - 1) != Some([]);
    }
    if |e[m - 1]| > 0 {
      assert InClass(e[m - 1][|e[m - 1]| - 1]);
    }
    TrimmedJoin(UriPrefix, e, m);
  }

  /**
   A join of one to seven pieces, the first "" or a part letter and every other
   byte in the field class, is a body the grammar accepts.
   */
  lemma BodyOfJoin(ps: seq<CString>)
    requires 1 <= |ps| <= FieldCount
    requires ps[0] == [] || ps[0] == "h" || ps[0] == "o" || ps[0] == "a"
    requires forall i, j :: 1 <= i < |ps| && 0 <= j < |ps[i]| ==> InClass(ps[i][j])
    ensures BodyOk(Join(ps))
  {
    var qs := ps[1..];
    assert forall i, j :: 0 <= i < |qs| && 0 <= j < |qs[i]| ==> InClass(qs[i][j]) by {
      forall i, j | 0 <= i < |qs| && 0 <= j < |qs[i]|
        ensures InClass(qs[i][j])
      {
        assert qs[i] == ps[i + 1];
      }
    }
    JoinTailOfClass(qs);
    if ps[0] == [] {
      assert Join(ps) == JoinTail(qs);
    } else {
      assert Join(ps)[1..] == JoinTail(qs);
    }
  }

  /** "cpe:/" followed by an accepted body is an accepted URI. */
  lemma GrammarOfBody(body: CString)
    requires BodyOk(body)
    ensures GrammarOk(UriPrefix + body)
  {
    var x: CString := UriPrefix + body;
    assert x[..5] == "cpe:/" && x[5..] == body;
  }

  /** The URI GetUri renders is one the grammar accepts. */
  lemma UriGrammar(n: Name)
    requires Valid(n)
    ensures GrammarOk(GetUri(n))
  {
    var e := EncodedFields(n);
    var m := KeptFields(n);
    UriShape(n);
    EncodedPart(n);
    var ps := e[..m];
    assert forall i, j :: 1 <= i < |ps| && 0 <= j < |ps[i]| ==> InClass(ps[i][j]);
    BodyOfJoin(ps);
    GrammarOfBody(Join(ps));
  }

  /** What cpe_name_new builds from a URI the grammar accepts. */
  lemma NameNewParses(x: CString)
    requires GrammarOk(x)
    ensures |DecodeEach(Split(x[5..]))| <= FieldCount
    ensures NameNew(Some(x)) == Some(AssignValues(DecodeEach(Split(x[5..]))))
  {
    GrammarColons(x);
  }

  /**
   A malformed escape passes the grammar, and cpe_name_new keeps the name with
   that field cut at the escape: "cpe:/a:%zz:x" has no vendor and product "x".
   */
  lemma NameNewMalformedEscape(x: CString)
    requires x == "cpe:/a:%zz:x"
    ensures NameNew(Some(x)).Some?
    ensures NameNew(Some(x)).value.part == PartApp
    ensures NameNew(Some(x)).value.vendor.None?
    ensures NameNew(Some(x)).value.product == Some("x")
  {
    MalformedExampleGrammar(x);
    NameNewParses(x);
    MalformedExamplePieces(x[5..]);
    MalformedExampleName(DecodeEach(Split(x[5..])));
  }

  lemma MalformedExampleName(ts: seq<CString>)
    requires ts == ["a", [], "x"]
    ensures AssignValues(ts).part == PartApp
    ensures AssignValues(ts).vendor.None?
    ensures AssignValues(ts).product == Some("x")
  {
    var n := AssignValues(ts);
    assert GetField(n, 1).None? && GetField(n, 2) == Some("x");
  }

  lemma MalformedExampleGrammar(x: CString)
    requires x == "cpe:/a:%zz:x"
    ensures GrammarOk(x)
  {
    var t := x[5..];
    assert t == "a:%zz:x";
    assert Colons("x") == 0 && Colons(":x") == 1 && Colons("z:x") == 1 && Colons("zz:x") == 1;
    assert Colons("%zz:x") == 1 && Colons(":%zz:x") == 2;
    assert t[1..] == ":%zz:x";
    assert FieldsOk(t[1..]);
  }

  lemma MalformedExamplePieces(t: CString)
    requires t == "a:%zz:x"
    ensures DecodeEach(Split(t)) == ["a", [], "x"]
  {
    var ps: seq<CString> := ["a", "%zz", "x"];
    assert Join(ps) == "a" + (":" + "%zz" + (":" + "x" + []));
    assert t == Join(ps);
    assert forall i :: 0 <= i < |ps| ==> ':' !in ps[i];
    SplitJoin(ps);
    UrlDecodeMalformed([], "%zz");
    assert [] + "%zz" == "%zz";
  }

  /** Parsing "cpe:/" and a join of encoded pieces assigns the pieces themselves. */
  lemma ParseJoin(x: CString, ts: seq<CString>)
    requires 1 <= |ts| <= FieldCount
    requires x == UriPrefix + Join(EncodeEach(ts))
    requires GrammarOk(x)
    ensures NameNew(Some(x)) == Some(AssignValues(ts))
  {
    assert x[5..] == Join(EncodeEach(ts));
    DecodeEachEncoded(ts);
    NameNewParses(x);
  }

  /** Splitting a join of encoded pieces and decoding each gives the pieces. */
  lemma DecodeEachEncoded(ts: seq<CString>)
    requires |ts| > 0
    ensures DecodeEach(Split(Join(EncodeEach(ts)))) == ts
  {
    var es := EncodeEach(ts);
    forall i | 0 <= i < |es|
      ensures ':' !in es[i]
    {
      assert forall j :: 0 <= j < |es[i]| ==> InClass(es[i][j]);
    }
    SplitJoin(es);
    forall i | 0 <= i < |ts|
      ensures UrlDecode(es[i]).0 == ts[i]
    {
      DecodeEncode(ts[i]);
    }
  }

  /** Parsing the URI of a name gives the name back. */
  lemma UriRoundTrip(n: Name)
    requires Valid(n)
    ensures NameNew(Some(GetUri(n))) == Some(n)
  {
    var e := EncodedFields(n);
    var m := KeptFields(n);
    var ts := KeptTexts(n);
    assert e[..m] == EncodeEach(ts);
    UriShape(n);
    UriGrammar(n);
    ParseJoin(GetUri(n), ts);
    AssignKeptTexts(n);
  }

  /**
   The program's own round trip: parsing the URI cpe_name_get_uri writes gives
   back the name with every byte from 0x80 up replaced by 0xFF, so exactly the
   names of KeptBytes come back unchanged.
   */
  lemma UriRoundTripAsWritten(n: Name)
    requires Valid(n)
    ensures NameNew(Some(GetUriAsWritten(n))) == Some(SquashName(n))
    ensures NameNew(Some(GetUriAsWritten(n))) == Some(n) <==> KeptBytes(n)
  {
    GetUriAsWrittenSquashes(n);
    UriRoundTrip(SquashName(n));
    SquashNameKeeps(n);
  }

  /** As written, a vendor of "é" (0xE9) comes back from the URI as "ÿ" (0xFF). */
  lemma UriAsWrittenLosesHighBytes(n: Name, v: CString)
    requires Valid(n) && n.vendor == Some(v) && v == "é"
    ensures NameNew(Some(GetUriAsWritten(n))).Some?
    ensures NameNew(Some(GetUriAsWritten(n))).value.vendor == Some("ÿ") != n.vendor
  {
    UriRoundTripAsWritten(n);
    var r := SquashName(n);
    assert r.vendor == SquashField(Some(v)) by {
      assert GetField(r, 1) == SquashField(GetField(n, 1));
    }
    SquashAcute(v);
  }

  /** "é" squashes to "ÿ". */
  lemma SquashAcute(v: CString)
    requires v == "é"
    ensures Squash(v) == "ÿ"
  {
    assert |Squash(v)| == 1 && Squash(v)[0] == SquashByte(v[0]);
  }

  /** The texts of the fields GetUri keeps, an absent field as "". */
  function KeptTexts(n: Name): (ts: seq<CString>)
    ensures |ts| == KeptFields(n)
    ensures forall i :: 0 <= i < |ts| ==> ts[i] == AsStr(GetField(n, i))
  {
    seq(KeptFields(n), i requires 0 <= i < KeptFields(n) => AsStr(GetField(n, i)))
  }

  /** Assigning the kept texts rebuilds the name. */
  lemma AssignKeptTexts(n: Name)
    requires Valid(n)
    ensures AssignValues(KeptTexts(n)) == n
  {
    var r := AssignValues(KeptTexts(n));
    forall i | 0 <= i < FieldCount
      ensures GetField(r, i) == GetField(n, i)
    {
      if i == 0 {
        assert r.part == PartOf(Some(AsStr(PartText(n.part))));
      }
    }
    NameExtensional(r, n);
  }

  // ---------------------------------------------------------------------------
  // Matching
  // ---------------------------------------------------------------------------

  /**
   cpe_name_match_one: both names present, `against` has at least as many
   fields, and each field present in `c` equals, ignoring case, the same field
   of `against`, an absent one read as "".
   */
  predicate MatchOne(c: Option<Name>, against: Option<Name>) {
    c.Some? && against.Some? && FieldsNum(c.value) <= FieldsNum(against.value)
    && forall i :: 0 <= i < FieldsNum(c.value) && GetField(c.value, i).Some? ==>
         EqualIgnoringCase(GetField(c.value, i).value, AsStr(GetField(against.value, i)))
  }

  /** The matching rule stated field by field: every field `c` has, `a` has too, equal ignoring case. */
  predicate Fieldwise(c: Name, a: Name) {
    forall i :: 0 <= i < FieldCount && GetField(c, i).Some? ==>
      GetField(a, i).Some? && EqualIgnoringCase(GetField(c, i).value, GetField(a, i).value)
  }

  /** For names without empty fields, MatchOne is the field-by-field rule: an absent field of `c` is a wildcard. */
  lemma MatchOneFieldwise(c: Name, a: Name)
    requires Valid(c)
    ensures MatchOne(Some(c), Some(a)) <==> Fieldwise(c, a)
  {
    var k := FieldsNum(c);
    if MatchOne(Some(c), Some(a)) {
      forall i | 0 <= i < FieldCount && GetField(c, i).Some?
        ensures GetField(a, i).Some? && EqualIgnoringCase(GetField(c, i).value, GetField(a, i).value)
      {
        assert i < k;
        assert GetField(c, i) != Some([]);
      }
    }
    if Fieldwise(c, a) {
      if k > 0 {
        assert GetField(a, k - 1).Some?;
      }
    }
  }

  /** A name without empty fields matches itself. */
  lemma MatchOneReflexive(n: Name)
    requires Valid(n)
    ensures MatchOne(Some(n), Some(n))
  {
    MatchOneFieldwise(n, n);
  }

  /** Matching is transitive. */
  lemma MatchOneTransitive(a: Name, b: Name, c: Name)
    requires Valid(a) && Valid(b)
    requires MatchOne(Some(a), Some(b)) && MatchOne(Some(b), Some(c))
    ensures MatchOne(Some(a), Some(c))
  {
    MatchOneFieldwise(a, b);
    MatchOneFieldwise(b, c);
    MatchOneFieldwise(a, c);
    forall i | 0 <= i < FieldCount && GetField(a, i).Some?
      ensures GetField(c, i).Some? && EqualIgnoringCase(GetField(a, i).value, GetField(c, i).value)
    {
      var x, y, z := GetField(a, i).value, GetField(b, i).value, GetField(c, i).value;
      assert EqualIgnoringCase(x, y) && EqualIgnoringCase(y, z);
      assert forall j :: 0 <= j < |x| ==> ToLower(x[j]) == ToLower(y[j]) == ToLower(z[j]);
    }
  }

  /**
   Matching only goes from the general to the specific: a candidate with a
   field that the other name lacks does not match it.
   */
  lemma MatchOneAsymmetric(c: Name, a: Name, i: nat)
    requires Valid(a)
    requires i < FieldCount && GetField(a, i).Some? && GetField(c, i).None?
    ensures !MatchOne(Some(a), Some(c))
  {
    MatchOneFieldwise(a, c);
  }

  /** An example of both directions: "cpe:/a" matches "cpe:/a:vendor", not the other way round. */
  lemma MatchOneAsymmetricExample()
    ensures var general := Empty.(part := PartApp);
            var specific := general.(vendor := Some("vendor"));
            MatchOne(Some(general), Some(specific)) && !MatchOne(Some(specific), Some(general))
  {
    var general := Empty.(part := PartApp);
    var specific := general.(vendor := Some("vendor"));
    assert Fields(general) == [Some("a"), None, None, None, None, None, None];
    assert Fields(specific) == [Some("a"), Some("vendor"), None, None, None, None, None];
    assert GetField(general, 0).Some? && forall i :: 1 <= i < FieldCount ==> GetField(general, i).None?;
    assert FieldsNum(general) == 1;
    assert GetField(specific, 1).Some? && forall i :: 2 <= i < FieldCount ==> GetField(specific, i).None?;
    assert FieldsNum(specific) == 2;
    assert EqualIgnoringCase("a", "a");
  }

  /**
   The loop shared by cpe_name_match_cpes and cpe_name_match_strs: the index
   of the first name `c` matches, or -1.
   */
  method FirstMatch(c: Option<Name>, names: seq<Option<Name>>) returns (r: int)
    ensures -1 <= r < |names|
    ensures r >= 0 ==> MatchOne(c, names[r])
    ensures r >= 0 ==> forall j :: 0 <= j < r ==> !MatchOne(c, names[j])
    ensures r == -1 ==> forall j :: 0 <= j < |names| ==> !MatchOne(c, names[j])
  {
    var i := 0;
    while i < |names|
      invariant 0 <= i <= |names|
      invariant forall j :: 0 <= j < i ==> !MatchOne(c, names[j])
    {
      if MatchOne(c, names[i]) {
        return i;
      }
      i := i + 1;
    }
    return -1;
  }

  /** cpe_name_match_cpes: the name and the list are present and the name matches some entry. */
  method MatchCpes(name: Option<Name>, list: Option<seq<Option<Name>>>) returns (r: bool)
    ensures r <==> name.Some? && list.Some? && exists i :: 0 <= i < |list.value| && MatchOne(name, list.value[i])
  {
    if name.None? || list.None? {
      return false;
    }
    var first := FirstMatch(name, list.value);
    return first >= 0;
  }

  /** Each target parsed with cpe_name_new. */
  function ParseEach(targets: seq<Option<CString>>): (ns: seq<Option<Name>>)
    ensures |ns| == |targets|
    ensures forall i :: 0 <= i < |targets| ==> ns[i] == NameNew(targets[i])
  {
    seq(|targets|, i requires 0 <= i < |targets| => NameNew(targets[i]))
  }

  /**
   cpe_name_match_strs: -2 when the candidate does not parse; otherwise the
   index of the first target that parses to a name the candidate matches, or
   -1. A NULL target is the empty name; one that does not parse matches
   nothing. (The C loop parses each target as it reaches it; parsing has no
   effect, so parsing them all first gives the same answer.)
   */
  method MatchStrs(candidate: CString, targets: seq<Option<CString>>) returns (r: int)
    ensures r == -2 <==> NameNew(Some(candidate)).None?
    ensures -2 <= r < |targets|
    ensures r >= 0 ==> MatchOne(NameNew(Some(candidate)), NameNew(targets[r]))
    ensures r >= 0 ==> forall j :: 0 <= j < r ==> !MatchOne(NameNew(Some(candidate)), NameNew(targets[j]))
    ensures r == -1 ==> forall j :: 0 <= j < |targets| ==> !MatchOne(NameNew(Some(candidate)), NameNew(targets[j]))
  {
    var c := NameNew(Some(candidate));
    if c.None? {
      return -2;
    }
    var names := ParseEach(targets);
    r := FirstMatch(c, names);
  }
}

=== FILE: elements.dfy ===
/**
 Two small helpers of the common element code (elements.c): the lookup of a
 key in a NULL-terminated key/value string array, and the table of spellings
 that read as boolean true.
 */
module Elements {
  import opened Wrappers

  // ---------------------------------------------------------------------------
  // oscap_strlist_find_value
  // ---------------------------------------------------------------------------

  /**
   The reference lookup: the array is read as pairs (key, value) from the
   start; the first pair whose key is `key` gives its value. A last key with
   no value after it is not a pair.
   */
  function Lookup(kvalues: seq<string>, key: string): (r: Option<string>)
    decreases |kvalues|
  {
    if |kvalues| < 2 then None
    else if kvalues[0] == key then Some(kvalues[1])
    else Lookup(kvalues[2..], key)
  }

  /** `i` is the index of a key that has a value after it. */
  predicate IsPairKey(kvalues: seq<string>, i: int) {
    0 <= i && i + 1 < |kvalues| && i % 2 == 0
  }

  /** `i` is the first key position holding `key`. */
  predicate FirstKeyAt(kvalues: seq<string>, key: string, i: int) {
    IsPairKey(kvalues, i) && kvalues[i] == key
    && forall j :: 0 <= j < i && j % 2 == 0 ==> kvalues[j] != key
  }

  /** What Lookup finds, stated by positions: the value after the first matching key. */
  lemma {:induction false} LookupPositions(kvalues: seq<string>, key: string)
    ensures Lookup(kvalues, key).Some? <==> exists i :: IsPairKey(kvalues, i) && kvalues[i] == key
    ensures forall i :: FirstKeyAt(kvalues, key, i) ==> Lookup(kvalues, key) == Some(kvalues[i + 1])
    decreases |kvalues|
  {
    if |kvalues| >= 2 {
      var rest := kvalues[2..];
      if kvalues[0] == key {
        assert IsPairKey(kvalues, 0);
      } else {
        LookupPositions(rest, key);
        forall i | IsPairKey(rest, i)
          ensures IsPairKey(kvalues, i + 2) && kvalues[i + 2] == rest[i] && kvalues[i + 3] == rest[i + 1]
        {
        }
        forall i | IsPairKey(kvalues, i) && kvalues[i] == key
          ensures i >= 2 && IsPairKey(rest, i - 2) && rest[i - 2] == key
        {
        }
        forall i | FirstKeyAt(kvalues, key, i)
          ensures Lookup(kvalues, key) == Some(kvalues[i + 1])
        {
          forall j | 0 <= j < i - 2 && j % 2 == 0
            ensures rest[j] != key
          {
            assert IsPairKey(kvalues, j + 2);
          }
          assert FirstKeyAt(rest, key, i - 2);
        }
      }
    }
  }

  /**
   oscap_strlist_find_value: NULL for a NULL array or key; otherwise the value
   after the first key equal to `key`, scanning pairs until an element or the
   one after it is the terminating NULL.
   */
  method FindValue(kvalues: Option<seq<string>>, key: Option<string>) returns (r: Option<string>)
    ensures kvalues.None? || key.None? ==> r.None?
    ensures kvalues.Some? && key.Some? ==> r == Lookup(kvalues.value, key.value)
  {
    if kvalues.None? || key.None? {
      return None;
    }
    var kv, k := kvalues.value, key.value;
    var i := 0;
    while i < |kv| && i + 1 < |kv|
      invariant 0 <= i <= |kv| && i % 2 == 0
      invariant Lookup(kv[i..], k) == Lookup(kv, k)
    {
      if kv[i] == k {
        return Some(kv[i + 1]);
      }
      assert kv[i..][2..] == kv[i + 2..];
      i := i + 2;
    }
    return None;
  }

  /** A last key with no value after it is never matched. */
  lemma {:induction false} TrailingKeyIgnored(pairs: seq<string>, key: string)
    requires |pairs| % 2 == 0
    ensures Lookup(pairs + [key], key) == Lookup(pairs, key)
    decreases |pairs|
  {
    if |pairs| >= 2 {
      assert (pairs + [key])[2..] == pairs[2..] + [key];
      TrailingKeyIgnored(pairs[2..], key);
    }
  }

  /** A value is never mistaken for a key: when no key position holds the key, nothing is found, whatever the values hold. */
  lemma ValueNotMatchedAsKey(kvalues: seq<string>, key: string)
    ensures (forall i :: IsPairKey(kvalues, i) ==> kvalues[i] != key) ==> Lookup(kvalues, key).None?
  {
    LookupPositions(kvalues, key);
  }

  /** Only the key positions decide whether a key is found: arrays that agree on them find the same keys. */
  lemma {:induction false} OnlyKeysCompared(a: seq<string>, b: seq<string>, key: string)
    requires |a| == |b|
    requires forall i :: 0 <= i < |a| && i % 2 == 0 ==> a[i] == b[i]
    ensures Lookup(a, key).Some? <==> Lookup(b, key).Some?
    decreases |a|
  {
    if |a| >= 2 && a[0] != key {
      assert b[0] == a[0];
      forall i | 0 <= i < |a| - 2 && i % 2 == 0
        ensures a[2..][i] == b[2..][i]
      {
        assert a[i + 2] == b[i + 2];
      }
      OnlyKeysCompared(a[2..], b[2..], key);
    } else if |a| >= 2 {
      assert b[0] == a[0];
    }
  }

  // ---------------------------------------------------------------------------
  // OSCAP_BOOL_MAP
  // ---------------------------------------------------------------------------

  /** oscap_string_map: a value and its spelling. */
  datatype Entry = Entry(value: bool, text: string)

  /** OSCAP_BOOL_MAP: the spellings of true; the terminating entry's value, false, is the default. */
  const BoolMap: seq<Entry> := [
    Entry(true, "true"), Entry(true, "True"), Entry(true, "TRUE"),
    Entry(true, "yes"), Entry(true, "Yes"), Entry(true, "YES"),
    Entry(true, "1")
  ]

  /** The default the terminating {false, NULL} entry supplies. */
  const BoolDefault: bool := false

  /** The value of the first entry spelled `s` (an exact comparison), or the default. */
  function MapLookup(m: seq<Entry>, s: Option<string>, default: bool): (r: bool)
    ensures s.None? ==> r == default
    ensures s.Some? && (forall i :: 0 <= i < |m| ==> m[i].text != s.value) ==> r == default
    ensures forall i :: 0 <= i < |m| && s == Some(m[i].text) && (forall j :: 0 <= j < i ==> m[j].text != s.value) ==> r == m[i].value
    decreases |m|
  {
    if s.None? || |m| == 0 then default
    else if m[0].text == s.value then m[0].value
    else
      var r := MapLookup(m[1..], s, default);
      assert forall i :: 1 <= i < |m| ==> m[i] == m[1..][i - 1];
      r
  }

  /** A string reads as true exactly when it is one of the seven listed spellings. */
  lemma BoolMapSpellings(s: Option<string>)
    ensures MapLookup(BoolMap, s, BoolDefault)
            <==> s.Some? && s.value in {"true", "True", "TRUE", "yes", "Yes", "YES", "1"}
  {
    if s.Some? {
      var t := s.value;
      if t == "true" { assert BoolMap[0].text == t; }
      else if t == "True" { assert BoolMap[1].text == t; }
      else if t == "TRUE" { assert BoolMap[2].text == t; }
      else if t == "yes" { assert BoolMap[3].text == t; }
      else if t == "Yes" { assert BoolMap[4].text == t; }
      else if t == "YES" { assert BoolMap[5].text == t; }
      else if t == "1" { assert BoolMap[6].text == t; }
      else { assert forall i :: 0 <= i < |BoolMap| ==> BoolMap[i].text != t; }
    }
  }
}

=== FILE: ores.dfy ===
/**
 The six-counter tally (`struct oresults`) the result engine fills with the
 results of entities, states and items, and the two tables that turn a tally
 into one result: by check (CheckEnumeration) and by operator
 (OperatorEnumeration), as in the OVAL 5 common schema.
 */
module Ores {
  import opened OvalTypes

  /** struct oresults: how many of each result were seen. */
  datatype Counters = Counters(
    trueCnt: nat,
    falseCnt: nat,
    unknownCnt: nat,
    errorCnt: nat,
    notEvalCnt: nat,
    notApplCnt: nat)

  /** The counter that records result `r` (0 for an invalid result, which has none). */
  function Count(c: Counters, r: OvalResult): nat {
    match r
    case True => c.trueCnt
    case False => c.falseCnt
    case Unknown => c.unknownCnt
    case Error => c.errorCnt
    case NotEvaluated => c.notEvalCnt
    case NotApplicable => c.notApplCnt
    case ResultInvalid => 0
  }

  /** ores_clear: the empty tally. */
  function Clear(): (c: Counters)
    ensures forall r :: Count(c, r) == 0
  {
    Counters(0, 0, 0, 0, 0, 0)
  }

  /**
   ores_add_res: records one result. The code is 0 on success; an invalid
   result gives 1 and leaves the tally as it was.
   */
  function AddRes(c: Counters, r: OvalResult): (res: (int, Counters))
    ensures res.0 == 0 <==> IsValidResult(r)
    ensures res.0 != 0 ==> res.0 == 1 && res.1 == c
    ensures IsValidResult(r) ==> Count(res.1, r) == Count(c, r) + 1
    ensures forall q :: q != r ==> Count(res.1, q) == Count(c, q)
  {
    match r
    case True => (0, c.(trueCnt := c.trueCnt + 1))
    case False => (0, c.(falseCnt := c.falseCnt + 1))
    case Unknown => (0, c.(unknownCnt := c.unknownCnt + 1))
    case Error => (0, c.(errorCnt := c.errorCnt + 1))
    case NotEvaluated => (0, c.(notEvalCnt := c.notEvalCnt + 1))
    case NotApplicable => (0, c.(notApplCnt := c.notApplCnt + 1))
    case ResultInvalid => (1, c)
  }

  /** The tally after adding each result of `rs` in turn to an empty one. */
  function Tally(rs: seq<OvalResult>): (c: Counters)
    decreases |rs|
  {
    if |rs| == 0 then Clear() else AddRes(Tally(rs[..|rs| - 1]), rs[|rs| - 1]).1
  }

  /** Every counter of the tally of `rs` counts exactly the occurrences of its result in `rs`. */
  lemma {:induction false} TallyCounts(rs: seq<OvalResult>, r: OvalResult)
    requires IsValidResult(r)
    ensures Count(Tally(rs), r) == multiset(rs)[r]
    decreases |rs|
  {
    if |rs| > 0 {
      var init := rs[..|rs| - 1];
      TallyCounts(init, r);
      assert rs == init + [rs[|rs| - 1]];
    }
  }

  /** Nothing at all was recorded. */
  predicate NoResults(c: Counters) {
    c.trueCnt == 0 && c.falseCnt == 0 && c.errorCnt == 0
    && c.unknownCnt == 0 && c.notApplCnt == 0 && c.notEvalCnt == 0
  }

  /** Only NOT_APPLICABLE results were recorded, at least one. */
  predicate OnlyNotApplicable(c: Counters) {
    c.notApplCnt > 0 && c.notEvalCnt == 0 && c.falseCnt == 0
    && c.errorCnt == 0 && c.unknownCnt == 0 && c.trueCnt == 0
  }

  /** Some result other than NOT_APPLICABLE was recorded: the tables proper apply. */
  predicate Decisive(c: Counters) {
    c.trueCnt > 0 || c.falseCnt > 0 || c.errorCnt > 0 || c.unknownCnt > 0 || c.notEvalCnt > 0
  }

  /** No ERROR, UNKNOWN or NOT_EVALUATED result was recorded. */
  predicate Conclusive(c: Counters) {
    c.errorCnt == 0 && c.unknownCnt == 0 && c.notEvalCnt == 0
  }

  /**
   ores_get_result_byopr: the result of combining the tallied results with
   operator `op`. NOT_APPLICABLE results take no part once any other result is present.
   */
  function ResultByOperator(c: Counters, op: Operator): (r: OvalResult)
    ensures NoResults(c) ==> r == Unknown
    ensures OnlyNotApplicable(c) ==> r == NotApplicable
    ensures IsValidResult(r)
  {
    if NoResults(c) then Unknown
    else if OnlyNotApplicable(c) then NotApplicable
    else
      match op
      case OpAnd =>
        if c.trueCnt > 0 && c.falseCnt == 0 && Conclusive(c) then True
        else if c.falseCnt > 0 then False
        else if c.errorCnt > 0 then Error
        else if c.unknownCnt > 0 then Unknown
        else if c.notEvalCnt > 0 then NotEvaluated
        else Error
      case OpOne =>
        if c.trueCnt == 1 && Conclusive(c) then True
        else if c.trueCnt >= 2 then False
        else if c.trueCnt == 0 && Conclusive(c) then False
        else if c.errorCnt > 0 then Error
        else if c.unknownCnt >= 1 then Unknown
        else if c.notEvalCnt > 0 then NotEvaluated
        else Error
      case OpOr =>
        if c.trueCnt > 0 then True
        else if c.falseCnt > 0 && Conclusive(c) then False
        else if c.errorCnt > 0 then Error
        else if c.unknownCnt > 0 then Unknown
        else if c.notEvalCnt > 0 then NotEvaluated
        else Error
      case OpXor =>
        if c.trueCnt % 2 == 1 && Conclusive(c) then True
        else if c.trueCnt % 2 == 0 && Conclusive(c) then False
        else if c.errorCnt > 0 then Error
        else if c.unknownCnt > 0 then Unknown
        else if c.notEvalCnt > 0 then NotEvaluated
        else Error
      case OpUnknown => Error
  }

  /**
   ores_get_result_bychk as the OVAL check table has it: identical to the code
   except for the AT_LEAST_ONE rows for UNKNOWN and NOT_EVALUATED, which ask for
   no TRUE result where the code asks for no FALSE result
   (see `ResultByCheckAsWritten`).
   */
  function ResultByCheck(c: Counters, check: Check): (r: OvalResult)
    ensures NoResults(c) ==> r == Unknown
    ensures OnlyNotApplicable(c) ==> r == NotApplicable
    ensures IsValidResult(r)
  {
    if NoResults(c) then Unknown
    else if OnlyNotApplicable(c) then NotApplicable
    else
      match check
      case CheckAll =>
        if c.trueCnt > 0 && c.falseCnt == 0 && Conclusive(c) then True
        else if c.falseCnt > 0 then False
        else if c.errorCnt > 0 then Error
        else if c.unknownCnt > 0 then Unknown
        else if c.notEvalCnt > 0 then NotEvaluated
        else Error
      case CheckAtLeastOne =>
        if c.trueCnt > 0 then True
        else if c.falseCnt > 0 && Conclusive(c) then False
        else if c.errorCnt > 0 then Error
        else if c.unknownCnt > 0 then Unknown
        else if c.notEvalCnt > 0 then NotEvaluated
        else Error
      case CheckNoneExist => NoneSatisfy(c)
      case CheckNoneSatisfy => NoneSatisfy(c)
      case CheckOnlyOne =>
        if c.trueCnt == 1 && Conclusive(c) then True
        else if c.trueCnt > 1 then False
        else if c.errorCnt > 0 then Error
        else if c.unknownCnt > 0 then Unknown
        else if c.notEvalCnt > 0 then NotEvaluated
        else if c.trueCnt != 1 && c.falseCnt > 0 then False
        else Error
      case CheckUnknown => Error
  }

  /** The NONE_SATISFY rows (the deprecated NONE_EXIST check falls through to them). */
  function NoneSatisfy(c: Counters): OvalResult {
    if c.trueCnt > 0 then False
    else if c.errorCnt > 0 then Error
    else if c.unknownCnt > 0 then Unknown
    else if c.notEvalCnt > 0 then NotEvaluated
    else if c.falseCnt > 0 && Conclusive(c) then True
    else Error
  }

  /**
   ores_get_result_bychk exactly as written: in the AT_LEAST_ONE case the rows
   for UNKNOWN and NOT_EVALUATED test `false_cnt == 0`, so a tally with a FALSE
   and an UNKNOWN result and nothing else matches no row and keeps the initial ERROR.
   */
  function ResultByCheckAsWritten(c: Counters, check: Check): (r: OvalResult)
    ensures check != CheckAtLeastOne ==> r == ResultByCheck(c, check)
  {
    if check != CheckAtLeastOne then ResultByCheck(c, check)
    else if NoResults(c) then Unknown
    else if OnlyNotApplicable(c) then NotApplicable
    else if c.trueCnt > 0 then True
    else if c.falseCnt > 0 && c.trueCnt == 0 && Conclusive(c) then False
    else if c.trueCnt == 0 && c.errorCnt > 0 then Error
    else if c.falseCnt == 0 && c.errorCnt == 0 && c.unknownCnt > 0 then Unknown
    else if c.falseCnt == 0 && c.errorCnt == 0 && c.unknownCnt == 0 && c.notEvalCnt > 0 then NotEvaluated
    else Error
  }

  /** The tally with its TRUE and FALSE counters exchanged. */
  function SwapTrueFalse(c: Counters): (s: Counters)
    ensures Count(s, True) == Count(c, False) && Count(s, False) == Count(c, True)
    ensures forall r :: r != True && r != False ==> Count(s, r) == Count(c, r)
  {
    c.(trueCnt := c.falseCnt, falseCnt := c.trueCnt)
  }

  /** The edge cases both tables share: nothing recorded, only NOT_APPLICABLE, an unrecognised check or operator. */
  lemma SharedEdgeCases(c: Counters, check: Check, op: Operator)
    ensures NoResults(c) ==> ResultByCheck(c, check) == Unknown && ResultByOperator(c, op) == Unknown
    ensures OnlyNotApplicable(c) ==> ResultByCheck(c, check) == NotApplicable && ResultByOperator(c, op) == NotApplicable
    ensures Decisive(c) ==> ResultByCheck(c, CheckUnknown) == Error && ResultByOperator(c, OpUnknown) == Error
  {
  }

  /**
   Every table row of a known operator is reached: ERROR comes out only when
   an ERROR result was recorded (or the operator is not recognised).
   */
  lemma OperatorErrorNeedsError(c: Counters, op: Operator)
    requires op != OpUnknown
    ensures ResultByOperator(c, op) == Error <==> Decisive(c) && c.errorCnt > 0 && match op
      case OpAnd => c.falseCnt == 0
      case OpOne => c.trueCnt < 2 && !(c.trueCnt == 1 && Conclusive(c))
      case OpOr => c.trueCnt == 0
      case _ => true
  {
  }

  /**
   The same for the corrected check table, and for the table as written except
   under AT_LEAST_ONE, where AtLeastOneAsWrittenMissesUnknown gives ERROR without one.
   */
  lemma CheckErrorNeedsError(c: Counters, check: Check)
    requires check != CheckUnknown
    ensures ResultByCheck(c, check) == Error ==> c.errorCnt > 0
    ensures check != CheckAtLeastOne && ResultByCheckAsWritten(c, check) == Error ==> c.errorCnt > 0
  {
  }

  /** AND: any FALSE decides; TRUE needs a TRUE and nothing but TRUE (and NOT_APPLICABLE). */
  lemma AndTable(c: Counters)
    requires Decisive(c)
    ensures ResultByOperator(c, OpAnd) == False <==> c.falseCnt > 0
    ensures ResultByOperator(c, OpAnd) == True <==> c.trueCnt > 0 && c.falseCnt == 0 && Conclusive(c)
    ensures ResultByOperator(c, OpAnd) == Error <==> c.falseCnt == 0 && c.errorCnt > 0
    ensures ResultByOperator(c, OpAnd) == Unknown <==> c.falseCnt == 0 && c.errorCnt == 0 && c.unknownCnt > 0
    ensures ResultByOperator(c, OpAnd) == NotEvaluated
            <==> c.falseCnt == 0 && c.errorCnt == 0 && c.unknownCnt == 0 && c.notEvalCnt > 0
  {
  }

  /** XOR: TRUE iff the number of TRUE results is odd and nothing is in error, unknown or not evaluated. */
  lemma XorTable(c: Counters)
    requires Decisive(c)
    ensures ResultByOperator(c, OpXor) == True <==> c.trueCnt % 2 == 1 && Conclusive(c)
    ensures ResultByOperator(c, OpXor) == False <==> c.trueCnt % 2 == 0 && Conclusive(c)
    ensures ResultByOperator(c, OpXor) == Error <==> c.errorCnt > 0
  {
  }

  /** ONE: TRUE iff exactly one TRUE result and nothing in error, unknown or not evaluated. */
  lemma OneTable(c: Counters)
    requires Decisive(c)
    ensures ResultByOperator(c, OpOne) == True <==> c.trueCnt == 1 && Conclusive(c)
    ensures ResultByOperator(c, OpOne) == False <==> c.trueCnt >= 2 || (c.trueCnt == 0 && Conclusive(c))
  {
  }

  /** De Morgan: OR is AND with TRUE and FALSE exchanged on both sides. */
  lemma OrIsDualOfAnd(c: Counters)
    ensures ResultByOperator(c, OpOr) == Negate(ResultByOperator(SwapTrueFalse(c), OpAnd))
  {
  }

  /** The check ALL is the operator AND. */
  lemma AllIsAnd(c: Counters)
    ensures ResultByCheck(c, CheckAll) == ResultByOperator(c, OpAnd)
  {
  }

  /** The check AT_LEAST_ONE is the operator OR. */
  lemma AtLeastOneIsOr(c: Counters)
    ensures ResultByCheck(c, CheckAtLeastOne) == ResultByOperator(c, OpOr)
  {
  }

  /** The check ONLY_ONE is the operator ONE. */
  lemma OnlyOneIsOne(c: Counters)
    ensures ResultByCheck(c, CheckOnlyOne) == ResultByOperator(c, OpOne)
  {
  }

  /** NONE_SATISFY (and the deprecated NONE_EXIST) is the negation of OR. */
  lemma NoneSatisfyIsNotOr(c: Counters)
    ensures ResultByCheck(c, CheckNoneSatisfy) == Negate(ResultByOperator(c, OpOr))
    ensures ResultByCheck(c, CheckNoneExist) == ResultByCheck(c, CheckNoneSatisfy)
  {
  }

  /**
   The code's AT_LEAST_ONE table leaves the tally {FALSE: 1, UNKNOWN: 1} without
   a row: it answers ERROR where the OR operator, and the OVAL check table, answer UNKNOWN.
   */
  lemma AtLeastOneAsWrittenMissesUnknown()
    ensures var c := Counters(0, 1, 1, 0, 0, 0);
            ResultByCheckAsWritten(c, CheckAtLeastOne) == Error
            && ResultByCheck(c, CheckAtLeastOne) == Unknown
            && ResultByOperator(c, OpOr) == Unknown
  {
  }

  /** Adding a NOT_APPLICABLE result never changes a decided tally. */
  lemma NotApplicableIsIgnored(c: Counters, op: Operator, check: Check)
    requires Decisive(c)
    ensures var c' := AddRes(c, NotApplicable).1;
            ResultByOperator(c', op) == ResultByOperator(c, op)
            && ResultByCheck(c', check) == ResultByCheck(c, check)
  {
  }

  // ---------------------------------------------------------------------------
  // A reference reading: the operators as pairwise truth tables folded over the
  // individual results, the way the OVAL schema defines AND, OR and XOR.
  // ---------------------------------------------------------------------------

  /** The OVAL pairwise truth table of `op` for two results other than NOT_APPLICABLE. */
  function Combine(op: Operator, a: OvalResult, b: OvalResult): OvalResult
    requires op == OpAnd || op == OpOr || op == OpXor
  {
    match op
    case OpAnd =>
      if a == False || b == False then False
      else if a == Error || b == Error then Error
      else if a == Unknown || b == Unknown then Unknown
      else if a == NotEvaluated || b == NotEvaluated then NotEvaluated
      else True
    case OpOr =>
      if a == True || b == True then True
      else if a == Error || b == Error then Error
      else if a == Unknown || b == Unknown then Unknown
      else if a == NotEvaluated || b == NotEvaluated then NotEvaluated
      else False
    case OpXor =>
      if a == Error || b == Error then Error
      else if a == Unknown || b == Unknown then Unknown
      else if a == NotEvaluated || b == NotEvaluated then NotEvaluated
      else if (a == True) != (b == True) then True
      else False
  }

  /** The pairwise fold of `rs` skipping NOT_APPLICABLE; None while only NOT_APPLICABLE has been seen. */
  function Fold(op: Operator, rs: seq<OvalResult>): OptResult
    requires op == OpAnd || op == OpOr || op == OpXor
    decreases |rs|
  {
    if |rs| == 0 then NoneYet
    else
      var acc := Fold(op, rs[..|rs| - 1]);
      var x := rs[|rs| - 1];
      if x == NotApplicable then acc
      else match acc
        case NoneYet => Seen(x)
        case Seen(a) => Seen(Combine(op, a, x))
  }

  datatype OptResult = NoneYet | Seen(value: OvalResult)

  /** The result a list of results combines to under the pairwise reading. */
  function Reference(op: Operator, rs: seq<OvalResult>): OvalResult
    requires op == OpAnd || op == OpOr || op == OpXor
  {
    if |rs| == 0 then Unknown
    else match Fold(op, rs)
      case NoneYet => NotApplicable
      case Seen(v) => v
  }

  predicate AllValid(rs: seq<OvalResult>) {
    forall i :: 0 <= i < |rs| ==> IsValidResult(rs[i])
  }

  /** What the counter table says about a tally, in the shape of `Fold`. */
  function Summary(op: Operator, c: Counters): OptResult {
    if Decisive(c) then Seen(ResultByOperator(c, op)) else NoneYet
  }

  /** One step of the fold agrees with one more result in the tally. */
  lemma SummaryStep(op: Operator, c: Counters, x: OvalResult)
    requires op == OpAnd || op == OpOr || op == OpXor
    requires IsValidResult(x) && x != NotApplicable
    ensures Summary(op, AddRes(c, x).1)
            == match Summary(op, c)
               case NoneYet => Seen(x)
               case Seen(a) => Seen(Combine(op, a, x))
  {
    var c' := AddRes(c, x).1;
    assert Decisive(c');
    if Decisive(c) {
      match op
      case OpAnd => AndStep(c, x);
      case OpOr => OrStep(c, x);
      case OpXor => XorStep(c, x);
    }
  }

  lemma AndStep(c: Counters, x: OvalResult)
    requires Decisive(c) && IsValidResult(x) && x != NotApplicable
    ensures ResultByOperator(AddRes(c, x).1, OpAnd) == Combine(OpAnd, ResultByOperator(c, OpAnd), x)
  {
    AndTable(c);
    AndTable(AddRes(c, x).1);
  }

  lemma OrStep(c: Counters, x: OvalResult)
    requires Decisive(c) && IsValidResult(x) && x != NotApplicable
    ensures ResultByOperator(AddRes(c, x).1, OpOr) == Combine(OpOr, ResultByOperator(c, OpOr), x)
  {
    var c' := AddRes(c, x).1;
    OrIsDualOfAnd(c);
    OrIsDualOfAnd(c');
    AndTable(SwapTrueFalse(c));
    AndTable(SwapTrueFalse(c'));
  }

  lemma XorStep(c: Counters, x: OvalResult)
    requires Decisive(c) && IsValidResult(x) && x != NotApplicable
    ensures ResultByOperator(AddRes(c, x).1, OpXor) == Combine(OpXor, ResultByOperator(c, OpXor), x)
  {
    XorTable(c);
    XorTable(AddRes(c, x).1);
  }

  /**
   The counter tables for AND, OR and XOR agree with folding the OVAL pairwise
   truth tables over the results in the order they were added.
   */
  lemma {:induction false} TallyMatchesFold(op: Operator, rs: seq<OvalResult>)
    requires op == OpAnd || op == OpOr || op == OpXor
    requires AllValid(rs)
    ensures Summary(op, Tally(rs)) == Fold(op, rs)
    decreases |rs|
  {
    if |rs| > 0 {
      var init, x := rs[..|rs| - 1], rs[|rs| - 1];
      var c := Tally(init);
      assert AllValid(init);
      TallyMatchesFold(op, init);
      assert Tally(rs) == AddRes(c, x).1;
      if x != NotApplicable {
        SummaryStep(op, c, x);
      } else if Decisive(c) {
        NotApplicableIsIgnored(c, op, CheckAll);
      }
    }
  }

  /** ores_get_result_byopr over the tally of a list of results is the pairwise reference reading of that list. */
  lemma OperatorMatchesReference(op: Operator, rs: seq<OvalResult>)
    requires op == OpAnd || op == OpOr || op == OpXor
    requires AllValid(rs)
    ensures ResultByOperator(Tally(rs), op) == Reference(op, rs)
  {
    TallyMatchesFold(op, rs);
    if |rs| > 0 {
      TallyNonEmpty(rs);
    }
  }

  lemma {:induction false} TallyNonEmpty(rs: seq<OvalResult>)
    requires AllValid(rs) && |rs| > 0
    ensures !NoResults(Tally(rs))
    decreases |rs|
  {
    assert IsValidResult(rs[|rs| - 1]);
  }
}

=== FILE: oval_types.dfy ===
/**
 The OVAL enumerations the result engine works with (OVAL 5 common schema:
 ResultEnumeration, CheckEnumeration, OperatorEnumeration, ExistenceEnumeration,
 OperationEnumeration, SimpleDatatypeEnumeration and the collected-object flag
 and item status of the system-characteristics schema).

 Each C enum also admits values outside its named constants; the `...Unknown`
 (or `Invalid`) constructor stands for every such value.
 */
module OvalTypes {

  /** oval_result_t. `ResultInvalid` is any value that is not one of the six results. */
  datatype OvalResult =
    | True
    | False
    | Unknown
    | Error
    | NotEvaluated
    | NotApplicable
    | ResultInvalid

  /** oval_check_t: how many items (or entities, or variable values) must satisfy. */
  datatype Check =
    | CheckAll
    | CheckAtLeastOne
    | CheckNoneExist
    | CheckNoneSatisfy
    | CheckOnlyOne
    | CheckUnknown

  /** oval_operator_t: how the results of several states (or criteria) combine. */
  datatype Operator =
    | OpAnd
    | OpOne
    | OpOr
    | OpXor
    | OpUnknown

  /** oval_existence_t: how many collected items must exist. */
  datatype Existence =
    | AllExist
    | AnyExist
    | AtLeastOneExists
    | NoneExist
    | OnlyOneExists
    | ExistenceUnknown

  /** oval_operation_t: the comparison a state entity asks for. */
  datatype Operation =
    | Equals
    | NotEqual
    | CaseInsensitiveEquals
    | CaseInsensitiveNotEqual
    | GreaterThan
    | GreaterThanOrEqual
    | LessThan
    | LessThanOrEqual
    | BitwiseAnd
    | BitwiseOr
    | PatternMatch
    | SubsetOf
    | SupersetOf
    | OperationUnknown

  /** oval_datatype_t: the datatype of a state value. */
  datatype Datatype =
    | DtString
    | DtInteger
    | DtFloat
    | DtBoolean
    | DtBinary
    | DtEvrString
    | DtVersion
    | DtIpv4Addr
    | DtIpv6Addr
    | DtFilesetRevision
    | DtIosVersion
    | DtUnknown

  /** oval_syschar_collection_flag_t: what the collection of an object or a variable achieved. */
  datatype CollectionFlag =
    | FlagError
    | FlagComplete
    | FlagIncomplete
    | FlagDoesNotExist
    | FlagNotCollected
    | FlagNotApplicable
    | FlagUnknown

  /** oval_syschar_status_t: the status of one collected item or item entity. */
  datatype ItemStatus =
    | StatusError
    | StatusExists
    | StatusDoesNotExist
    | StatusNotCollected
    | StatusUnknown

  /** Swaps TRUE and FALSE and keeps every other result. */
  function Negate(r: OvalResult): (n: OvalResult)
    ensures (n == True <==> r == False) && (n == False <==> r == True)
    ensures r != True && r != False ==> n == r
  {
    match r
    case True => False
    case False => True
    case _ => r
  }

  /** The six results a tally can record. */
  predicate IsValidResult(r: OvalResult) {
    r != ResultInvalid
  }
}

=== FILE: result_definition.dfy ===
/**
 The result of one OVAL definition (oval_resultDefinition.c): a record holding
 the memoised result, the result criteria tree, the messages and the variable
 instance. Evaluating the criteria tree is outside this model: it is a
 parameter of `Eval`.
 */
module ResultDefinition {
  import opened Wrappers
  import opened OvalTypes
  import Comparator

  /** The kind of a result criteria node. */
  datatype NodeType = NodeCriteria | NodeCriterion | NodeExtendDefinition

  /** A result criteria node, identified by its kind and an id. */
  datatype Criteria = Criteria(nodeType: NodeType, id: string)

  datatype Message = Message(level: string, text: string)

  /**
   oval_result_definition: the definition's id and version, the memoised result,
   the criteria (possibly NULL), the messages and the variable instance.
   */
  datatype RDef = RDef(definitionId: string, version: int, result: OvalResult,
                       criteria: Option<Criteria>, messages: seq<Message>, instance: int)

  /**
   oval_result_definition_new: a fresh result for the definition with the given
   id, whose definition model entry currently has version `version`.
   */
  function New(definitionId: string, version: int): (d: RDef)
    ensures d.definitionId == definitionId && d.version == version
    ensures d.result == NotEvaluated && d.criteria.None? && d.messages == [] && d.instance == 1
  {
    RDef(definitionId, version, NotEvaluated, None, [], 1)
  }

  /**
   oval_result_definition_eval: the first evaluation stores ERROR when there are
   no criteria and the criteria's result otherwise; a stored result is returned
   as is. The pair is (returned result, definition afterwards).
   */
  function Eval(d: RDef, nodeEval: Criteria -> OvalResult): (out: (OvalResult, RDef))
    ensures out.1.result == out.0
    ensures out.1 == d.(result := out.0)
    ensures d.result != NotEvaluated ==> out.0 == d.result
    ensures d.result == NotEvaluated && d.criteria.None? ==> out.0 == Error
    ensures d.result == NotEvaluated && d.criteria.Some? ==> out.0 == nodeEval(d.criteria.value)
  {
    if d.result == NotEvaluated then
      var r := if d.criteria.None? then Error else nodeEval(d.criteria.value);
      (r, d.(result := r))
    else (d.result, d)
  }

  /** oval_result_definition_get_result. */
  function GetResult(d: RDef): OvalResult {
    d.result
  }

  /** Evaluating twice gives what evaluating once gave, unless the first evaluation itself stored NOT_EVALUATED. */
  lemma EvalIdempotent(d: RDef, nodeEval: Criteria -> OvalResult)
    requires Eval(d, nodeEval).0 != NotEvaluated
    ensures Eval(Eval(d, nodeEval).1, nodeEval) == Eval(d, nodeEval)
    ensures GetResult(Eval(d, nodeEval).1) == Eval(d, nodeEval).0
  {
  }

  /** A new definition without criteria evaluates to ERROR. */
  lemma NewWithoutCriteriaIsError(definitionId: string, version: int, nodeEval: Criteria -> OvalResult)
    ensures Eval(New(definitionId, version), nodeEval).0 == Error
  {
  }

  /** oval_result_definition_add_message: a NULL message is ignored, any other is appended. */
  function AddMessage(d: RDef, m: Option<Message>): (r: RDef)
    ensures m.None? ==> r == d
    ensures m.Some? ==> r == d.(messages := d.messages + [m.value])
  {
    if m.Some? then d.(messages := d.messages + [m.value]) else d
  }

  /** oval_result_definition_set_criteria: the new node replaces the old one. */
  function SetCriteria(d: RDef, c: Criteria): (r: RDef)
    ensures r.criteria == Some(c)
    ensures r == d.(criteria := Some(c))
  {
    d.(criteria := Some(c))
  }

  /** Appends messages one at a time, as the clone loop does. */
  function AddMessages(d: RDef, ms: seq<Message>): (r: RDef)
    ensures r == d.(messages := d.messages + ms)
    decreases |ms|
  {
    if |ms| == 0 then
      assert d.messages + ms == d.messages;
      d
    else
      assert d.messages + ms == (d.messages + [ms[0]]) + ms[1..];
      AddMessages(AddMessage(d, Some(ms[0])), ms[1..])
  }

  /**
   oval_result_definition_clone: a new result for the same definition id in the
   new system (whose definition entry has version `newVersion`), with the criteria
   and messages copied and the result and instance carried over.
   */
  function Clone(orig: RDef, newVersion: int): (d: RDef)
    ensures d.definitionId == orig.definitionId && d.version == newVersion
    ensures d.result == orig.result && d.instance == orig.instance
    ensures d.criteria == orig.criteria && d.messages == orig.messages
  {
    var created := New(orig.definitionId, newVersion);
    var withCriteria := if orig.criteria.Some? then SetCriteria(created, orig.criteria.value) else created;
    var withMessages := AddMessages(withCriteria, orig.messages);
    withMessages.(result := orig.result).(instance := orig.instance)
  }

  /** Cloning into a system whose definition has the same version gives back an equal record. */
  lemma CloneIsCopy(d: RDef)
    ensures Clone(d, d.version) == d
  {
  }

  /** What oval_result_definition_parse_tag decided, with whether it warned about the versions. */
  datatype Parsed = Parsed(def: RDef, versionMismatch: bool)

  /**
   The attribute decisions of oval_result_definition_parse_tag for the result
   definition `d` found or created for the definition id: the version attribute
   is read with atoi and always replaces the definition's version (a differing
   non-zero version only warns); a missing instance attribute means 1; a result
   attribute that does not resolve (None) becomes UNKNOWN.
   */
  function ParseTag(d: RDef, versionText: string, resultAttr: Option<OvalResult>, instanceAttr: Option<int>): (p: Parsed)
    ensures p.def.version == Comparator.AtoI(versionText)
    ensures p.def.instance == instanceAttr.GetOr(1)
    ensures p.def.result == (if resultAttr.Some? then resultAttr.value else Unknown)
    ensures p.def.definitionId == d.definitionId && p.def.criteria == d.criteria && p.def.messages == d.messages
    ensures p.versionMismatch <==> d.version != 0 && Comparator.AtoI(versionText) != d.version
  {
    var resvsn := Comparator.AtoI(versionText);
    var instance := instanceAttr.GetOr(1);
    var mismatch := d.version != 0 && resvsn != d.version;
    var r := if resultAttr.Some? then resultAttr.value else Unknown;
    Parsed(d.(version := resvsn, instance := instance, result := r), mismatch)
  }

  /** A parsed definition keeps its parsed result through evaluation, unless it was parsed as NOT_EVALUATED. */
  lemma ParsedResultIsKept(d: RDef, versionText: string, resultAttr: Option<OvalResult>, instanceAttr: Option<int>,
                           nodeEval: Criteria -> OvalResult)
    requires resultAttr != Some(NotEvaluated)
    ensures Eval(ParseTag(d, versionText, resultAttr, instanceAttr).def, nodeEval).0
            == (if resultAttr.Some? then resultAttr.value else Unknown)
  {
  }
}

=== FILE: result_test.dfy ===
/**
 The evaluation of one OVAL test against the items the system characteristics
 collected for its object (oval_resultTest.c): the comparison of an item with a
 state (eval_item), the state check over all items (eval_check_state), the
 existence check (eval_check_existence), the switch on the collected object's
 flag (_oval_result_test_evaluate_items), the de-duplication of result items by
 id (_oval_test_item_consumer) and the memoised evaluation of a result test
 (oval_result_test_eval).

 The syschar model is given as a map from object id to the collected object;
 the values of a variable are given already computed, together with whether
 the computation succeeded.
 */
module ResultTest {
  import opened Wrappers
  import opened OvalTypes
  import opened Ores
  import opened Comparator

  // ---------------------------------------------------------------------------
  // Data
  // ---------------------------------------------------------------------------

  /** A collected item entity (oval_sysent). */
  datatype SysEnt = SysEnt(name: string, value: string, status: ItemStatus)

  /** A collected item (oval_sysitem). */
  datatype SysItem = SysItem(id: string, status: ItemStatus, ents: seq<SysEnt>)

  /** An OVAL value; its text may be NULL. */
  datatype Value = Value(text: Option<string>, dt: Datatype)

  /**
   A variable after oval_syschar_model_compute_variable: `computed` is whether
   that call returned 0, `flag` its collection flag, `values` its values.
   */
  datatype Variable = Variable(computed: bool, flag: CollectionFlag, values: seq<Value>)

  /**
   A state entity. When `varRef` holds it refers to `variable`, otherwise it
   carries `value`. Every pointer field may be NULL.
   */
  datatype Entity = Entity(name: Option<string>, operation: Operation, varRef: bool,
                           variable: Option<Variable>, value: Option<Value>)

  /** One content of a state: an entity with its entity check and variable check. */
  datatype StateContent = StateContent(entity: Option<Entity>, entCheck: Check, varCheck: Check)

  datatype State = State(operator: Operator, contents: seq<StateContent>)

  /** A test: whether its subtype is known, its check, existence, state operator, states and object. */
  datatype Test = Test(subtypeKnown: bool, check: Check, existence: Existence,
                       stateOperator: Operator, states: seq<State>, objectId: string)

  /** A variable binding recorded with a collected object. */
  datatype Binding = Binding(variableId: string, values: seq<string>)

  /** A collected object (oval_syschar). */
  datatype Syschar = Syschar(flag: CollectionFlag, items: seq<SysItem>, bindings: seq<Binding>)

  /** An item of a result test with the result the state check gave it. */
  datatype ResultItem = ResultItem(item: SysItem, result: OvalResult)

  /** oval_result_test: the test, its memoised result, its items and bindings. */
  datatype RTest = RTest(test: Test, result: OvalResult, items: seq<ResultItem>,
                         bindings: seq<Binding>, bindingsInitialized: bool)

  /** A result together with the result items it leaves behind. */
  datatype Outcome = Outcome(result: OvalResult, items: seq<ResultItem>)

  // ---------------------------------------------------------------------------
  // eval_item
  // ---------------------------------------------------------------------------

  /** Index of the first value without text, or |values| when every value has text. */
  function FirstMissing(values: seq<Value>): (k: nat)
    ensures k <= |values|
    ensures forall i :: 0 <= i < k ==> values[i].text.Some?
    ensures k < |values| ==> values[k].text.None?
  {
    if |values| == 0 || values[0].text.None? then 0 else 1 + FirstMissing(values[1..])
  }

  /**
   The results of comparing a collected value with each value of a variable, in
   order; at the first value without text an ERROR is recorded and the loop stops.
   */
  function VariableResults(sysValue: string, values: seq<Value>, op: Operation, ext: Externals): (rs: seq<OvalResult>)
    ensures var k := FirstMissing(values);
            && |rs| == (if k < |values| then k + 1 else k)
            && (forall i :: 0 <= i < k ==> rs[i] == Evaluate(sysValue, values[i].text.value, values[i].dt, op, ext))
            && (k < |values| ==> rs[k] == Error)
  {
    if |values| == 0 then []
    else match values[0].text
      case None => [Error]
      case Some(t) => [Evaluate(sysValue, t, values[0].dt, op, ext)] + VariableResults(sysValue, values[1..], op, ext)
  }

  /**
   The result for one item entity whose name matches the state entity; None
   stands for the jump to `fail`. The state entity has passed the NULL checks:
   it has a variable when it is a variable reference, and a value with text
   otherwise.
   */
  function EntityValueResult(ent: SysEnt, e: Entity, varCheck: Check, ext: Externals): (r: Option<OvalResult>)
    requires e.varRef ==> e.variable.Some?
    requires !e.varRef ==> e.value.Some? && e.value.value.text.Some?
    ensures ent.status == StatusDoesNotExist ==> r == Some(False)
    ensures r.None? <==> ent.status != StatusDoesNotExist && e.varRef
                         && (!e.variable.value.computed || e.variable.value.flag == FlagUnknown)
  {
    if ent.status == StatusDoesNotExist then Some(False)
    else if e.varRef then
      var v := e.variable.value;
      if !v.computed then None
      else match v.flag
        case FlagComplete | FlagIncomplete =>
          Some(ResultByCheck(Tally(VariableResults(ent.value, v.values, e.operation, ext)), varCheck))
        case FlagError | FlagDoesNotExist | FlagNotCollected | FlagNotApplicable => Some(Error)
        case FlagUnknown => None
    else Some(Evaluate(ent.value, e.value.value.text.value, e.value.value.dt, e.operation, ext))
  }

  /**
   The values of a list of results, or None as soon as one is None: the loops
   over entities and contents, which jump to `fail` on the first failure.
   */
  function AllSome<T>(xs: seq<Option<T>>): (r: Option<seq<T>>)
    ensures r.None? <==> exists i :: 0 <= i < |xs| && xs[i].None?
    ensures r.Some? ==> |r.value| == |xs| && forall i :: 0 <= i < |xs| ==> Some(r.value[i]) == xs[i]
  {
    if |xs| == 0 then Some([])
    else
      match xs[0]
      case None => None
      case Some(x) =>
        match AllSome(xs[1..])
        case None =>
          ghost var i :| 0 <= i < |xs| - 1 && xs[1..][i].None?;
          assert xs[i + 1].None?;
          None
        case Some(ys) => Some([x] + ys)
  }

  /** The item entities named `name`, in order. */
  function Named(ents: seq<SysEnt>, name: string): (m: seq<SysEnt>)
    ensures |m| <= |ents|
    ensures forall x :: x in m <==> x in ents && x.name == name
  {
    if |ents| == 0 then []
    else if ents[0].name == name then [ents[0]] + Named(ents[1..], name)
    else Named(ents[1..], name)
  }

  /** The results for a list of matching item entities, or None when one of them fails. */
  function EntityResults(ents: seq<SysEnt>, e: Entity, varCheck: Check, ext: Externals): (r: Option<seq<OvalResult>>)
    requires e.varRef ==> e.variable.Some?
    requires !e.varRef ==> e.value.Some? && e.value.value.text.Some?
    ensures r.None? <==> exists i :: 0 <= i < |ents| && EntityValueResult(ents[i], e, varCheck, ext).None?
    ensures r.Some? ==> |r.value| == |ents|
                        && forall i :: 0 <= i < |ents| ==> Some(r.value[i]) == EntityValueResult(ents[i], e, varCheck, ext)
  {
    var xs := seq(|ents|, i requires 0 <= i < |ents| => EntityValueResult(ents[i], e, varCheck, ext));
    var r := AllSome(xs);
    assert r.None? <==> exists i :: 0 <= i < |ents| && EntityValueResult(ents[i], e, varCheck, ext).None? by {
      if r.None? {
        var i :| 0 <= i < |xs| && xs[i].None?;
        assert EntityValueResult(ents[i], e, varCheck, ext).None?;
      } else {
        forall i | 0 <= i < |ents|
          ensures EntityValueResult(ents[i], e, varCheck, ext).Some?
        {
          assert xs[i] == Some(r.value[i]);
        }
      }
    }
    r
  }

  /** The NULL checks eval_item makes on a state content before looking at the item. */
  predicate WellFormed(c: StateContent) {
    && c.entity.Some?
    && c.entity.value.name.Some?
    && (c.entity.value.varRef ==> c.entity.value.variable.Some?)
    && (!c.entity.value.varRef ==> c.entity.value.value.Some? && c.entity.value.value.value.text.Some?)
  }

  /**
   The result of one state content for an item: the entity check over the
   results of the item entities of the same name. None stands for `fail`.
   */
  function ContentResult(item: SysItem, c: StateContent, ext: Externals): (r: Option<OvalResult>)
    ensures !WellFormed(c) ==> r.None?
    ensures WellFormed(c) ==>
              r == match EntityResults(Named(item.ents, c.entity.value.name.value), c.entity.value, c.varCheck, ext)
                   case None => None
                   case Some(rs) => Some(ResultByCheck(Tally(rs), c.entCheck))
  {
    if !WellFormed(c) then None
    else
      var e := c.entity.value;
      match EntityResults(Named(item.ents, e.name.value), e, c.varCheck, ext)
      case None => None
      case Some(rs) => Some(ResultByCheck(Tally(rs), c.entCheck))
  }

  /** The results of all contents of a state for an item, or None when one of them fails. */
  function ContentResults(item: SysItem, cs: seq<StateContent>, ext: Externals): (r: Option<seq<OvalResult>>)
    ensures r.None? <==> exists i :: 0 <= i < |cs| && ContentResult(item, cs[i], ext).None?
    ensures r.Some? ==> |r.value| == |cs|
                        && forall i :: 0 <= i < |cs| ==> Some(r.value[i]) == ContentResult(item, cs[i], ext)
  {
    var xs := seq(|cs|, i requires 0 <= i < |cs| => ContentResult(item, cs[i], ext));
    var r := AllSome(xs);
    assert r.None? <==> exists i :: 0 <= i < |cs| && ContentResult(item, cs[i], ext).None? by {
      if r.None? {
        var i :| 0 <= i < |xs| && xs[i].None?;
        assert ContentResult(item, cs[i], ext).None?;
      } else {
        forall i | 0 <= i < |cs|
          ensures ContentResult(item, cs[i], ext).Some?
        {
          assert xs[i] == Some(r.value[i]);
        }
      }
    }
    r
  }

  /** eval_item: the state's operator over the results of its contents; ERROR when a content fails. */
  function EvalItem(item: SysItem, state: State, ext: Externals): (r: OvalResult)
    ensures (exists i :: 0 <= i < |state.contents| && !WellFormed(state.contents[i])) ==> r == Error
    ensures |state.contents| == 0 ==> r == Unknown
  {
    match ContentResults(item, state.contents, ext)
    case None => Error
    case Some(rs) => ResultByOperator(Tally(rs), state.operator)
  }

  // ---------------------------------------------------------------------------
  // eval_check_state
  // ---------------------------------------------------------------------------

  /** The results of one item against each state of the test. */
  function StateResults(item: SysItem, states: seq<State>, ext: Externals): (rs: seq<OvalResult>)
    ensures |rs| == |states|
    ensures forall i :: 0 <= i < |states| ==> rs[i] == EvalItem(item, states[i], ext)
  {
    seq(|states|, i requires 0 <= i < |states| => EvalItem(item, states[i], ext))
  }

  /**
   The result one item gets in the state check: ERROR for an item in error or
   not collected, FALSE for an item that does not exist, otherwise the test's
   state operator over the item's results against every state.
   */
  function ItemResult(test: Test, item: SysItem, ext: Externals): (r: OvalResult)
    ensures item.status == StatusError || item.status == StatusNotCollected ==> r == Error
    ensures item.status == StatusDoesNotExist ==> r == False
    ensures item.status == StatusExists && |test.states| == 0 ==> r == Unknown
  {
    match item.status
    case StatusError | StatusNotCollected => Error
    case StatusDoesNotExist => False
    case _ => ResultByOperator(Tally(StateResults(item, test.states, ext)), test.stateOperator)
  }

  /**
   eval_check_state: every result item gets its ItemResult, and the test's check
   combines them.
   */
  function EvalCheckState(test: Test, items: seq<ResultItem>, ext: Externals): (o: Outcome)
    ensures |o.items| == |items|
    ensures forall i :: 0 <= i < |items| ==>
              o.items[i].item == items[i].item && o.items[i].result == ItemResult(test, items[i].item, ext)
    ensures o.result == ResultByCheck(Tally(seq(|items|, i requires 0 <= i < |items| => o.items[i].result)), test.check)
  {
    var scored := seq(|items|, i requires 0 <= i < |items| => ResultItem(items[i].item, ItemResult(test, items[i].item, ext)));
    assert seq(|items|, i requires 0 <= i < |items| => scored[i].result)
           == seq(|items|, i requires 0 <= i < |items| => ItemResult(test, items[i].item, ext));
    Outcome(ResultByCheck(Tally(seq(|items|, i requires 0 <= i < |items| => ItemResult(test, items[i].item, ext))), test.check),
            scored)
  }

  // ---------------------------------------------------------------------------
  // eval_check_existence
  // ---------------------------------------------------------------------------

  /**
   eval_check_existence, on the number of existing items and of items in error:
   always TRUE, FALSE or ERROR, and ERROR without items in error only for an
   unknown enumeration value.
   */
  function ExistenceCheck(existence: Existence, existsCnt: nat, errorCnt: nat): (r: OvalResult)
    ensures r == True || r == False || r == Error
    ensures errorCnt == 0 && existence != ExistenceUnknown ==> r != Error
  {
    match existence
    case AllExist =>
      if existsCnt >= 1 && errorCnt == 0 then True
      else if existsCnt == 0 && errorCnt == 0 then False
      else if errorCnt >= 1 then Error
      else Error
    case AnyExist =>
      if errorCnt == 0 then True
      else if existsCnt >= 1 && errorCnt >= 1 then True
      else if existsCnt == 0 && errorCnt >= 1 then Error
      else Error
    case AtLeastOneExists =>
      if existsCnt >= 1 then True
      else if existsCnt == 0 && errorCnt == 0 then False
      else if existsCnt == 0 && errorCnt >= 1 then Error
      else Error
    case NoneExist =>
      if existsCnt == 0 && errorCnt == 0 then True
      else if existsCnt >= 1 && errorCnt == 0 then False
      else if existsCnt == 0 && errorCnt >= 1 then Error
      else Error
    case OnlyOneExists =>
      if existsCnt == 1 && errorCnt == 0 then True
      else if existsCnt >= 2 then False
      else if existsCnt == 0 && errorCnt == 0 then False
      else if existsCnt == 0 && errorCnt >= 1 then Error
      else if existsCnt == 1 && errorCnt >= 1 then Error
      else Error
    case ExistenceUnknown => Error
  }

  /**
   The existence table read row by row: what each existence check says, in terms
   of how many items exist and how many are in error.
   */
  lemma ExistenceTable(e: Existence, x: nat, err: nat)
    ensures ExistenceCheck(e, x, err) in {True, False, Error}
    ensures e == AllExist ==>
              (ExistenceCheck(e, x, err) == True <==> x >= 1 && err == 0)
              && (ExistenceCheck(e, x, err) == False <==> x == 0 && err == 0)
    ensures e == AnyExist ==> (ExistenceCheck(e, x, err) == True <==> err == 0 || x >= 1)
    ensures e == AtLeastOneExists ==>
              (ExistenceCheck(e, x, err) == True <==> x >= 1)
              && (ExistenceCheck(e, x, err) == False <==> x == 0 && err == 0)
    ensures e == NoneExist ==>
              (ExistenceCheck(e, x, err) == True <==> x == 0 && err == 0)
              && (ExistenceCheck(e, x, err) == False <==> x >= 1 && err == 0)
    ensures e == OnlyOneExists ==>
              (ExistenceCheck(e, x, err) == True <==> x == 1 && err == 0)
              && (ExistenceCheck(e, x, err) == False <==> x >= 2 || (x == 0 && err == 0))
    ensures e == ExistenceUnknown ==> ExistenceCheck(e, x, err) == Error
  {
  }

  /**
   Without items in error the table is the plain reading of the OVAL
   ExistenceEnumeration: all_exist and at_least_one_exists ask for at least one
   item, any_exist for nothing, none_exist for no item, only_one_exists for
   exactly one.
   */
  lemma ExistenceWithoutErrors(e: Existence, x: nat)
    requires e != ExistenceUnknown
    ensures ExistenceCheck(e, x, 0) == FromBool(match e
                                                case AllExist => x >= 1
                                                case AtLeastOneExists => x >= 1
                                                case AnyExist => true
                                                case NoneExist => x == 0
                                                case OnlyOneExists => x == 1)
  {
  }

  /** An item in error turns every existence check but any_exist and at_least_one_exists to ERROR unless it already fails. */
  lemma ExistenceWithErrors(e: Existence, x: nat, err: nat)
    requires err >= 1
    ensures e == AllExist || e == NoneExist ==> ExistenceCheck(e, x, err) == Error
    ensures e == AnyExist || e == AtLeastOneExists ==> (ExistenceCheck(e, x, err) == Error <==> x == 0)
    ensures e == OnlyOneExists ==> (ExistenceCheck(e, x, err) == Error <==> x <= 1)
  {
  }

  // ---------------------------------------------------------------------------
  // _oval_test_item_consumer
  // ---------------------------------------------------------------------------

  /** The first item of `items` with the given id. */
  function FirstWithId(items: seq<SysItem>, id: string): Option<SysItem> {
    if |items| == 0 then None
    else if items[0].id == id then Some(items[0])
    else FirstWithId(items[1..], id)
  }

  function IdSet(items: seq<SysItem>): set<string> {
    set x | x in items :: x.id
  }

  predicate DistinctIds(items: seq<SysItem>) {
    forall i, j :: 0 <= i < j < |items| ==> items[i].id != items[j].id
  }

  /**
   The items the consumer keeps when the id map already holds `seen`: each id
   once, the first item carrying it, in order of first appearance.
   */
  function DedupeFrom(items: seq<SysItem>, seen: set<string>): (r: seq<SysItem>)
    ensures forall x :: x in r ==> x in items && x.id !in seen
  {
    if |items| == 0 then []
    else if items[0].id in seen then DedupeFrom(items[1..], seen)
    else [items[0]] + DedupeFrom(items[1..], seen + {items[0].id})
  }

  lemma {:induction false} DedupeFromDistinct(items: seq<SysItem>, seen: set<string>)
    ensures DistinctIds(DedupeFrom(items, seen))
  {
    if |items| > 0 {
      DedupeFromDistinct(items[1..], seen + {items[0].id});
      DedupeFromDistinct(items[1..], seen);
    }
  }

  lemma {:induction false} DedupeFromFirst(items: seq<SysItem>, seen: set<string>)
    ensures forall x :: x in DedupeFrom(items, seen) ==> FirstWithId(items, x.id) == Some(x)
  {
    if |items| > 0 {
      var x, rest := items[0], items[1..];
      if x.id in seen {
        DedupeFromFirst(rest, seen);
      } else {
        DedupeFromFirst(rest, seen + {x.id});
      }
    }
  }

  lemma {:induction false} DedupeFromIds(items: seq<SysItem>, seen: set<string>)
    ensures IdSet(DedupeFrom(items, seen)) == IdSet(items) - seen
  {
    if |items| > 0 {
      var x, rest := items[0], items[1..];
      assert IdSet(items) == {x.id} + IdSet(rest) by {
        assert forall y :: y in items <==> y == x || y in rest;
      }
      if x.id in seen {
        DedupeFromIds(rest, seen);
      } else {
        var tail := DedupeFrom(rest, seen + {x.id});
        DedupeFromIds(rest, seen + {x.id});
        assert IdSet([x] + tail) == {x.id} + IdSet(tail) by {
          assert forall y :: y in [x] + tail <==> y == x || y in tail;
        }
      }
    }
  }

  /** The items fed to _oval_test_item_consumer, de-duplicated by id with a fresh map. */
  function Dedupe(items: seq<SysItem>): (r: seq<SysItem>)
    ensures DistinctIds(r) && IdSet(r) == IdSet(items)
    ensures forall x :: x in r ==> FirstWithId(items, x.id) == Some(x)
  {
    DedupeFromDistinct(items, {});
    DedupeFromFirst(items, {});
    DedupeFromIds(items, {});
    DedupeFrom(items, {})
  }

  /** Dropping the repeats changes nothing in a list whose ids are already distinct. */
  lemma {:induction false} DedupeDistinct(items: seq<SysItem>, seen: set<string>)
    requires DistinctIds(items)
    requires forall x :: x in items ==> x.id !in seen
    ensures DedupeFrom(items, seen) == items
  {
    if |items| > 0 {
      var x := items[0];
      assert x.id !in seen by { assert x in items; }
      DistinctTail(items, seen);
      DedupeDistinct(items[1..], seen + {x.id});
      assert [x] + items[1..] == items;
    }
  }

  /** After the first item of a list with distinct ids, the rest is distinct and avoids its id too. */
  lemma DistinctTail(items: seq<SysItem>, seen: set<string>)
    requires |items| > 0 && DistinctIds(items)
    requires forall x :: x in items ==> x.id !in seen
    ensures DistinctIds(items[1..])
    ensures forall y :: y in items[1..] ==> y.id !in seen + {items[0].id}
  {
    forall y | y in items[1..]
      ensures y.id !in seen + {items[0].id}
    {
      var j :| 0 <= j < |items[1..]| && items[1..][j] == y;
      assert items[j + 1] == y;
    }
  }

  // ---------------------------------------------------------------------------
  // _oval_result_test_evaluate_items
  // ---------------------------------------------------------------------------

  /** The statuses of the collected items, in order. */
  function StatusList(items: seq<SysItem>): (ss: seq<ItemStatus>)
    ensures |ss| == |items|
    ensures forall i :: 0 <= i < |items| ==> ss[i] == items[i].status
  {
    if |items| == 0 then [] else [items[0].status] + StatusList(items[1..])
  }

  /** The number of collected items with the given status, repeats included. */
  function CountStatus(items: seq<SysItem>, s: ItemStatus): (n: nat)
    ensures n <= |items|
  {
    if |items| == 0 then 0
    else (if items[0].status == s then 1 else 0) + CountStatus(items[1..], s)
  }

  /** CountStatus counts: it is the multiplicity of the status among the items' statuses. */
  lemma {:induction false} CountStatusCounts(items: seq<SysItem>, s: ItemStatus)
    ensures CountStatus(items, s) == multiset(StatusList(items))[s]
  {
    if |items| > 0 {
      CountStatusCounts(items[1..], s);
    }
  }

  /** The existence decision for an INCOMPLETE collection; it never says ERROR. */
  function IncompleteExistence(e: Existence, existsCnt: nat): (r: OvalResult)
    ensures r in {True, False, Unknown}
    ensures r == True <==> e == AnyExist || (e == AtLeastOneExists && existsCnt > 0)
    ensures r == False <==> (e == NoneExist && existsCnt > 0) || (e == OnlyOneExists && existsCnt > 1)
  {
    if e == AnyExist then True
    else if e == AtLeastOneExists && existsCnt > 0 then True
    else if e == NoneExist && existsCnt > 0 then False
    else if e == OnlyOneExists && existsCnt > 1 then False
    else Unknown
  }

  /**
   What an INCOMPLETE collection makes of the state check's result: TRUE stands
   only under the check at_least_one, FALSE stands, everything else is UNKNOWN.
   */
  function IncompleteState(s: OvalResult, check: Check): (r: OvalResult)
    ensures r in {True, False, Unknown}
    ensures r == True <==> s == True && check == CheckAtLeastOne
    ensures r == False <==> s == False
  {
    if s == True then (if check != CheckAtLeastOne then Unknown else True)
    else if s != False then Unknown
    else False
  }

  /** Fresh result items, NOT_EVALUATED, for the de-duplicated collected items. */
  function NewResultItems(items: seq<SysItem>): (r: seq<ResultItem>)
    ensures |r| == |items|
    ensures forall i :: 0 <= i < |items| ==> r[i] == ResultItem(items[i], NotEvaluated)
  {
    seq(|items|, i requires 0 <= i < |items| => ResultItem(items[i], NotEvaluated))
  }

  /** The result a flag other than COMPLETE and INCOMPLETE gives without looking at any state. */
  function FlagResult(flag: CollectionFlag, e: Existence, hasState: bool): (r: OvalResult)
    requires flag != FlagComplete && flag != FlagIncomplete
    ensures flag != FlagDoesNotExist && flag != FlagUnknown && e == AnyExist && !hasState ==> r == True
    ensures flag == FlagDoesNotExist ==> (r == True <==> e == NoneExist || e == AnyExist) && r in {True, False}
  {
    match flag
    case FlagError => if e == AnyExist && !hasState then True else Error
    case FlagNotCollected => if e == AnyExist && !hasState then True else Unknown
    case FlagNotApplicable => if e == AnyExist && !hasState then True else NotApplicable
    case FlagDoesNotExist => if e == NoneExist || e == AnyExist then True else False
    case FlagUnknown => Error
  }

  /**
   _oval_result_test_evaluate_items: count the existing and erroneous items,
   add the de-duplicated collected items to the test's items, then decide on the
   collected object's flag.
   */
  function EvaluateItems(test: Test, sc: Syschar, prior: seq<ResultItem>, ext: Externals): (o: Outcome)
    ensures |o.items| == |prior| + |Dedupe(sc.items)|
    ensures forall i :: 0 <= i < |prior| ==> o.items[i].item == prior[i].item
    ensures forall i :: 0 <= i < |Dedupe(sc.items)| ==> o.items[|prior| + i].item == Dedupe(sc.items)[i]
  {
    var existsCnt := CountStatus(sc.items, StatusExists);
    var errorCnt := CountStatus(sc.items, StatusError);
    var items := prior + NewResultItems(Dedupe(sc.items));
    var hasState := |test.states| > 0;
    match sc.flag
    case FlagComplete =>
      var r := ExistenceCheck(test.existence, existsCnt, errorCnt);
      if r == True && hasState then EvalCheckState(test, items, ext) else Outcome(r, items)
    case FlagIncomplete =>
      var r := IncompleteExistence(test.existence, existsCnt);
      if r == True && hasState then
        var s := EvalCheckState(test, items, ext);
        Outcome(IncompleteState(s.result, test.check), s.items)
      else Outcome(r, items)
    case _ => Outcome(FlagResult(sc.flag, test.existence, hasState), items)
  }

  // ---------------------------------------------------------------------------
  // _oval_result_test_result and oval_result_test_eval
  // ---------------------------------------------------------------------------

  /**
   _oval_result_test_result: a stored result is returned as is; a test whose
   object has no collected object is UNKNOWN; otherwise the items are evaluated.
   */
  function TestResult(rt: RTest, syschars: map<string, Syschar>, ext: Externals): (o: Outcome)
    ensures rt.result != NotEvaluated ==> o == Outcome(rt.result, rt.items)
    ensures rt.result == NotEvaluated && rt.test.objectId !in syschars ==> o == Outcome(Unknown, rt.items)
  {
    if rt.result != NotEvaluated then Outcome(rt.result, rt.items)
    else if rt.test.objectId !in syschars then Outcome(Unknown, rt.items)
    else EvaluateItems(rt.test, syschars[rt.test.objectId], rt.items, ext)
  }

  /**
   _oval_result_test_initialize_bindings: the bindings of the test's collected
   object, if there is one, are appended, and the bindings count as initialised.
   */
  function InitializeBindings(rt: RTest, syschars: map<string, Syschar>): (r: RTest)
    ensures r.bindingsInitialized
    ensures r.test == rt.test && r.result == rt.result && r.items == rt.items
    ensures r.bindings == rt.bindings + (if rt.test.objectId in syschars then syschars[rt.test.objectId].bindings else [])
  {
    var extra := if rt.test.objectId in syschars then syschars[rt.test.objectId].bindings else [];
    rt.(bindings := rt.bindings + extra, bindingsInitialized := true)
  }

  /**
   oval_result_test_eval: a test not yet evaluated is evaluated once (UNKNOWN
   when its subtype is unknown) and the result is stored; the returned record's
   `result` is what the function returns.
   */
  function TestEval(rt: RTest, syschars: map<string, Syschar>, ext: Externals): (r: RTest)
    ensures r.test == rt.test
    ensures rt.result != NotEvaluated ==> r == rt
    ensures rt.result == NotEvaluated && !rt.test.subtypeKnown ==> r == rt.(result := Unknown)
    ensures rt.result == NotEvaluated && rt.test.subtypeKnown ==> r.bindingsInitialized
  {
    if rt.result != NotEvaluated then rt
    else if !rt.test.subtypeKnown then rt.(result := Unknown)
    else
      var o := TestResult(rt, syschars, ext);
      var evaluated := rt.(result := o.result, items := o.items);
      if !evaluated.bindingsInitialized then InitializeBindings(evaluated, syschars) else evaluated
  }

  // ---------------------------------------------------------------------------
  // Properties
  // ---------------------------------------------------------------------------

  /** Once the stored result is not NOT_EVALUATED, evaluating again changes nothing. */
  lemma TestEvalIdempotent(rt: RTest, syschars: map<string, Syschar>, ext: Externals)
    requires TestEval(rt, syschars, ext).result != NotEvaluated
    ensures TestEval(TestEval(rt, syschars, ext), syschars, ext) == TestEval(rt, syschars, ext)
  {
  }

  /** A test whose object was not collected is UNKNOWN and keeps its items. */
  lemma NoCollectedObject(rt: RTest, syschars: map<string, Syschar>, ext: Externals)
    requires rt.result == NotEvaluated && rt.test.objectId !in syschars
    ensures TestEval(rt, syschars, ext).result == Unknown
    ensures TestEval(rt, syschars, ext).items == rt.items
  {
  }

  /** DOES_NOT_EXIST: TRUE exactly for the existence checks none_exist and any_exist, FALSE otherwise. */
  lemma DoesNotExistFlag(test: Test, sc: Syschar, prior: seq<ResultItem>, ext: Externals)
    requires sc.flag == FlagDoesNotExist
    ensures EvaluateItems(test, sc, prior, ext).result == True
            <==> test.existence == NoneExist || test.existence == AnyExist
    ensures EvaluateItems(test, sc, prior, ext).result in {True, False}
  {
  }

  /**
   INCOMPLETE: the test is never TRUE unless the state check passed under the
   check at_least_one (or the existence check alone decided, without states),
   and it is never ERROR.
   */
  lemma IncompleteFlag(test: Test, sc: Syschar, prior: seq<ResultItem>, ext: Externals)
    requires sc.flag == FlagIncomplete
    ensures EvaluateItems(test, sc, prior, ext).result in {True, False, Unknown}
    ensures |test.states| > 0 && test.check != CheckAtLeastOne ==> EvaluateItems(test, sc, prior, ext).result != True
    ensures |test.states| == 0 ==>
              EvaluateItems(test, sc, prior, ext).result == IncompleteExistence(test.existence, CountStatus(sc.items, StatusExists))
  {
  }

  /**
   COMPLETE: without states the existence check decides; with states the state
   check decides once the existence check is TRUE.
   */
  lemma CompleteFlag(test: Test, sc: Syschar, prior: seq<ResultItem>, ext: Externals)
    requires sc.flag == FlagComplete
    ensures var e := ExistenceCheck(test.existence, CountStatus(sc.items, StatusExists), CountStatus(sc.items, StatusError));
            && (|test.states| == 0 || e != True ==> EvaluateItems(test, sc, prior, ext).result == e)
            && (|test.states| > 0 && e == True ==>
                  EvaluateItems(test, sc, prior, ext)
                  == EvalCheckState(test, prior + NewResultItems(Dedupe(sc.items)), ext))
  {
  }

  /** ERROR, NOT_COLLECTED and NOT_APPLICABLE collections satisfy only an any_exist test without states. */
  lemma UncollectedFlags(test: Test, sc: Syschar, prior: seq<ResultItem>, ext: Externals)
    requires sc.flag in {FlagError, FlagNotCollected, FlagNotApplicable}
    ensures EvaluateItems(test, sc, prior, ext).result == True <==> test.existence == AnyExist && |test.states| == 0
    ensures sc.flag == FlagError && EvaluateItems(test, sc, prior, ext).result != True
            ==> EvaluateItems(test, sc, prior, ext).result == Error
  {
  }

  /** An item that does not exist fails every state check ALL it takes part in. */
  lemma MissingItemFailsAll(test: Test, items: seq<ResultItem>, k: nat, ext: Externals)
    requires test.check == CheckAll
    requires k < |items| && items[k].item.status == StatusDoesNotExist
    ensures EvalCheckState(test, items, ext).result == False
  {
    var o := EvalCheckState(test, items, ext);
    var rs := seq(|items|, i requires 0 <= i < |items| => o.items[i].result);
    assert rs[k] == False;
    TallyCounts(rs, False);
    assert False in multiset(rs);
    AllIsAnd(Tally(rs));
    AndTable(Tally(rs));
  }

  /** A state entity the item does not carry contributes UNKNOWN: the entity check over no results. */
  lemma AbsentEntityIsUnknown(item: SysItem, c: StateContent, ext: Externals)
    requires WellFormed(c)
    requires forall x :: x in item.ents ==> x.name != c.entity.value.name.value
    ensures ContentResult(item, c, ext) == Some(Unknown)
  {
    NamedNone(item.ents, c.entity.value.name.value);
  }

  /** A content fails exactly when some item entity of its name fails (an unresolved variable reference). */
  lemma ContentFails(item: SysItem, c: StateContent, ext: Externals)
    requires WellFormed(c)
    ensures ContentResult(item, c, ext).None?
            <==> exists x :: x in item.ents && x.name == c.entity.value.name.value
                             && EntityValueResult(x, c.entity.value, c.varCheck, ext).None?
  {
    var e := c.entity.value;
    var m := Named(item.ents, e.name.value);
    if ContentResult(item, c, ext).None? {
      var i :| 0 <= i < |m| && EntityValueResult(m[i], e, c.varCheck, ext).None?;
      assert m[i] in m;
    } else {
      forall x | x in item.ents && x.name == e.name.value
        ensures EntityValueResult(x, e, c.varCheck, ext).Some?
      {
        assert x in m;
        var i :| 0 <= i < |m| && m[i] == x;
      }
    }
  }

  /**
   Under the entity check ALL a content is FALSE exactly when no entity of its
   name fails and one of them is FALSE.
   */
  lemma ContentAllFalse(item: SysItem, c: StateContent, ext: Externals)
    requires WellFormed(c) && c.entCheck == CheckAll
    ensures ContentResult(item, c, ext) == Some(False)
            <==> (forall x :: x in item.ents && x.name == c.entity.value.name.value ==>
                                EntityValueResult(x, c.entity.value, c.varCheck, ext).Some?)
                 && exists x :: x in item.ents && x.name == c.entity.value.name.value
                                && EntityValueResult(x, c.entity.value, c.varCheck, ext) == Some(False)
  {
    var e := c.entity.value;
    var m := Named(item.ents, e.name.value);
    ContentFails(item, c, ext);
    var er := EntityResults(m, e, c.varCheck, ext);
    if er.Some? {
      var rs := er.value;
      var t := Tally(rs);
      AllIsAnd(t);
      TallyCounts(rs, False);
      assert Count(t, False) == t.falseCnt;
      if Decisive(t) {
        AndTable(t);
      } else {
        SharedEdgeCases(t, CheckAll, OpAnd);
      }
      assert t.falseCnt > 0 <==> False in rs;
      if exists x :: x in item.ents && x.name == e.name.value && EntityValueResult(x, e, c.varCheck, ext) == Some(False) {
        var x :| x in item.ents && x.name == e.name.value && EntityValueResult(x, e, c.varCheck, ext) == Some(False);
        assert x in m;
        var i :| 0 <= i < |m| && m[i] == x;
        assert rs[i] == False;
      }
      if False in rs {
        var i :| 0 <= i < |rs| && rs[i] == False;
        assert m[i] in m;
      }
    }
  }

  lemma {:induction false} NamedNone(ents: seq<SysEnt>, name: string)
    requires forall x :: x in ents ==> x.name != name
    ensures Named(ents, name) == []
  {
    if |ents| > 0 {
      assert ents[0] in ents;
      NamedNone(ents[1..], name);
    }
  }

  /** A variable whose collection failed makes every matching existing item entity ERROR. */
  lemma UncollectedVariableIsError(ent: SysEnt, e: Entity, varCheck: Check, ext: Externals)
    requires e.varRef && e.variable.Some? && e.variable.value.computed
    requires e.variable.value.flag in {FlagError, FlagDoesNotExist, FlagNotCollected, FlagNotApplicable}
    requires ent.status != StatusDoesNotExist
    ensures EntityValueResult(ent, e, varCheck, ext) == Some(Error)
  {
  }
}

=== FILE: rpm_vercmp.dfy ===
/**
 The RPM version comparison `rpmvercmp` (rpm 4.4.2.2) used for EVR strings.

 A version is read as a sequence of segments, each a maximal run of digits or
 a maximal run of ASCII letters; any other byte only separates segments. The
 first pair of aligned segments that differ decides; when one string runs out
 first, the one with characters left over is newer.
 */
module RpmVerCmp {
  import opened Ascii

  /** The comparison outcomes of rpmvercmp: 1 = first newer, 0 = same, -1 = second newer. */
  predicate IsOrder(r: int) {
    r == -1 || r == 0 || r == 1
  }

  /** strcmp reduced to its sign, comparing bytes as unsigned values. */
  function StrCmp(a: string, b: string): (r: int)
    ensures IsOrder(r)
    ensures r == 0 <==> a == b
  {
    if |a| == 0 && |b| == 0 then 0
    else if |a| == 0 then -1
    else if |b| == 0 then 1
    else if a[0] < b[0] then -1
    else if a[0] > b[0] then 1
    else
      var rest := StrCmp(a[1..], b[1..]);
      assert a == [a[0]] + a[1..] && b == [b[0]] + b[1..];
      rest
  }

  lemma {:induction false} StrCmpAntisymmetric(a: string, b: string)
    ensures StrCmp(a, b) == -StrCmp(b, a)
    decreases |a|
  {
    if |a| > 0 && |b| > 0 && a[0] == b[0] {
      StrCmpAntisymmetric(a[1..], b[1..]);
    }
  }

  /** Drops the separator bytes (neither letter nor digit) in front of the next segment. */
  function SkipSep(s: string): (r: string)
    ensures |r| <= |s| && r == s[|s| - |r|..]
    ensures |r| > 0 ==> IsAlnum(r[0])
    ensures forall i :: 0 <= i < |s| - |r| ==> !IsAlnum(s[i])
  {
    if |s| == 0 || IsAlnum(s[0]) then s else SkipSep(s[1..])
  }

  /** Length of the run of digits at the front of `s`. */
  function DigitRun(s: string): (n: nat)
    ensures n <= |s|
    ensures forall i :: 0 <= i < n ==> IsDigit(s[i])
    ensures n < |s| ==> !IsDigit(s[n])
  {
    if |s| == 0 || !IsDigit(s[0]) then 0 else 1 + DigitRun(s[1..])
  }

  /** Length of the run of letters at the front of `s`. */
  function AlphaRun(s: string): (n: nat)
    ensures n <= |s|
    ensures forall i :: 0 <= i < n ==> IsAlpha(s[i])
    ensures n < |s| ==> !IsAlpha(s[n])
  {
    if |s| == 0 || !IsAlpha(s[0]) then 0 else 1 + AlphaRun(s[1..])
  }

  /** Drops leading '0' digits of a numeric segment. */
  function StripZeros(s: string): (r: string)
    ensures |r| <= |s| && r == s[|s| - |r|..]
    ensures |r| > 0 ==> r[0] != '0'
    ensures forall i :: 0 <= i < |s| - |r| ==> s[i] == '0'
  {
    if |s| > 0 && s[0] == '0' then StripZeros(s[1..]) else s
  }

  /** Length of the segment at the front of `s` of the kind chosen by `isnum`. */
  function Run(s: string, isnum: bool): (n: nat)
    ensures n <= |s|
  {
    if isnum then DigitRun(s) else AlphaRun(s)
  }

  /** Decision once the segment walk stops: whoever has characters left over is newer. */
  function Leftover(one: string, two: string): int {
    if |one| == 0 && |two| == 0 then 0
    else if |one| == 0 then -1
    else 1
  }

  /**
   The decision on one aligned pair of segments at the front of `o` and `t`
   (0 when they tie and the walk goes on); the segment's kind is that of `o[0]`.
   */
  function SegmentOrder(o: string, t: string): (r: int)
    requires |o| > 0 && |t| > 0
    ensures IsOrder(r)
  {
    var isnum := IsDigit(o[0]);
    var n1 := Run(o, isnum);
    var n2 := Run(t, isnum);
    // n1 > 0 whenever o[0] is a letter or a digit, so only `t` can lack the segment
    if n2 == 0 then (if isnum then 1 else -1)
    else
      var s1 := if isnum then StripZeros(o[..n1]) else o[..n1];
      var s2 := if isnum then StripZeros(t[..n2]) else t[..n2];
      if isnum && |s1| > |s2| then 1
      else if isnum && |s2| > |s1| then -1
      else StrCmp(s1, s2)
  }

  /**
   The segment walk of rpmvercmp over the unread rest of both strings
   (its `while (*one && *two)` loop).
   */
  function Segments(one: string, two: string): (r: int)
    ensures IsOrder(r)
    decreases |one| + |two|
  {
    if |one| == 0 || |two| == 0 then Leftover(one, two)
    else
      var o := SkipSep(one);
      var t := SkipSep(two);
      if |o| == 0 || |t| == 0 then Leftover(o, t)
      else
        var rc := SegmentOrder(o, t);
        if rc != 0 then rc
        else
          var isnum := IsDigit(o[0]);
          var n1, n2 := Run(o, isnum), Run(t, isnum);
          FrontRunNonEmpty(o);
          assert |o[n1..]| + |t[n2..]| < |one| + |two|;
          Segments(o[n1..], t[n2..])
  }

  /** The segment at the front of a string that starts with a letter or a digit is not empty. */
  lemma FrontRunNonEmpty(o: string)
    requires |o| > 0 && IsAlnum(o[0])
    ensures Run(o, IsDigit(o[0])) > 0
  {
  }

  /** rpmvercmp(a, b): 1 when `a` is newer, 0 when the same version, -1 when `b` is newer. */
  function VerCmp(a: string, b: string): (r: int)
    ensures IsOrder(r)
    ensures a == b ==> r == 0
  {
    if a == b then 0 else Segments(a, b)
  }

  /** The early `strcmp(a, b) == 0` exit is only a shortcut: the segment walk itself ties a string with itself. */
  lemma {:induction false} SegmentsReflexive(s: string)
    ensures Segments(s, s) == 0
    decreases |s|
  {
    if |s| > 0 {
      var o := SkipSep(s);
      if |o| > 0 {
        var isnum := IsDigit(o[0]);
        var n := Run(o, isnum);
        SegmentsReflexive(o[n..]);
      }
    }
  }

  lemma SegmentOrderAntisymmetric(o: string, t: string)
    requires |o| > 0 && |t| > 0 && IsAlnum(o[0]) && IsAlnum(t[0])
    ensures SegmentOrder(o, t) == -SegmentOrder(t, o)
    ensures SegmentOrder(o, t) == 0 ==> IsDigit(o[0]) == IsDigit(t[0])
  {
    var isnum := IsDigit(o[0]);
    if IsDigit(t[0]) == isnum {
      var n1 := Run(o, isnum);
      var n2 := Run(t, isnum);
      var s1 := if isnum then StripZeros(o[..n1]) else o[..n1];
      var s2 := if isnum then StripZeros(t[..n2]) else t[..n2];
      StrCmpAntisymmetric(s1, s2);
    }
  }

  /** Swapping the arguments negates the segment walk. */
  lemma {:induction false} SegmentsAntisymmetric(one: string, two: string)
    ensures Segments(one, two) == -Segments(two, one)
    decreases |one| + |two|
  {
    if |one| > 0 && |two| > 0 {
      var o := SkipSep(one);
      var t := SkipSep(two);
      if |o| > 0 && |t| > 0 {
        SegmentOrderAntisymmetric(o, t);
        if SegmentOrder(o, t) == 0 {
          var isnum := IsDigit(o[0]);
          SegmentsAntisymmetric(o[Run(o, isnum)..], t[Run(t, isnum)..]);
        }
      }
    }
  }

  /** rpmvercmp is antisymmetric: comparing the other way round flips the sign. */
  lemma VerCmpAntisymmetric(a: string, b: string)
    ensures VerCmp(a, b) == -VerCmp(b, a)
  {
    if a != b {
      SegmentsAntisymmetric(a, b);
    }
  }

  /** A string that starts a numeric segment is newer than one that starts an alphabetic one. */
  lemma NumericBeatsAlpha(a: string, b: string)
    requires |a| > 0 && IsDigit(a[0])
    requires |b| > 0 && IsAlpha(b[0])
    ensures VerCmp(a, b) == 1
  {
    assert DigitRun(b) == 0;
    assert SegmentOrder(a, b) == 1;
    DecidedFront(a, b);
  }

  /** Two numbers in front: after leading zeros are dropped, the one with more digits is newer. */
  lemma MoreDigitsWins(da: string, ra: string, db: string, rb: string)
    requires |da| > 0 && |db| > 0
    requires forall i :: 0 <= i < |da| ==> IsDigit(da[i])
    requires forall i :: 0 <= i < |db| ==> IsDigit(db[i])
    requires |ra| > 0 ==> !IsDigit(ra[0])
    requires |rb| > 0 ==> !IsDigit(rb[0])
    requires |StripZeros(da)| > |StripZeros(db)|
    ensures VerCmp(da + ra, db + rb) == 1
  {
    var a, b := da + ra, db + rb;
    assert SkipSep(a) == a && SkipSep(b) == b;
    DigitRunOfConcat(da, ra);
    DigitRunOfConcat(db, rb);
    assert a[..|da|] == da && b[..|db|] == db;
  }

  /** Two numbers with as many significant digits, or two words, compare like strcmp when they differ. */
  lemma SameLengthSegmentsCompareLexically(sa: string, ra: string, sb: string, rb: string, isnum: bool)
    requires |sa| > 0 && |sb| > 0
    requires forall i :: 0 <= i < |sa| ==> (if isnum then IsDigit(sa[i]) else IsAlpha(sa[i]))
    requires forall i :: 0 <= i < |sb| ==> (if isnum then IsDigit(sb[i]) else IsAlpha(sb[i]))
    requires |ra| > 0 ==> !(if isnum then IsDigit(ra[0]) else IsAlpha(ra[0]))
    requires |rb| > 0 ==> !(if isnum then IsDigit(rb[0]) else IsAlpha(rb[0]))
    requires isnum ==> |StripZeros(sa)| == |StripZeros(sb)|
    requires (if isnum then StripZeros(sa) != StripZeros(sb) else sa != sb)
    ensures VerCmp(sa + ra, sb + rb)
            == (if isnum then StrCmp(StripZeros(sa), StripZeros(sb)) else StrCmp(sa, sb))
  {
    var a, b := sa + ra, sb + rb;
    RunOfConcat(sa, ra, isnum);
    RunOfConcat(sb, rb, isnum);
    assert a[..|sa|] == sa && b[..|sb|] == sb;
    FrontSegmentOrder(a, b, sa, sb, isnum);
    SameStringSameFront(a, b, sa, sb, isnum);
    assert IsAlnum(a[0]) && IsAlnum(b[0]);
    DecidedFront(a, b);
  }

  /** Equal strings have equal front segments. */
  lemma SameStringSameFront(a: string, b: string, sa: string, sb: string, isnum: bool)
    requires |a| >= |sa| && |b| >= |sb|
    requires a[..|sa|] == sa && b[..|sb|] == sb
    requires Run(a, isnum) == |sa| && Run(b, isnum) == |sb|
    ensures a == b ==> sa == sb
  {
  }

  /** When the front segments already differ, the walk stops there. */
  lemma DecidedFront(a: string, b: string)
    requires |a| > 0 && |b| > 0 && IsAlnum(a[0]) && IsAlnum(b[0])
    requires SegmentOrder(a, b) != 0
    ensures VerCmp(a, b) == SegmentOrder(a, b)
  {
    SegmentOrderAntisymmetric(a, a);
    assert a != b;
    SegmentsOfDecidedFront(a, b);
  }

  /** The walk over two strings that start with a letter or a digit stops at a decided front segment. */
  lemma SegmentsOfDecidedFront(a: string, b: string)
    requires |a| > 0 && |b| > 0 && IsAlnum(a[0]) && IsAlnum(b[0])
    requires SegmentOrder(a, b) != 0
    ensures Segments(a, b) == SegmentOrder(a, b)
  {
    assert SkipSep(a) == a && SkipSep(b) == b;
  }

  /** The decision on two front segments of the same kind and equal significant length. */
  lemma FrontSegmentOrder(a: string, b: string, sa: string, sb: string, isnum: bool)
    requires |sa| > 0 && |sb| > 0 && |a| >= |sa| && |b| >= |sb|
    requires a[..|sa|] == sa && b[..|sb|] == sb
    requires IsDigit(a[0]) == isnum
    requires Run(a, isnum) == |sa| && Run(b, isnum) == |sb|
    requires isnum ==> |StripZeros(sa)| == |StripZeros(sb)|
    ensures SegmentOrder(a, b) == (if isnum then StrCmp(StripZeros(sa), StripZeros(sb)) else StrCmp(sa, sb))
  {
  }

  /**
   Whichever version still has characters left over wins: appending to `x` anything
   that does not continue its last segment makes a newer version.
   */
  lemma {:induction false} LongerVersionIsNewer(x: string, s: string)
    requires |x| > 0 && IsAlnum(x[|x| - 1])
    requires |s| > 0 && !SameClass(x[|x| - 1], s[0])
    ensures VerCmp(x, x + s) == -1
    ensures VerCmp(x + s, x) == 1
  {
    assert x != x + s by { assert |x| < |x + s|; }
    SegmentsOfExtension(x, s);
    VerCmpAntisymmetric(x, x + s);
  }

  /** A run of separator bytes: neither letters nor digits. */
  predicate IsSeparators(s: string) {
    forall i :: 0 <= i < |s| ==> !IsAlnum(s[i])
  }

  /**
   Separators only separate: two versions that differ only in the non-empty
   runs of separators between the same segments are the same version
   ("1.0" and "1-0").
   */
  lemma SeparatorsDoNotMatter(x: string, s1: string, s2: string, y: string)
    requires |x| > 0 && IsAlnum(x[|x| - 1])
    requires |s1| > 0 && |s2| > 0 && IsSeparators(s1) && IsSeparators(s2)
    requires |y| == 0 || IsAlnum(y[0])
    ensures VerCmp(x + s1 + y, x + s2 + y) == 0
  {
    var t1, t2 := s1 + y, s2 + y;
    assert x + s1 + y == x + t1 && x + s2 + y == x + t2;
    assert t1[0] == s1[0] && t2[0] == s2[0];
    SegmentsAfterCommonFront(x, t1, t2);
    SeparatedTie(s1, s2, y);
  }

  /** An example: "1.0" and "1-0" are the same version. */
  lemma SeparatorsExample()
    ensures VerCmp("1.0", "1-0") == 0
  {
    SeparatorsDoNotMatter("1", ".", "-", "0");
    assert "1" + "." + "0" == "1.0" && "1" + "-" + "0" == "1-0";
  }

  /** Separator runs in front of the same rest tie. */
  lemma SeparatedTie(s1: string, s2: string, y: string)
    requires |s1| > 0 && |s2| > 0 && IsSeparators(s1) && IsSeparators(s2)
    requires |y| == 0 || IsAlnum(y[0])
    ensures Segments(s1 + y, s2 + y) == 0
  {
    SkipSeparators(s1, y);
    SkipSeparators(s2, y);
    SegmentsReflexive(y);
    if |y| > 0 {
      assert SkipSep(y) == y;
    }
  }

  /** Skipping the separators in front of `y` reaches `y` itself when it starts a segment (or is empty). */
  lemma {:induction false} SkipSeparators(s: string, y: string)
    requires IsSeparators(s)
    requires |y| == 0 || IsAlnum(y[0])
    ensures SkipSep(s + y) == y
    decreases |s|
  {
    if |s| > 0 {
      assert (s + y)[0] == s[0] && (s + y)[1..] == s[1..] + y;
      SkipSeparators(s[1..], y);
    } else {
      assert s + y == y;
    }
  }

  /** The segments of a common front `x` all tie, and the walk goes on with what follows it on either side. */
  lemma {:induction false} SegmentsAfterCommonFront(x: string, t1: string, t2: string)
    requires |x| > 0 && IsAlnum(x[|x| - 1])
    requires |t1| > 0 && !IsAlnum(t1[0]) && |t2| > 0 && !IsAlnum(t2[0])
    ensures Segments(x + t1, x + t2) == Segments(t1, t2)
    decreases |x|
  {
    CommonFrontStep(x, t1, t2);
    var rest := AfterSegment(x);
    AfterSegmentKeepsLast(x);
    if |rest| > 0 {
      SegmentsAfterCommonFront(rest, t1, t2);
    } else {
      EmptyConcat(rest, t1);
      EmptyConcat(rest, t2);
    }
  }

  lemma EmptyConcat(e: string, t: string)
    requires |e| == 0
    ensures e + t == t
  {
  }

  /** The first segment of `x` ties with itself, whatever non-segment bytes follow `x` on either side. */
  lemma CommonFrontStep(x: string, t1: string, t2: string)
    requires |x| > 0 && IsAlnum(x[|x| - 1])
    requires |t1| > 0 && !IsAlnum(t1[0]) && |t2| > 0 && !IsAlnum(t2[0])
    ensures Segments(x + t1, x + t2) == Segments(AfterSegment(x) + t1, AfterSegment(x) + t2)
  {
    var o := SkipSep(x);
    SkipSepOfExtension(x, t1);
    SkipSepOfExtension(x, t2);
    var isnum := IsDigit(o[0]);
    var n := Run(o, isnum);
    RunOfExtension(o, t1, isnum);
    RunOfExtension(o, t2, isnum);
    TakeOfConcat(o, t1, n);
    TakeOfConcat(o, t2, n);
    assert (o + t1)[0] == o[0];
    SegmentOrderTie(o + t1, o + t2, isnum, n);
    SegmentsStep(x + t1, x + t2);
    DropOfConcat(o, t1, n);
    DropOfConcat(o, t2, n);
    assert AfterSegment(x) == o[n..];
  }

  /** Two bytes of the same segment kind: both digits or both letters. */
  predicate SameClass(c: char, d: char) {
    (IsDigit(c) && IsDigit(d)) || (IsAlpha(c) && IsAlpha(d))
  }

  lemma {:induction false} SegmentsOfExtension(x: string, s: string)
    requires |x| > 0 && IsAlnum(x[|x| - 1])
    requires |s| > 0 && !SameClass(x[|x| - 1], s[0])
    ensures Segments(x, x + s) == -1
    decreases |x|
  {
    ExtensionStep(x, s);
    var rest := AfterSegment(x);
    if |rest| > 0 {
      AfterSegmentKeepsLast(x);
      SegmentsOfExtension(rest, s);
    }
  }

  /** What is left of `s` once its first segment (and the separators before it) is read. */
  function AfterSegment(s: string): (r: string)
    ensures |r| <= |s|
  {
    var o := SkipSep(s);
    if |o| == 0 then o else o[Run(o, IsDigit(o[0]))..]
  }

  lemma AfterSegmentKeepsLast(x: string)
    requires |x| > 0 && IsAlnum(x[|x| - 1])
    ensures |AfterSegment(x)| < |x|
    ensures |AfterSegment(x)| > 0 ==> AfterSegment(x)[|AfterSegment(x)| - 1] == x[|x| - 1]
  {
    SkipSepKeepsLast(x);
    var o := SkipSep(x);
    FrontRunNonEmpty(o);
    DropKeepsLast(o, Run(o, IsDigit(o[0])), AfterSegment(x), x[|x| - 1]);
  }

  lemma DropKeepsLast(o: string, n: nat, r: string, c: char)
    requires 0 < n <= |o| && r == o[n..] && o[|o| - 1] == c
    ensures |r| < |o|
    ensures |r| > 0 ==> r[|r| - 1] == c
  {
  }

  lemma {:induction false} SkipSepKeepsLast(x: string)
    requires |x| > 0 && IsAlnum(x[|x| - 1])
    ensures |SkipSep(x)| > 0 && SkipSep(x)[|SkipSep(x)| - 1] == x[|x| - 1]
    decreases |x|
  {
    if !IsAlnum(x[0]) {
      SkipSepKeepsLast(x[1..]);
    }
  }

  /** The first segment of `x` ties with itself in `x + s`, and the walk goes on with what follows it. */
  lemma ExtensionStep(x: string, s: string)
    requires |x| > 0 && IsAlnum(x[|x| - 1])
    requires |s| > 0 && !SameClass(x[|x| - 1], s[0])
    ensures Segments(x, x + s) == Segments(AfterSegment(x), AfterSegment(x) + s)
  {
    var o := SkipSep(x);
    SkipSepOfExtension(x, s);
    var isnum := IsDigit(o[0]);
    var n := Run(o, isnum);
    RunOfExtension(o, s, isnum);
    TakeOfConcat(o, s, n);
    SegmentOrderTie(o, o + s, isnum, n);
    SegmentsStep(x, x + s);
    DropOfConcat(o, s, n);
    var rest := o[n..];
    assert AfterSegment(x) == rest;
    assert Segments(x, x + s) == Segments(rest, (o + s)[n..]);
  }

  lemma TakeOfConcat(o: string, s: string, n: nat)
    requires n <= |o|
    ensures (o + s)[..n] == o[..n]
  {
  }

  lemma DropOfConcat(o: string, s: string, n: nat)
    requires n <= |o|
    ensures (o + s)[n..] == o[n..] + s
  {
  }

  /** One step of the walk: a tie on the front segments moves on past both of them. */
  lemma SegmentsStep(one: string, two: string)
    requires |SkipSep(one)| > 0 && |SkipSep(two)| > 0
    ensures var o, t := SkipSep(one), SkipSep(two);
            var isnum := IsDigit(o[0]);
            SegmentOrder(o, t) == 0 ==> Segments(one, two) == Segments(o[Run(o, isnum)..], t[Run(t, isnum)..])
  {
  }

  /** Two identical front segments tie. */
  lemma SegmentOrderTie(o: string, t: string, isnum: bool, n: nat)
    requires |o| > 0 && |t| > 0 && isnum == IsDigit(o[0])
    requires n > 0 && Run(o, isnum) == n && Run(t, isnum) == n
    requires o[..n] == t[..n]
    ensures SegmentOrder(o, t) == 0
  {
  }

  /** Separators in front are skipped the same way whatever follows an alphanumeric last byte. */
  lemma {:induction false} SkipSepOfExtension(x: string, s: string)
    requires |x| > 0 && IsAlnum(x[|x| - 1])
    ensures SkipSep(x + s) == SkipSep(x) + s
    ensures |SkipSep(x)| > 0 && SkipSep(x)[|SkipSep(x)| - 1] == x[|x| - 1]
    decreases |x|
  {
    if !IsAlnum(x[0]) {
      assert (x + s)[1..] == x[1..] + s;
      SkipSepOfExtension(x[1..], s);
    }
  }

  lemma RunOfExtension(o: string, s: string, isnum: bool)
    requires |o| > 0 && IsAlnum(o[0]) && isnum == IsDigit(o[0])
    requires |s| > 0 && !SameClass(o[|o| - 1], s[0])
    ensures Run(o + s, isnum) == Run(o, isnum)
    ensures Run(o, isnum) > 0
  {
    var n := Run(o, isnum);
    if n == |o| {
      RunOfConcat(o, s, isnum);
    } else {
      RunOfPrefix(o, s, isnum);
    }
  }

  /** The run of `a + r` stops at the end of `a` when `a` is all run and `r` does not continue it. */
  lemma RunOfConcat(a: string, r: string, isnum: bool)
    requires forall i :: 0 <= i < |a| ==> (if isnum then IsDigit(a[i]) else IsAlpha(a[i]))
    requires |r| > 0 ==> !(if isnum then IsDigit(r[0]) else IsAlpha(r[0]))
    ensures Run(a + r, isnum) == |a|
    decreases |a|
  {
    if |a| > 0 {
      assert (a + r)[1..] == a[1..] + r;
      RunOfConcat(a[1..], r, isnum);
    } else {
      assert a + r == r;
    }
  }

  lemma DigitRunOfConcat(d: string, r: string)
    requires forall i :: 0 <= i < |d| ==> IsDigit(d[i])
    requires |r| > 0 ==> !IsDigit(r[0])
    ensures DigitRun(d + r) == |d|
  {
    RunOfConcat(d, r, true);
  }

  /** A run that ends inside `o` is not changed by appending to `o`. */
  lemma RunOfPrefix(o: string, s: string, isnum: bool)
    requires Run(o, isnum) < |o|
    ensures Run(o + s, isnum) == Run(o, isnum)
    decreases |o|
  {
    if Run(o, isnum) > 0 {
      assert (o + s)[1..] == o[1..] + s;
      RunOfPrefix(o[1..], s, isnum);
    }
  }
}

=== FILE: wrappers.dfy ===
/** Optional values: the model's stand-in for a C pointer that may be NULL. */
module Wrappers {

  datatype Option<+T> = None | Some(value: T) {

    /** Returns the wrapped value, or `default` for None. */
    function GetOr(default: T): T {
      match this
      case Some(v) => v
      case None => default
    }
  }
}
